=== FILE: README.md ===
# IT asset and ticketing rules, modelled in Dafny

This project models the application rules of an IT asset-management and helpdesk system.
The system has a Laravel API in two generations and a React front end.
Each controller action becomes a pure function from the store, the request and the current time to a response and a new store.
Every store is an in-memory sequence of records.
Each module carries proofs about its functions.

The modules follow the system's components:

- `Common`: the values shared by all modules.
  - `Option` and `Input`. Input is the request parameter as absent, null or given.
  - The request as a list of named values.
  - PHP's `empty` and JavaScript truthiness.
  - Decimal digits, padding, `Filter` and `Count`.
  - Validator formats, passed in as parameters.
- `Grouping`: counting by key, in first-occurrence order. Both report pages group this way.
- `SheetImport`: the spreadsheet exchange of the asset-management page.
  - The column map and the export row mapping.
  - The import of a header row plus data rows. It is all-or-nothing, with lookups that ignore case, required checks in a fixed order, and format warnings.
  - The export-then-import round trip.
- `SheetTemplate`: the downloadable import template. A template filled from the catalog imports back cleanly.
- `BulkImport`: the API's row-by-row import.
  - Each row is committed on its own.
  - Category and status names must match exactly.
  - A duplicate code is refused, including a code created by an earlier row of the same file.
  - A row whose length differs from the header row aborts the request. The spreadsheet reader pads every row to the sheet's full column range, so this path is reachable only from a row list that did not come from a real workbook.
  - A date cell the asset model's `date` cast cannot read makes its row fail, with the exception's message.
  - Also the template this import hands out.
- `AssetRows` and `AuditTrail`: the asset-management API's asset store and its history.
  - Every store, update and delete writes history inside a transaction.
  - An update logs each changed field that was set before.
  - History is read newest first.
- `LegacyAssets`: the older API's asset controller.
  - It logs only status and holder changes, with literal defaults.
  - It writes history before the update, with no transaction.
  - It exports a fixed 18-column CSV.
- `ReferenceCatalog`: the category and status stores.
  - Names stay unique.
  - An entry that an asset references cannot be deleted.
  - `AssetStatusController` is line for line the same as `AssetCategoryController`, so one model covers both. The table cites the category controller.
- `Access`: the role-to-permission table and the middleware's 401/403/pass decision.
- `Tickets`: the ticket controller.
  - Ticket numbers.
  - The initial status.
  - The completion stamp.
  - Comments, attachments and the dashboard counts.
- `Maintenance`: maintenance schedules.
  - Creation defaults.
  - The completion stamp.
  - The overdue and due-soon predicates.
  - The overdue sweep and automatic scheduling.
  - The dashboard.
- `Notifications`: in-app notifications.
  - Who receives each event's notification.
  - The read flag.
  - The colour of each notification type.
- `AssetReports`: the report page's `processAssetData`.
  - Groupings, utilisation and alerts.
  - The summary.
- `ServerReports`: the API's report controller.
  - The collection aggregations of its asset, maintenance, ticket and dashboard reports.
  - The export type switch.

Time is an integer count of seconds passed in as a parameter. One day is 86400 seconds.

## Model

| member | source | states |
|---|---|---|
| SheetImport.HeaderRow | asset-management/frontend/src/utils/excelUtils.ts:21-40 | The header row holds the column map's keys, one per mapped field, in the map's order |
| SheetImport.HeaderInjective | asset-management/frontend/src/utils/excelUtils.ts:21-40 | No two fields share a header, so reading the map from header to field is well defined |
| SheetImport.ColumnField | asset-management/frontend/src/utils/excelUtils.ts:211 | A header maps to a field exactly when it is that field's key, and to nothing when no key matches |
| SheetImport.MatchIndex | asset-management/frontend/src/utils/excelUtils.ts:215-223 | The lookup position is the first entry whose name equals the value ignoring case; no earlier entry matches |
| SheetImport.FindByNameSpec | asset-management/frontend/src/utils/excelUtils.ts:215-225 | A lookup cell finds an entry exactly when some entry's name equals it ignoring case, and then it finds the first such entry; an empty cell finds nothing |
| SheetImport.IdIndex | asset-management/frontend/src/utils/excelUtils.ts:52-53 | The export's name lookup stops at the first entry with the id, and no earlier entry has it |
| SheetImport.ApplyColumn | asset-management/frontend/src/utils/excelUtils.ts:209-234 | One column adds at most one problem, only a lookup problem, and never withdraws an earlier one |
| SheetImport.ScanRow | asset-management/frontend/src/utils/excelUtils.ts:209-234 | Visiting the columns of a row raises only lookup problems, at most one per column |
| SheetImport.ScanErrorsGrow | asset-management/frontend/src/utils/excelUtils.ts:209-234 | A problem an earlier column reported is still reported after any later column |
| SheetImport.RowReportsLookup | asset-management/frontend/src/utils/excelUtils.ts:214-229 | A non-empty type or status cell that names no catalog entry is an error of its row, whatever the other cells hold |
| SheetImport.MissingRequired | asset-management/frontend/src/utils/excelUtils.ts:237-256 | A draft passes the required checks exactly when code, serial number and location are non-empty and both ids are set and non-zero; otherwise a required-value problem is reported |
| SheetImport.MissingRequiredOrder | asset-management/frontend/src/utils/excelUtils.ts:237-256 | The reported problem is the first missing value in the order code, serial number, location, type, status |
| SheetImport.OctetIsByte | asset-management/frontend/src/utils/excelUtils.ts:260 | One octet of the address pattern accepts exactly the one- to three-digit strings whose value is at most 255 |
| SheetImport.CheckFormats | asset-management/frontend/src/utils/excelUtils.ts:258-274 | The format checks keep both ids and every non-date field; each date they leave set is YYYY-MM-DD |
| SheetImport.CheckFormatsDates | asset-management/frontend/src/utils/excelUtils.ts:266-274 | A malformed date is cleared and a well-formed one kept; the set of fields does not change |
| SheetImport.CheckFormatsWarnings | asset-management/frontend/src/utils/excelUtils.ts:258-274 | At most three warnings, an address warning first exactly when the address is malformed; none exactly when the address and both dates are empty or well formed |
| SheetImport.ProcessRow | asset-management/frontend/src/utils/excelUtils.ts:198-277 | A blank row gives nothing; a kept row is complete, with required values, both ids and clean dates; a non-blank row that is not kept carries an error; a rejected row carries no warning |
| SheetImport.OneRequiredProblem | asset-management/frontend/src/utils/excelUtils.ts:237-256 | A row reports at most one missing required value, and only as its last error |
| SheetImport.WarningsAreFormatProblems | asset-management/frontend/src/utils/excelUtils.ts:258-274 | Warnings are only about addresses and dates |
| SheetImport.Label | asset-management/frontend/src/utils/excelUtils.ts:199-273 | Each problem of a row is reported once, labelled with that row's spreadsheet number |
| SheetImport.ProcessRowsSpec | asset-management/frontend/src/utils/excelUtils.ts:197-281 | Every message names a non-blank data row; every kept draft is complete; with no error there is one draft per non-blank row |
| SheetImport.CollectReports | asset-management/frontend/src/utils/excelUtils.ts:197-281 | A problem of the row at index j is reported as an error of spreadsheet row j + 2 |
| SheetImport.CollectAccepted | asset-management/frontend/src/utils/excelUtils.ts:197-281 | Rows kept without error give no error and exactly their drafts, in row order |
| SheetImport.MissingHeadersSpec | asset-management/frontend/src/utils/excelUtils.ts:186-187 | The missing columns are exactly the required headers the header row lacks |
| SheetImport.ImportOutcome | asset-management/frontend/src/utils/excelUtils.ts:170-296 | A sheet without a data row, or whose header row lacks a required column, fails with that one message; otherwise the import succeeds exactly when no row raised an error, then with one complete draft per non-blank row and warnings only when there are some; reported errors are never empty and name non-blank rows |
| SheetImport.ImportAccepts | asset-management/frontend/src/utils/excelUtils.ts:283-296 | A sheet whose rows raise no error is accepted with their drafts, and without warnings when they raised none |
| SheetImport.ImportOfRows | asset-management/frontend/src/utils/excelUtils.ts:283-296 | Past the two whole-sheet checks, the import reports exactly what the row pass found: failure with errors and warnings, or success with the drafts |
| SheetImport.UnknownLookupRejects | asset-management/frontend/src/utils/excelUtils.ts:214-290 | A non-empty type or status cell that names no catalog entry fails the whole import, with an error for that row |
| SheetImport.SheetReportsRow | asset-management/frontend/src/utils/excelUtils.ts:199-290 | Any error of a data row fails the import and is reported with that row's number |
| SheetImport.ExportRow | asset-management/frontend/src/utils/excelUtils.ts:51-74 | An exported row holds one cell per mapped column: the catalog names for type and status, the field's text otherwise |
| SheetImport.ExportRows | asset-management/frontend/src/utils/excelUtils.ts:51-75 | One exported row per asset, in order |
| SheetImport.ExportHeaderComplete | asset-management/frontend/src/utils/excelUtils.ts:21-187 | The export's header row lacks none of the headers the import requires |
| SheetImport.DistinctNamesResolve | asset-management/frontend/src/utils/excelUtils.ts:52-223 | When catalog names are non-empty and distinct ignoring case, every listed non-zero id survives export to its name and import back to the same id |
| SheetImport.ImportExportedRow | asset-management/frontend/src/utils/excelUtils.ts:51-277 | An exported row of an exportable asset is kept without error and read back as that asset, and without warning when its address and dates are clean |
| SheetImport.ExportImportRoundTrip | asset-management/frontend/src/utils/excelUtils.ts:51-296 | Exporting assets and importing the sheet gives back every asset: success with one draft per asset holding its ids and non-empty texts, dates only when well formed, and no warnings when addresses and dates were clean |
| SheetImport.RowLabelRoundTrip | asset-management/frontend/src/utils/excelUtils.ts:173-273 | Exactly the row messages start with a row label, and that label reads back as their row number |
| SheetTemplate.TemplateShape | asset-management/frontend/src/utils/excelUtils.ts:333-357 | The template has two rows: the export's header row, whose second key is "Asset Type", and a sample row naming the first category or "Laptop" |
| SheetTemplate.TemplateIsExport | asset-management/frontend/src/utils/excelUtils.ts:333-357 | With a first category and status that have names and ids, the template is exactly the export of its sample asset |
| SheetTemplate.SampleIsClean | asset-management/frontend/src/utils/excelUtils.ts:337-356 | The sample row's address and dates pass the import's format checks |
| SheetTemplate.ExportedSampleImports | asset-management/frontend/src/utils/excelUtils.ts:51-296 | The export of the sample asset alone imports back as that asset, with no error and no warning |
| SheetTemplate.TemplateImports | asset-management/frontend/src/utils/excelUtils.ts:325-357 | A template filled from a catalog whose first category and status have names and ids imports cleanly: one asset, read back as the sample, with no errors and no warnings |
| SheetTemplate.TemplateNeedsCategories | asset-management/frontend/src/utils/excelUtils.ts:339-356 | With no category at all, the template's own sample row is rejected for its "Laptop" type |
| BulkImport.LookupSpec | backend/app/Http/Controllers/ImportController.php:42 | A combined row's key is absent exactly when no header equals it; otherwise it holds the cell under the last header equal to the key, null for an empty cell |
| BulkImport.ErrorText | backend/app/Http/Controllers/ImportController.php:46-66 | Every row error message starts with "Row ", the spreadsheet row number and ": " |
| BulkImport.FindNamed | backend/app/Http/Controllers/ImportController.php:51-52 | The catalog lookup finds nothing exactly when no entry has the name, and otherwise returns an entry of the catalog with exactly that name |
| BulkImport.OptionalValuesSpec | backend/app/Http/Controllers/ImportController.php:74-89 | `$data[$key] ?? null` for the fifteen optional keys, in storing order: each value is the cell under the last header with that key (`array_combine` lets later keys win), null for an empty cell, and null when no header has the key |
| BulkImport.RowStepSpec | backend/app/Http/Controllers/ImportController.php:45-95 | A data row is rejected for missing fields exactly when code, category or status is empty. Otherwise it is rejected for an unknown category, then an unknown status, then a taken code. Past those, a truthy Date Deliver or Date Replacement text that the `date` cast cannot parse makes `create` throw, and the row is reported with the message for the first such date. Every error carries row index + 2. A row is created exactly when all of these pass, with the row's code, the ids of the entries named by its cells, and its optional values |
| BulkImport.BlankRowRejected | backend/app/Http/Controllers/ImportController.php:45-47 | A row whose cells are all empty is reported as missing required fields rather than skipped |
| BulkImport.AbsentColumnIsNull | backend/app/Http/Controllers/ImportController.php:74-89 | An optional column with no header is stored as null |
| BulkImport.LoopCounts | backend/app/Http/Controllers/ImportController.php:40-96 | Rows are committed one at a time: the store only grows, by exactly the imported count, and every row visited before a crash is either imported or reported |
| BulkImport.LoopCrash | backend/app/Http/Controllers/ImportController.php:42 | The loop stops exactly when some data row differs in length from the header row, and then at the first such row |
| BulkImport.LoopErrorRows | backend/app/Http/Controllers/ImportController.php:46-66 | Reported rows lie between 2 and the last row number and strictly increase |
| BulkImport.LoopKeepsCodesUnique | backend/app/Http/Controllers/ImportController.php:65-68 | No asset code is created twice, neither one already stored nor one an earlier row of the same sheet created |
| BulkImport.ImportSpec | backend/app/Http/Controllers/ImportController.php:28-105 | An import keeps the assets it already created even when later rows fail; it completes exactly when every data row is as long as the header row, with imported plus errors equal to the number of data rows, errors in row order and codes still unique; otherwise it fails at a row between 2 and the sheet length |
| BulkImport.DuplicateRowRejected | backend/app/Http/Controllers/ImportController.php:64-68 | A sheet holding twice the same row, one that would be created (its dates cast), imports it once and reports row 3 as an existing asset code |
| BulkImport.BadDateRowsReported | backend/app/Http/Controllers/ImportController.php:84-95 | A sheet holding twice the same row, one whose date the cast rejects, creates nothing and reports rows 2 and 3 with the cast's message, not as an existing code |
| BulkImport.TemplateShape | backend/app/Http/Controllers/ImportController.php:117-167 | The template has 18 headers and a sample row of 18 cells; the required keys sit at columns 0, 1 and 8, and the optional keys the importer reads are the remaining headers in order |
| BulkImport.TemplateHasEveryKey | backend/app/Http/Controllers/ImportController.php:74-136 | Every optional key the importer reads is a header of the template |
| AssetRows.GetSpec | asset-management/backend/app/Http/Controllers/AssetController.php:167 | a request field is absent exactly when no entry carries its name, and otherwise holds the value sent under that name |
| AssetRows.NewAttrs | asset-management/backend/app/Http/Controllers/AssetController.php:79 | `Asset::create($request->all())` fills exactly the fillable columns, each with the request's value or null |
| AssetRows.Assign | asset-management/backend/app/Http/Controllers/AssetController.php:164 | `$asset->update($request->all())` overwrites the fillable fields that were sent and keeps every other column and the id |
| AssetRows.Show | asset-management/backend/app/Http/Controllers/AssetController.php:108-120 | nothing (a 404) exactly when no asset has the id; otherwise a stored asset with that id. The older API's `show` (backend/app/Http/Controllers/AssetController.php, lines 99 to 114) is the same lookup |
| AssetRows.AppendKeepsColumn | asset-management/backend/app/Http/Controllers/AssetController.php:50-51 | adding a row whose value no other row holds keeps a unique column unique |
| AssetRows.ReplaceKeepsColumn | asset-management/backend/app/Http/Controllers/AssetController.php:134-135 | replacing a row by one whose value no other row holds keeps a unique column unique |
| AssetRows.RemoveKeepsRows | asset-management/backend/app/Http/Controllers/AssetController.php:221 | removing a row keeps ids distinct and a unique column unique |
| AuditTrail.ChangedBy | asset-management/backend/app/Http/Controllers/AssetController.php:87-216 | `changed_by` is 'System' only when the field is missing; a sent value, null included, is kept |
| AuditTrail.Store | asset-management/backend/app/Http/Controllers/AssetController.php:46-106 | 422 exactly when validation fails and 500 exactly on a database fault, both leaving the tables as they were; otherwise the asset is appended with exactly one 'created' history row (old value null, new value 'Asset created') |
| AuditTrail.Diff | asset-management/backend/app/Http/Controllers/AssetController.php:167-179 | one history row per request field that the original row holds set and that the request changes |
| AuditTrail.DiffSpec | asset-management/backend/app/Http/Controllers/AssetController.php:167-179 | every history row belongs to a changed field, and every changed field has its row carrying the field, the old value, the new value and `changed_by` |
| AuditTrail.UnsetOrSameNotLogged | asset-management/backend/app/Http/Controllers/AssetController.php:168 | a field the original row lacks or holds as null, or sends unchanged, gets no history row |
| AuditTrail.Update | asset-management/backend/app/Http/Controllers/AssetController.php:122-195 | 404 for an unknown id, 422 for an invalid request and 500 on a fault, all leaving the tables as they were; otherwise the asset takes the sent fields and the history gains exactly the diff rows |
| AuditTrail.Destroy | asset-management/backend/app/Http/Controllers/AssetController.php:197-236 | 404 for an unknown id and 500 on a fault, both changing nothing; otherwise exactly one 'deleted' row ('Asset exists' to 'Asset deleted') is written and exactly that asset is removed |
| AuditTrail.Insert | asset-management/backend/app/Http/Controllers/AssetController.php:278 | inserting a row into a newest-first list keeps it newest first and adds exactly that row |
| AuditTrail.SortNewestFirst | asset-management/backend/app/Http/Controllers/AssetController.php:278 | the rows come out ordered by change date, newest first, as a permutation of the input |
| AuditTrail.GetHistory | asset-management/backend/app/Http/Controllers/AssetController.php:267-282 | 404 exactly when no asset has the id; otherwise the asset's rows, newest first, as a permutation of its rows |
| AuditTrail.HistoryIsOwn | asset-management/backend/app/Http/Controllers/AssetController.php:277-279 | the history read back holds every row of that asset and no row of another |
| AuditTrail.StoreKeepsValid | asset-management/backend/app/Http/Controllers/AssetController.php:50-79 | creating an asset keeps ids distinct and asset codes and serial numbers unique |
| AuditTrail.UpdateKeepsValid | asset-management/backend/app/Http/Controllers/AssetController.php:134-164 | updating an asset keeps ids distinct and asset codes and serial numbers unique |
| AuditTrail.DestroyKeepsValid | asset-management/backend/app/Http/Controllers/AssetController.php:221 | deleting an asset keeps ids distinct and asset codes and serial numbers unique |
| LegacyAssets.Lookup | backend/app/Http/Controllers/AssetController.php:52-59 | an id in the request finds the catalog entry with that id exactly when one exists |
| LegacyAssets.Store | backend/app/Http/Controllers/AssetController.php:48-97 | 201 exactly when validation passes, and then the asset is appended with a fresh id; a 'user_change' row (previous holder defaulting to 'New Asset', installer to 'System') is written exactly when `current_user` is filled; otherwise 422 and nothing changes |
| LegacyAssets.Update | backend/app/Http/Controllers/AssetController.php:116-185 | 404 for an unknown id and 422 for an invalid request, both changing nothing; a successful update writes its history rows and then the assigned fields; a failing final write keeps the history rows but not the change |
| LegacyAssets.UpdateHistory | backend/app/Http/Controllers/AssetController.php:155-176 | an update writes a 'status_change' row exactly when the status is filled and differs, and a 'user_change' row exactly when the holder is filled and differs, status first, so at most two rows and none for any other field |
| LegacyAssets.HistoryOutlivesFailedUpdate | backend/app/Http/Controllers/AssetController.php:155-178 | without a transaction, a failing asset write still leaves history rows behind whenever the status or the holder changed |
| LegacyAssets.Destroy | backend/app/Http/Controllers/AssetController.php:187-204 | 404 for an unknown id with nothing changed; otherwise exactly that asset is removed, and no history row is written either way |
| LegacyAssets.StoreKeepsConsistent | backend/app/Http/Controllers/AssetController.php:51-78 | creating an asset keeps ids distinct and asset codes unique |
| LegacyAssets.UpdateKeepsConsistent | backend/app/Http/Controllers/AssetController.php:128-178 | updating an asset keeps ids distinct and asset codes unique, since the unique rule ignores only the asset itself |
| LegacyAssets.DestroyKeepsConsistent | backend/app/Http/Controllers/AssetController.php:198 | deleting an asset keeps ids distinct and asset codes unique |
| LegacyAssets.Line | backend/app/Http/Controllers/AssetController.php:276-296 | an asset's CSV line exists exactly when its category and status rows exist; it has 18 cells, starting with the asset code, with the category name second and the status name ninth |
| LegacyAssets.LineCells | backend/app/Http/Controllers/AssetController.php:277-296 | every other cell prints the asset column at the same position, with null as an empty field |
| LegacyAssets.ExportCsv | backend/app/Http/Controllers/AssetController.php:256-303 | the export is the header, then one line per asset in table order, stopping at the first asset whose category or status row is missing |
| LegacyAssets.ExportShape | backend/app/Http/Controllers/AssetController.php:269-296 | the header and every asset line have the same 18 columns, and each asset line starts with that asset's code |
| ReferenceCatalog.IndexOf | asset-management/backend/app/Http/Controllers/AssetCategoryController.php:54 | `find($id)` gives the first entry with the id, and nothing exactly when no entry has it |
| ReferenceCatalog.Store | asset-management/backend/app/Http/Controllers/AssetCategoryController.php:17-37 | 201 exactly when the name is filled and no entry holds it yet, and then the entry is appended with the next id; otherwise 422 and the table is unchanged |
| ReferenceCatalog.Show | asset-management/backend/app/Http/Controllers/AssetCategoryController.php:39-50 | 404 exactly when no entry has the id; otherwise the entry with that id |
| ReferenceCatalog.Update | asset-management/backend/app/Http/Controllers/AssetCategoryController.php:52-80 | 404 for an unknown id and 422 when another entry holds the new name, both changing nothing; otherwise only that entry changes, taking the fields that were sent |
| ReferenceCatalog.Destroy | asset-management/backend/app/Http/Controllers/AssetCategoryController.php:82-104 | 404 for an unknown id and 400 while an asset points at the entry, both changing nothing; otherwise exactly that entry is removed |
| ReferenceCatalog.StoreKeepsValid | asset-management/backend/app/Http/Controllers/AssetCategoryController.php:20 | creating an entry keeps ids distinct and names unique |
| ReferenceCatalog.UpdateKeepsValid | asset-management/backend/app/Http/Controllers/AssetCategoryController.php:63 | renaming an entry keeps ids distinct and non-blank names unique |
| ReferenceCatalog.DestroyKeepsValid | asset-management/backend/app/Http/Controllers/AssetCategoryController.php:99 | deleting an entry keeps ids distinct and names unique |
| ReferenceCatalog.RunKeepsValid | asset-management/backend/app/Http/Controllers/AssetCategoryController.php:20-63 | across any sequence of store, update and destroy requests, ids stay distinct and non-blank names stay pairwise distinct |
| ReferenceCatalog.IndexUnique | asset-management/backend/app/Http/Controllers/AssetCategoryController.php:41-84 | in a valid table the entry found by id is the only one with that id |
| ReferenceCatalog.StoreThenShow | asset-management/backend/app/Http/Controllers/AssetCategoryController.php:31-41 | an entry just created is shown back as it was created |
| ReferenceCatalog.OwnNameAccepted | asset-management/backend/app/Http/Controllers/AssetCategoryController.php:63 | sending an entry's own current name passes the update |
| ReferenceCatalog.OtherNameRejected | asset-management/backend/app/Http/Controllers/AssetCategoryController.php:63-72 | sending another entry's non-blank name fails with 422 and changes nothing |
| ReferenceCatalog.ReferencedSurvives | asset-management/backend/app/Http/Controllers/AssetCategoryController.php:93-97 | an entry some asset points at survives every delete request |
| ReferenceCatalog.DestroyRemoves | asset-management/backend/app/Http/Controllers/AssetCategoryController.php:99 | after an accepted delete the id is gone, and every other entry remains |
| ReferenceCatalog.BlankNamesRepeat | asset-management/backend/app/Http/Controllers/AssetCategoryController.php:63-74 | the `unique` rule skips blank values, so two entries can both be renamed to the same blank name |
| Access.Grants | backend/app/Models/User.php:75-80 | each role's permission set, and every role grants only names drawn from the six permissions the application knows |
| Access.PermissionTable | backend/app/Models/User.php:73-84 | for a known permission, `hasPermission` holds exactly when the role's set grants it, and an admin (the "all" wildcard) holds every permission |
| Access.UnknownRoleHasNone | backend/app/Models/User.php:82-83 | a role missing from the table, or a null role, holds no permission at all |
| Access.ManagerAndTechnicianDiffer | backend/app/Models/User.php:77-78 | a manager may view reports but not create tickets; a technician may create tickets but not view reports |
| Access.RoleColor | backend/app/Models/User.php:86-95 | every role other than admin, manager and technician gets the gray badge class |
| Access.RoleColorsDistinct | backend/app/Models/User.php:88-93 | the admin, manager and technician badges differ from each other and from the gray fallback |
| Access.Handle | backend/app/Http/Middleware/CheckPermission.php:11-30 | 401 exactly when nobody is authenticated, 403 exactly when the user lacks the permission, otherwise the pipeline's own response to the unchanged request |
| Access.AdminPasses | backend/app/Http/Middleware/CheckPermission.php:20-29 | an authenticated admin always reaches the next handler, whatever permission the route names |
| Access.PlainUserForbidden | backend/app/Http/Middleware/CheckPermission.php:22-27 | a plain user gets 403 on the report and editing permissions |
| Common.PadLeft | backend/app/Http/Controllers/TicketController.php:73 | `str_pad(…, STR_PAD_LEFT)`: the result ends with the input, is at least the requested width, and is filled on the left with the pad character only |
| Common.ValueIgnoresZeroPadding | backend/app/Http/Controllers/TicketController.php:73 | padding a digit string with leading zeros keeps it a digit string denoting the same number |
| Tickets.TicketNumberRoundTrip | backend/app/Http/Controllers/TicketController.php:73 | a new ticket number `TKT-{year}-{count+1 padded to 4}` reads back as sequence number count + 1 for that year, and carries at least four digits |
| Tickets.IndexOf | backend/app/Http/Controllers/TicketController.php:114 | `find($id)` finds a ticket with the id, and nothing exactly when no ticket has it |
| Tickets.Store | backend/app/Http/Controllers/TicketController.php:51-92 | 201 exactly when the validation of the modelled fields passes (priority one of low, medium, high, urgent); otherwise 422 and nothing changes. The new ticket is numbered from the stored count, starts 'open' without a completion time, and is created by the authenticated user or user 1. It carries the request's asset, title (at most 200 characters), description, priority, technician (an existing user), due date, category and notes |
| Tickets.Show | backend/app/Http/Controllers/TicketController.php:94-110 | 404 exactly when no ticket has the id; otherwise the stored ticket with that id |
| Tickets.Update | backend/app/Http/Controllers/TicketController.php:112-156 | 404 for an unknown id and 422 for a request invalid in a modelled field (status outside open, in_progress, completed, cancelled, on_hold, or a bad priority), both changing nothing; otherwise only that ticket changes, taking every mass-assigned field sent, the unvalidated `asset_id`, `ticket_number` and `completed_at` included |
| Tickets.Destroy | backend/app/Http/Controllers/TicketController.php:158-175 | 404 for an unknown id with nothing changed; otherwise exactly that ticket is removed |
| Tickets.AddComment | backend/app/Http/Controllers/TicketController.php:177-212 | 404 for an unknown id and 422 for a missing comment or a null `is_internal`, both changing nothing; otherwise one comment is appended, internal only when `is_internal` is true |
| Tickets.UploadAttachment | backend/app/Http/Controllers/TicketController.php:214-255 | 404 for an unknown id and 422 for a missing file or one over 10 MB, both changing nothing; otherwise one attachment is appended, stored as `{time}_{client name}` |
| Tickets.CompletionStamped | backend/app/Http/Controllers/TicketController.php:144-149 | setting the status to 'completed' stamps the completion time with now when the ticket was not completed yet, overriding any `completed_at` sent; a ticket already completed takes `completed_at` from the request, and keeps its stamp when none is sent |
| Tickets.StampOnlyOnCompletion | backend/app/Http/Controllers/TicketController.php:144-149 | an update that does not set the status to 'completed' never stamps the ticket: the completion time is the `completed_at` sent, null when null is sent, and unchanged when none is sent |
| Tickets.UpdateIdempotent | backend/app/Http/Controllers/TicketController.php:144-149 | replaying the same update later changes nothing more, except when the first request completed the ticket and also sent `completed_at`: the replay no longer completes it, so the sent time replaces the first stamp |
| Tickets.Dashboard | backend/app/Http/Controllers/TicketController.php:259-266 | the total is the number of tickets, and the overdue and urgent counts never exceed it |
| Tickets.DashboardBounds | backend/app/Http/Controllers/TicketController.php:261-265 | open, in-progress and completed tickets are disjoint parts of the total, and an overdue ticket is never completed |
| Maintenance.IndexOf | backend/app/Http/Controllers/MaintenanceController.php:115 | `find($id)` finds a schedule with the id, and nothing exactly when no schedule has it |
| Maintenance.AssetOf | backend/app/Http/Controllers/MaintenanceController.php:50-82 | the asset a schedule names is found exactly when an asset has that id |
| Maintenance.Store | backend/app/Http/Controllers/MaintenanceController.php:47-94 | 201 exactly when the validation of the modelled fields passes; otherwise 422 and nothing changes. The new schedule starts 'scheduled' with no completion or next date. It carries the request's asset, type (one of preventive, corrective, emergency, upgrade), date (after today), technician, description and notes. An assigned technician gets exactly one unread notice: 'Maintenance Scheduled', naming the asset's code and the date as sent, with the schedule's id and link |
| Maintenance.StoreThenShow | backend/app/Http/Controllers/MaintenanceController.php:73-111 | With every id below the counter, a created schedule is shown back as created, and the counter stays ahead of every id |
| Maintenance.Show | backend/app/Http/Controllers/MaintenanceController.php:96-111 | 404 exactly when no schedule has the id; otherwise the stored schedule with that id |
| Maintenance.Update | backend/app/Http/Controllers/MaintenanceController.php:113-155 | 404 for an unknown id and 422 for a request invalid in a modelled field (status outside scheduled, in_progress, completed, cancelled), both changing nothing; otherwise only that schedule changes, taking every mass-assigned field sent, the unvalidated `asset_id` included, and nobody is notified |
| Maintenance.CompletionStamped | backend/app/Http/Controllers/MaintenanceController.php:143-148 | setting the status to 'completed' stamps the completion date with now when the schedule was not completed yet, and otherwise keeps the old date unless one is sent |
| Maintenance.NoStampWithoutCompletion | backend/app/Http/Controllers/MaintenanceController.php:144-148 | an update that does not set 'completed' takes the completion date from the request alone |
| Maintenance.Destroy | backend/app/Http/Controllers/MaintenanceController.php:157-174 | 404 for an unknown id with nothing changed; otherwise exactly that schedule is removed |
| Maintenance.CompletedNeverOverdue | backend/app/Models/MaintenanceSchedule.php:64-67 | a completed schedule is never overdue |
| Maintenance.StatusColor | backend/app/Models/MaintenanceSchedule.php:41-51 | a status outside scheduled, in_progress, completed, cancelled and overdue gets the gray badge |
| Maintenance.KindColor | backend/app/Models/MaintenanceSchedule.php:53-62 | a maintenance type outside the four known ones gets the gray badge |
| Maintenance.ColorsOfKnownValues | backend/app/Models/MaintenanceSchedule.php:43-60 | every known status and type has a tinted badge, and an overdue schedule is coloured like a cancelled one |
| Maintenance.Dashboard | backend/app/Http/Controllers/MaintenanceController.php:180-187 | the total is the number of schedules |
| Maintenance.FirstTen | backend/app/Http/Controllers/MaintenanceController.php:198-199 | `take(10)` after a filter: the first ten schedules passing the filter in table order, or all of them when fewer pass |
| Maintenance.DashboardBoard | backend/app/Http/Controllers/MaintenanceController.php:176-202 | the counters of `Maintenance.Dashboard`; the type and status statistics are the grouped counts of the schedules' types and statuses (one per distinct value in first-occurrence order, summing to the number of schedules); the upcoming list is the first ten schedules dated from now on and still 'scheduled', and the overdue list the first ten dated before now and not completed, in table order |
| Maintenance.OverduePredicatesAgree | backend/app/Models/MaintenanceSchedule.php:64-72 | a schedule due soon on the dashboard is due soon for the model's `isDueSoon`, and never also overdue; the model's `isOverdue` is the dashboard's overdue filter, defined once |
| Maintenance.DueSoonLooksBack | backend/app/Models/MaintenanceSchedule.php:69-72 | `isDueSoon` also holds for a schedule dated a day ago, which the dashboard's due-soon filter leaves out |
| Maintenance.DashboardBounds | backend/app/Http/Controllers/MaintenanceController.php:184-186 | overdue and due-soon schedules are disjoint, and overdue and completed ones are too, so neither pair exceeds the total |
| Maintenance.Sweep | backend/app/Http/Controllers/MaintenanceController.php:241-243 | the sweep marks exactly the overdue schedules 'overdue' and leaves every other schedule as it was |
| Maintenance.CheckOverdue | backend/app/Http/Controllers/MaintenanceController.php:234-263 | the count reported is the number of schedules dated before now and not completed, cancelled ones included |
| Maintenance.OverdueNoticesSpec | backend/app/Http/Controllers/MaintenanceController.php:241-256 | The sweep notifies only the technicians of selected schedules: one unread maintenance notice per selected schedule that has a technician, addressed to that technician |
| Maintenance.CheckOverdueIdempotent | backend/app/Http/Controllers/MaintenanceController.php:236-256 | a second sweep at the same instant selects the same schedules, reports the same count, changes no schedule, and sends the same notices again |
| Maintenance.SweepResends | backend/app/Http/Controllers/MaintenanceController.php:241-255 | the swept schedules select the same notices: a schedule marked 'overdue' is selected again and its notice reads nothing the sweep changed |
| Maintenance.NewSchedules | backend/app/Http/Controllers/MaintenanceController.php:215-225 | each created schedule is 'preventive', 'scheduled', dated six months ahead, without a technician, and numbered consecutively |
| Maintenance.NewSchedulesMatch | backend/app/Http/Controllers/MaintenanceController.php:207-225 | the created schedules are for the eligible assets, one each, in table order |
| Maintenance.AutoSchedule | backend/app/Http/Controllers/MaintenanceController.php:204-232 | one preventive schedule, six months ahead, for each active asset (status 1) with no schedule dated within the last six months; earlier schedules are kept, and `scheduled_count` is the number created |
| Maintenance.AutoScheduleSettles | backend/app/Http/Controllers/MaintenanceController.php:207-211 | run again at the same moment, auto-scheduling creates nothing |
| Notifications.Create | backend/app/Services/NotificationService.php:11-22 | a new notification carries the given user, title, message, type, data and link, and is unread |
| Notifications.FanoutContent | backend/app/Services/NotificationService.php:28-30 | every notification of a fan-out is the same message, unread, addressed to some user |
| Notifications.FanoutCount | backend/app/Services/NotificationService.php:26-30 | a user id receives one notification per matching user row with that id |
| Notifications.FanoutSpec | backend/app/Services/NotificationService.php:26-39 | with distinct ids, a fan-out reaches each matching user exactly once, each other user never, and nobody outside the table |
| Notifications.CreateForRoleSpec | backend/app/Services/NotificationService.php:24-31 | `createForRole` reaches each active user of the role exactly once and nobody else |
| Notifications.CreateForAllSpec | backend/app/Services/NotificationService.php:33-40 | `createForAll` reaches each active user exactly once and no inactive one |
| Notifications.SendEmailNotification | backend/app/Services/NotificationService.php:134-139 | one unread notification to the user with the given title and message, the given type or 'info' when the type is left out, empty data and no link |
| Notifications.FanoutRecipients | backend/app/Services/NotificationService.php:24-31 | who a fan-out reaches depends only on the users, not on the message |
| Notifications.OverdueSameRecipients | backend/app/Services/NotificationService.php:64-132 | an overdue ticket is announced to exactly the users, in the same order, told of its creation |
| Notifications.TicketCreatedReaches | backend/app/Services/NotificationService.php:64-81 | a new ticket reaches every active admin, and the assigned technician when one is set |
| Notifications.TicketUpdatedAudience | backend/app/Services/NotificationService.php:83-92 | a ticket update reaches every active admin exactly once and nobody else |
| Notifications.EventAudiences | backend/app/Services/NotificationService.php:42-114 | asset created, updated and replacement-due events reach exactly the active admins, once each; maintenance-due reaches exactly the active technicians |
| Notifications.MarkAsRead | backend/app/Models/Notification.php:34-40 | `markAsRead` sets the read flag and the read time to now and changes no other field |
| Notifications.MarkAsReadTwice | backend/app/Models/Notification.php:34-40 | reading twice leaves the notification read, stamped with the second time |
| Notifications.TypeColor | backend/app/Models/Notification.php:42-54 | an unknown notification type gets the gray badge |
| Notifications.SentTypesColoured | backend/app/Models/Notification.php:44-52 | the asset, ticket and maintenance types the service sends each have their own tinted badge |
| AssetReports.OrUnknown | asset-management/frontend/src/pages/Reports.tsx:143 | a missing or empty name becomes 'Unknown', a non-empty one is kept, so no group key is empty |
| AssetReports.StatusColor | asset-management/frontend/src/pages/Reports.tsx:128-138 | a status without its own tint (including 'non-active', 'disposed' and unknown names) is coloured '#6B7280' |
| AssetReports.Rate | asset-management/frontend/src/pages/Reports.tsx:196 | 0 for an empty group or no active asset, and at most 100 whenever the active assets are no more than the group |
| AssetReports.RateRounds | asset-management/frontend/src/pages/Reports.tsx:196 | the rate is `Math.round(100·active/total)`: the nearest whole percentage, with halves rounded up |
| AssetReports.CategorySlices | asset-management/frontend/src/pages/Reports.tsx:147-151 | the slices keep the groups' names and counts in order, and slice i takes colour `categoryColors[i mod 6]` |
| AssetReports.StatusSlices | asset-management/frontend/src/pages/Reports.tsx:160-164 | the slices keep the groups' names and counts in order, each coloured by its status name |
| AssetReports.CategoryGroups | asset-management/frontend/src/pages/Reports.tsx:141-151 | the groups are the assets grouped by category name or 'Unknown': distinct names in first-occurrence order, each count the number of assets with that key, summing to the number of assets; no name is empty, and group i is coloured `categoryColors[i mod 6]` |
| AssetReports.StatusGroups | asset-management/frontend/src/pages/Reports.tsx:153-164 | the groups are the assets grouped by status name or 'Unknown': distinct names in first-occurrence order, each count the number of assets with that key, summing to the number of assets; colours follow the status name |
| AssetReports.UtilisationOf | asset-management/frontend/src/pages/Reports.tsx:189-198 | one row per group, in group order, with the group's name and size, the assets of exactly that category name whose status is exactly 'active', and their rate |
| AssetReports.ActiveWithinGroup | asset-management/frontend/src/pages/Reports.tsx:190-191 | the active assets of a named category are no more than that category's group |
| AssetReports.RowsBounded | asset-management/frontend/src/pages/Reports.tsx:189-198 | over groups that count their own category, every row has active at most total and a rate at most 100 |
| AssetReports.UtilisationRates | asset-management/frontend/src/pages/Reports.tsx:189-198 | the utilisation table is aligned with the category groups, and every rate lies between 0 and 100 |
| AssetReports.UnknownCategoryInactive | asset-management/frontend/src/pages/Reports.tsx:141-191 | when no real category is named 'Unknown', the 'Unknown' row has no active asset and rate 0 |
| AssetReports.MaintenanceAlerts | asset-management/frontend/src/pages/Reports.tsx:201-203 | the alerts are exactly the assets whose status is 'repair' or 'broken', in list order |
| AssetReports.ReplacementAlerts | asset-management/frontend/src/pages/Reports.tsx:206-211 | the alerts are exactly the assets whose lower-cased remark contains 'old' or 'replace', or whose status is 'disposed' |
| AssetReports.SummaryOf | asset-management/frontend/src/pages/Reports.tsx:213-222 | total is the list length, the value estimate is 1500 per asset, broken equals the number of maintenance alerts, and active, broken and spare are disjoint parts of the total |
| AssetReports.ProcessAssetData | asset-management/frontend/src/pages/Reports.tsx:125-240 | category, status and location groups are the first-occurrence groupings with their colours; the trend table is the fixed six-month table; one utilisation row per category with its exact-name active count and a rate within 0 to 100; the alerts are exactly the repair/broken and the replacement-due assets in order; the summary counts all, active and spare assets, the broken count matches the alerts, and the value is 1500 per asset |
| Grouping.GroupCountsSpec | asset-management/frontend/src/pages/Reports.tsx:141-147 | tallying keys gives one group per distinct key, in first-occurrence order, each with the number of times its key occurs, the counts summing to the number of keys |
| Grouping.GroupsOfSpec | backend/app/Http/Controllers/ReportController.php:39-44 | grouping records by a key gives distinct names in first-occurrence order, each counting how often its key occurs among the records, the counts summing to the number of records |
| Grouping.GroupsCount | backend/app/Http/Controllers/ReportController.php:39-44 | each group's count is the number of records carrying its key, and at least one |
| Grouping.GroupsCover | asset-management/frontend/src/pages/Reports.tsx:141-145 | every record's key has a group |
| ServerReports.HighValue | backend/app/Http/Controllers/ReportController.php:46 | the 'high value' list is a prefix of the active assets, of length ten or all of them when fewer |
| ServerReports.AssetReport | backend/app/Http/Controllers/ReportController.php:39-47 | `total_assets` is the number of assets; the category, status, location and user groupings are the groupings of the assets by those keys (so each sums to the total); the high-value list is the first ten active assets |
| ServerReports.Health | backend/app/Http/Controllers/ReportController.php:106-112 | a category line counts its active assets (status 'Active') and broken ones ('Broken' or 'Repair'), and the two together never exceed its total |
| ServerReports.HealthOf | backend/app/Http/Controllers/ReportController.php:106-112 | one health line per category group, in group order |
| ServerReports.Schedule | backend/app/Http/Controllers/ReportController.php:113-124 | one line per active asset, in order, with its code, category name, current user and location; the delivery date as serialised by the date cast as the last maintenance, and six months after it as the next; neither date without a delivery date |
| ServerReports.Totals | backend/app/Http/Controllers/ReportController.php:108 | the group sizes read back from the health lines |
| ServerReports.CategoryHealthOf | backend/app/Http/Controllers/ReportController.php:106-112 | the lines' names and totals are the category groups, in first-occurrence order; each line counts the active and the 'Broken'/'Repair' assets of its category, at most its total together |
| ServerReports.CategoryTotals | backend/app/Http/Controllers/ReportController.php:106-112 | the category lines' totals add up to all the assets |
| ServerReports.ActiveCategorised | backend/app/Http/Controllers/ReportController.php:113-117 | when no active asset lacks a category, every schedule line can read its category name |
| ServerReports.MaintenanceReport | backend/app/Http/Controllers/ReportController.php:98-131 | fails exactly when an active asset has no category; otherwise due-maintenance counts the active assets, needing-replacement counts 'Broken' and 'Repair', the category lines are the category health, and the schedule is the line of each active asset in list order |
| ServerReports.TicketReport | backend/app/Http/Controllers/ReportController.php:78-90 | the status, priority, technician and category groupings are the groupings of the tickets by those keys (each sums to `total_tickets`); the overdue count is the number of open past-due tickets, and overdue and closed tickets are disjoint |
| ServerReports.OverdueRule | backend/app/Http/Controllers/ReportController.php:209-210 | the reports' overdue test agrees with the ticket dashboard's (TicketController.php line 265): a report row with a ticket's status and due instant is overdue exactly when the dashboard counts that ticket overdue |
| ServerReports.OverdueCountsAgree | backend/app/Http/Controllers/ReportController.php:88-89 | on the same tickets, the ticket report's overdue count equals the ticket dashboard's |
| ServerReports.DashboardReport | backend/app/Http/Controllers/ReportController.php:187-220 | the totals are the list lengths; active users count the users marked active, open tickets status 'open' and urgent tickets priority 'urgent'; the overdue alert equals the ticket report's; active assets and assets needing maintenance are disjoint; each chart is the grouping of its rows by category, status or priority, so it accounts for every row once |
| ServerReports.DashboardAgreesWithMaintenance | backend/app/Http/Controllers/ReportController.php:105-211 | on the same assets the dashboard's maintenance alert equals the maintenance report's replacement count, and its active assets equal the assets due for maintenance |
| ServerReports.TypeOf | backend/app/Http/Controllers/ReportController.php:224-242 | a missing type means 'assets', a valid given type is used as given, and the report is produced exactly for a missing type or one of assets, tickets, users |
| ServerReports.ExportReport | backend/app/Http/Controllers/ReportController.php:222-254 | 400 exactly for an invalid type; otherwise the file name is `{type}_report_{stamp}.{format}` and the download address reads back as that type and format |
| ServerReports.ExportDefaults | backend/app/Http/Controllers/ReportController.php:224-225 | leaving out both parameters is the same request as type 'assets' and format 'csv', and it succeeds |
| ServerReports.UrlRoundTrip | backend/app/Http/Controllers/ReportController.php:251 | the download address `/api/reports/download/{type}?format={format}` gives back its type and format, for any type without a '?' |

## Left out

- Spreadsheet files: reading and writing workbooks, column widths, styling and the reference sheets are library calls. A sheet is modelled as its array of rows.
- Cells are modelled as text. A numeric cell, whose `toLowerCase` call would throw and be reported as "Error processing row", is not modelled.
- The frontend import's outer failures are not modelled: an unreadable file and the file reader's error callback.
- The import's upload validation (file type and size, 422) is not modelled.
- Request normalisation: the framework's trimming and empty-string-to-null middleware is not applied. The request is taken as sent.
- Array-valued request parameters are not modelled.
- PHP loose comparison (`==`, `!=`) between request values and stored values is modelled as text equality. Ids from route parameters are compared as numbers.
- Query building is not modelled. That covers pagination, search, the `index` listings and the report filters.
- SQL collation is not modelled. `where('role', …)`, `where('name', …)` and unique rules compare text exactly in the model.
- Time is an integer parameter.
  - Calendar arithmetic (six months ahead and back) is given as parameters.
  - Carbon's `diffInDays` is modelled as whole days between the two instants.
- Dates the validator accepts are checked by a format parameter.
- `created_at`/`updated_at` timestamps are not modelled. So the reports' `recent_additions` list is left out, since it is sorted by `created_at`.
- Floating point is not modelled: average resolution time, cost sums and averages, and the cost report.
- The `nullable|numeric` fields are neither validated nor stored: `estimated_hours` of the ticket store (TicketController.php:61); `estimated_hours`, `actual_hours` and `cost` of the ticket update (TicketController.php:131-133); `cost` of the maintenance store and update (MaintenanceController.php:55 and 131). A request whose such field is not a number gets 422 from the source, and the model answers as if the field were absent. This applies to the four members below.
- Tickets.Store: its 201-iff-valid clause covers the modelled fields only. `estimated_hours` is left out, as above.
- Tickets.Update: its 422 clause covers the modelled fields only. `estimated_hours`, `actual_hours` and `cost` are left out, as above.
- Maintenance.Store: its 201-iff-valid clause covers the modelled fields only. `cost` is left out, as above.
- Maintenance.Update: its 422 clause covers the modelled fields only. `cost` is left out, as above.
- The user activity report is not modelled.
- AssetReports.RateRounds: the page's `Math.round((active / total) * 100)` runs in floating point. The model rounds the exact quotient half up. The two differ when the float product falls just below a half: 23 active of 40 gives 57.49999999999999, so the page shows 57 where the model gives 58. Likewise 29 of 200 gives 14 against 15.
- AssetReports.ProcessAssetData: the page reads `asset_category?.name` and `asset_status?.name`, while the API's category and status rows carry `category_name` and `status_name`. As wired, every asset would fall under 'Unknown'. The model takes the names as given.
- The report page loads its assets through `assetApi.getAssets`, which the API client does not define (it has `getAll`). Loading is not modelled: the page's processing starts from the list of assets.
- File storage: an uploaded attachment is recorded by its name and size. Where the file is stored and its mime type are not modelled.
- Ticket-number uniqueness is not claimed. The number is derived from the ticket count and can repeat after a deletion.
- The backend ticket model's `$fillable` list lacks `created_by`, `due_date`, `category`, `notes` and `completed_at`, which the controller sets. As written, mass assignment drops them, so for example the completion stamp is never stored. These members follow the controller's intent and store those fields:
  - Tickets.Store, Tickets.Update, Tickets.CompletionStamped, Tickets.StampOnlyOnCompletion and Tickets.UpdateIdempotent.
- The backend models lack relations that the controllers load. The ticket model defines only `asset()`, yet the ticket and report controllers load `createdBy`, `assignedTechnician`, `comments` and `attachments`. The asset model has no `maintenanceSchedules`, which auto-scheduling reads. As written, those endpoints fail. These members follow the controllers' intent:
  - Maintenance.AutoSchedule, which reads `maintenanceSchedules`;
  - the 'tickets' branch of ServerReports.ExportReport, and ServerReports.TicketReport, which load the ticket relations.
- Tickets.Update: the table definitions are not part of this model. A null `asset_id` or `ticket_number` keeps the stored value, where the database would store null or refuse the write. A sent `asset_id` is written without any foreign-key check the table may impose.
- Maintenance.Update: a null `asset_id` keeps the stored value, for the same reason. A sent one is written without a foreign-key check.
- LegacyAssets.Line: the older API's asset model casts the delivery and replacement dates to `date`, so the CSV prints them with a midnight time (`Y-m-d 00:00:00`). The model prints the stored text.
- The asset-management API's asset model has the same `date` casts. So `toArray` gives the old date values as full timestamps, while the new values are the request strings, and resending the same date is logged as a change. The model compares and records the dates as the stored text.
- Maintenance.CheckOverdue: a selected schedule whose asset no longer exists would make the source fail while building the message. The model writes an empty asset code there instead.
- Maintenance.CheckOverdue: its own contract states only the count and the swept store. The notices are stated by `Maintenance.OverdueNoticesSpec`.
- Maintenance.Dashboard: its contract states the total only. The relations between its counts are stated by `Maintenance.DashboardBounds` and `Maintenance.OverduePredicatesAgree`.
- Tickets.Dashboard: its contract bounds the counts by the total. Their disjointness is stated by `Tickets.DashboardBounds`.
- Database failures inside the asset-management transactions are a boolean parameter. A failure rolls back everything. Other database errors are not modelled.
- The legacy `getStats` endpoint, its SQL dashboard and the `exportExcel`/`importExcel` stubs are not modelled.
- Not modelled: user administration (password hashing, avatars), mail sending, authentication sessions, routes and the React pages.
- Lower-casing is ASCII-only; full Unicode case mapping is not modelled.
- BulkImport.RowStepSpec: the date cast's parser and its message are parameters. Other exceptions `create` can throw, such as a database error for an over-long value, are not modelled.
- SheetImport.ColumnField: `ASSET_COLUMNS[header]` indexes a plain object, so a header such as `constructor` finds an inherited function, which is truthy. The cell is then written under that function's text as a key. The model treats such headers as mapping to no field.
- The report page's status colour table is a plain object, so names such as `constructor` would find an inherited property. The model treats those names as unknown.
- The JSON layout of filtered collections is modelled as lists of entries in order. Such collections keep their original keys, so `maintenance_schedule` serialises as a keyed object.

=== FILE: access.dfy ===
/** Roles and permissions of the help-desk back end: the role-to-permission table of the
    user model and the middleware that guards routes with it. */
module Access {
  import opened Common

  /** The parts of a user the access rules and the notification fan-out read: the id,
      the role column (null allowed) and the `is_active` flag. */
  datatype User = User(id: nat, role: Option<string>, active: bool)

  /** `hasRole($role)`: a strict comparison with the stored role. */
  predicate HasRole(u: User, role: string) {
    u.role == Some(role)
  }

  /** The permission list of a role, in the order the table writes it; a role that is
      not in the table (or a null role) has the empty list. */
  function PermissionList(role: Option<string>): seq<string> {
    if role == Some("admin") then ["all"]
    else if role == Some("manager") then ["view_assets", "edit_assets", "view_tickets", "edit_tickets", "view_reports"]
    else if role == Some("technician") then ["view_assets", "edit_assets", "view_tickets", "edit_tickets", "create_tickets"]
    else if role == Some("user") then ["view_assets", "view_tickets", "create_tickets"]
    else []
  }

  /** `hasPermission($p)`: the role lists `$p`, or it lists the wildcard "all". The
      table's entries are not numeric strings, so PHP's loose `in_array` is plain string
      equality here. */
  predicate HasPermission(u: User, p: string) {
    p in PermissionList(u.role) || "all" in PermissionList(u.role)
  }

  /** The permission names the application uses. */
  const KnownPermissions: set<string> :=
    {"view_assets", "edit_assets", "view_tickets", "edit_tickets", "view_reports", "create_tickets"}

  /** The permissions of each role, as a set: what the table is meant to grant. */
  function Grants(role: string): (g: set<string>)
    ensures g <= KnownPermissions
  {
    match role
    case "admin" => KnownPermissions
    case "manager" => {"view_assets", "edit_assets", "view_tickets", "edit_tickets", "view_reports"}
    case "technician" => {"view_assets", "edit_assets", "view_tickets", "edit_tickets", "create_tickets"}
    case "user" => {"view_assets", "view_tickets", "create_tickets"}
    case _ => {}
  }

  /** For every known permission, a user holds it exactly when the role's set grants it;
      and an admin holds every permission, known or not. */
  lemma PermissionTable(u: User, p: string)
    requires u.role.Some?
    ensures p in KnownPermissions ==> (HasPermission(u, p) <==> p in Grants(u.role.value))
    ensures HasRole(u, "admin") ==> HasPermission(u, p)
  {
  }

  /** A role missing from the table, and a null role, hold no permission at all. */
  lemma UnknownRoleHasNone(u: User, p: string)
    requires u.role !in {Some("admin"), Some("manager"), Some("technician"), Some("user")}
    ensures !HasPermission(u, p)
  {
  }

  /** A technician may create tickets but not view reports; a manager the other way round. */
  lemma ManagerAndTechnicianDiffer(m: User, t: User)
    requires HasRole(m, "manager") && HasRole(t, "technician")
    ensures HasPermission(m, "view_reports") && !HasPermission(m, "create_tickets")
    ensures HasPermission(t, "create_tickets") && !HasPermission(t, "view_reports")
  {
  }

  /** The Tailwind classes of a role badge; unknown roles are gray. */
  function RoleColor(role: Option<string>): (c: string)
    ensures role !in {Some("admin"), Some("manager"), Some("technician")} ==> c == "bg-gray-100 text-gray-800"
  {
    if role == Some("admin") then "bg-red-100 text-red-800"
    else if role == Some("manager") then "bg-blue-100 text-blue-800"
    else if role == Some("technician") then "bg-green-100 text-green-800"
    else "bg-gray-100 text-gray-800"
  }

  /** The three tinted badges differ from each other and from the gray one. */
  lemma RoleColorsDistinct(a: Option<string>, b: Option<string>)
    requires a != b && a in {Some("admin"), Some("manager"), Some("technician")}
    ensures RoleColor(a) != RoleColor(b)
  {
  }

  /** What the middleware does with a request. */
  datatype Decision<T> = Unauthorized | Forbidden | Next(response: T) {
    function Code(): Option<int> {
      match this
      case Unauthorized => Some(401)
      case Forbidden => Some(403)
      case Next(_) => None
    }
  }

  /** `CheckPermission::handle`: `user` is the authenticated user, if any, and `next` the
      rest of the pipeline. */
  function Handle<Req, Resp>(user: Option<User>, permission: string, req: Req, next: Req -> Resp): (d: Decision<Resp>)
    ensures d.Unauthorized? <==> user.None?
    ensures d.Forbidden? <==> user.Some? && !HasPermission(user.value, permission)
    ensures d.Next? <==> user.Some? && HasPermission(user.value, permission)
    ensures d.Next? ==> d.response == next(req)
  {
    if user.None? then Unauthorized
    else if !HasPermission(user.value, permission) then Forbidden
    else Next(next(req))
  }

  /** An authenticated admin always gets through, whatever permission the route names. */
  lemma AdminPasses<Req, Resp>(u: User, permission: string, req: Req, next: Req -> Resp)
    requires HasRole(u, "admin")
    ensures Handle(Some(u), permission, req, next) == Next(next(req))
  {
    PermissionTable(u, permission);
  }

  /** A plain user is turned away from the reports and from editing. */
  lemma PlainUserForbidden<Req, Resp>(u: User, permission: string, req: Req, next: Req -> Resp)
    requires HasRole(u, "user") && permission in {"view_reports", "edit_assets", "edit_tickets"}
    ensures Handle(Some(u), permission, req, next).Code() == Some(403)
  {
  }
}

=== FILE: asset_reports.dfy ===
/** The report page of the asset-management front end: `processAssetData` turns the list
    of assets into chart groups, per-category utilisation, two alert lists and a summary.
    Everything here is a pure function of the list. */
module AssetReports {
  import opened Common
  import opened Grouping

  /** What the page reads of an asset: the names of its loaded category and status
      relations (absent when the relation is missing), its region and its remark. */
  datatype AssetView = AssetView(category: Option<string>, status: Option<string>, location: Option<string>, remark: Option<string>)

  /** A chart slice: a group with its colour. */
  datatype Slice = Slice(name: string, count: nat, color: string)

  datatype Utilisation = Utilisation(category: string, total: nat, active: nat, rate: nat)

  datatype Trend = Trend(month: string, added: nat, disposed: nat)

  datatype Summary = Summary(totalAssets: nat, activeAssets: nat, brokenAssets: nat, spareAssets: nat, valueEstimate: nat)

  datatype ReportData = ReportData(
    byCategory: seq<Slice>, byStatus: seq<Slice>, byLocation: seq<Group>, trends: seq<Trend>,
    utilisation: seq<Utilisation>, maintenanceAlerts: seq<AssetView>, replacementAlerts: seq<AssetView>,
    summary: Summary)

  const Gray := "#6B7280"

  /** The category palette, cycled by group position. */
  const CategoryColors: seq<string> := ["#4F46E5", "#059669", "#DC2626", "#D97706", "#7C3AED", "#DB2777"]

  /** The fixed table shown as monthly trends, whatever the assets. */
  const MonthlyTrends: seq<Trend> := [
    Trend("Jan", 15, 2), Trend("Feb", 25, 5), Trend("Mar", 30, 3),
    Trend("Apr", 20, 8), Trend("May", 35, 4), Trend("Jun", 40, 6)]

  /** `value || 'Unknown'`: a missing or empty name is grouped as 'Unknown'. */
  function OrUnknown(v: Option<string>): (r: string)
    ensures r != ""
    ensures Truthy(v) ==> r == v.value
  {
    if Truthy(v) then v.value else "Unknown"
  }

  function CategoryKey(a: AssetView): string { OrUnknown(a.category) }
  function StatusKey(a: AssetView): string { OrUnknown(a.status) }
  function LocationKey(a: AssetView): string { OrUnknown(a.location) }

  /** `statusColors[name] || '#6B7280'`. */
  function StatusColor(name: string): (c: string)
    ensures name !in {"active", "stolen", "broken", "spare", "replaced", "repair", "sold"} ==> c == Gray
  {
    match name
    case "active" => "#10B981"
    case "non-active" => Gray
    case "stolen" => "#EF4444"
    case "broken" => "#F59E0B"
    case "spare" => "#3B82F6"
    case "replaced" => "#8B5CF6"
    case "repair" => "#F59E0B"
    case "disposed" => Gray
    case "sold" => "#6366F1"
    case _ => Gray
  }

  /** `Math.round(active / total * 100)`, or 0 for an empty group, in exact integers. */
  function Rate(active: nat, total: nat): (r: nat)
    ensures total == 0 || active == 0 ==> r == 0
    ensures active <= total ==> r <= 100
  {
    if total == 0 then 0
    else
      RoundedPercent(active, total);
      (200 * active + total) / (2 * total)
  }

  /** The rate is the nearest whole percentage, halves rounded up. */
  lemma RateRounds(active: nat, total: nat)
    requires total > 0
    ensures var r := Rate(active, total);
      2 * total * r <= 200 * active + total < 2 * total * (r + 1)
  {
    RoundedPercent(active, total);
  }

  lemma RoundedPercent(active: nat, total: nat)
    requires total > 0
    ensures var r := (200 * active + total) / (2 * total);
      && 2 * total * r <= 200 * active + total < 2 * total * (r + 1)
      && (active <= total ==> r <= 100)
      && (active == 0 ==> r == 0)
  {
    var x, d := 200 * active + total, 2 * total;
    var r := x / d;
    assert d * r <= x < d * (r + 1);
    if active <= total {
      assert x < d * 101;
      ProductOrder(d, r, 101);
    }
    if active == 0 {
      assert d * r < d * 1;
      ProductOrder(d, r, 1);
    }
  }

  /** Multiplying by a positive factor keeps a strict order. */
  lemma ProductOrder(d: nat, a: nat, b: nat)
    requires d > 0 && d * a < d * b
    ensures a < b
  {
  }

  /** An asset of the category named `n` whose status is exactly 'active'. */
  function ActiveIn(n: string): AssetView -> bool {
    (a: AssetView) => a.category == Some(n) && a.status == Some("active")
  }

  predicate IsActive(a: AssetView) { a.status == Some("active") }
  predicate IsSpare(a: AssetView) { a.status == Some("spare") }

  /** Status 'repair' or 'broken'. */
  predicate NeedsMaintenance(a: AssetView) {
    a.status == Some("repair") || a.status == Some("broken")
  }

  /** The remark mentions 'old' or 'replace' in any letter case, or the status is 'disposed'. */
  predicate ReplacementDue(a: AssetView) {
    || (a.remark.Some? && (Contains(Lower(a.remark.value), "old") || Contains(Lower(a.remark.value), "replace")))
    || a.status == Some("disposed")
  }

  function Plain(slices: seq<Slice>): (gs: seq<Group>)
    ensures |gs| == |slices|
    ensures forall i | 0 <= i < |slices| :: gs[i] == Group(slices[i].name, slices[i].count)
  {
    seq(|slices|, i requires 0 <= i < |slices| => Group(slices[i].name, slices[i].count))
  }

  /** Groups coloured by position. */
  function CategorySlices(gs: seq<Group>): (r: seq<Slice>)
    ensures Plain(r) == gs
    ensures forall i | 0 <= i < |r| :: r[i].color == CategoryColors[i % 6]
  {
    assert |CategoryColors| == 6;
    seq(|gs|, i requires 0 <= i < |gs| => Slice(gs[i].name, gs[i].count, CategoryColors[i % 6]))
  }

  /** Groups coloured by name. */
  function StatusSlices(gs: seq<Group>): (r: seq<Slice>)
    ensures Plain(r) == gs
    ensures forall i | 0 <= i < |r| :: r[i].color == StatusColor(r[i].name)
  {
    seq(|gs|, i requires 0 <= i < |gs| => Slice(gs[i].name, gs[i].count, StatusColor(gs[i].name)))
  }

  /** Assets by category, coloured `categoryColors[i % 6]` by position; no group name is empty. */
  function CategoryGroups(assets: seq<AssetView>): (r: seq<Slice>)
    ensures Plain(r) == GroupsOf(assets, CategoryKey)
    ensures Total(Plain(r)) == |assets|
    ensures forall i | 0 <= i < |r| :: r[i].name != "" && r[i].count == Count(assets, HasKey(CategoryKey, r[i].name))
    ensures forall i | 0 <= i < |r| :: r[i].color == CategoryColors[i % 6]
  {
    NoEmptyKey(assets, CategoryKey);
    GroupsOfSpec(assets, CategoryKey);
    GroupsCount(assets, CategoryKey);
    CategorySlices(GroupsOf(assets, CategoryKey))
  }

  /** Assets by status, coloured by status name with gray for names without a colour. */
  function StatusGroups(assets: seq<AssetView>): (r: seq<Slice>)
    ensures Plain(r) == GroupsOf(assets, StatusKey)
    ensures Total(Plain(r)) == |assets|
    ensures forall i | 0 <= i < |r| :: r[i].count == Count(assets, HasKey(StatusKey, r[i].name))
    ensures forall i | 0 <= i < |r| :: r[i].color == StatusColor(r[i].name)
  {
    GroupsOfSpec(assets, StatusKey);
    GroupsCount(assets, StatusKey);
    StatusSlices(GroupsOf(assets, StatusKey))
  }

  /** One utilisation row per category group: the group's size and how many of the
      assets whose category is named exactly as the group are active. */
  function UtilisationOf(assets: seq<AssetView>, slices: seq<Slice>): (r: seq<Utilisation>)
    ensures |r| == |slices|
    ensures forall i | 0 <= i < |r| ::
      && r[i].category == slices[i].name && r[i].total == slices[i].count
      && r[i].active == Count(assets, ActiveIn(slices[i].name))
      && r[i].rate == Rate(r[i].active, r[i].total)
  {
    seq(|slices|, i requires 0 <= i < |slices| =>
      var active := Count(assets, ActiveIn(slices[i].name));
      Utilisation(slices[i].name, slices[i].count, active, Rate(active, slices[i].count)))
  }

  /** Every asset of the category named `n` (never empty) is grouped under `n`, so the
      active ones among them are no more than the group. */
  lemma ActiveWithinGroup(assets: seq<AssetView>, n: string)
    requires n != ""
    ensures Count(assets, ActiveIn(n)) <= Count(assets, HasKey(CategoryKey, n))
  {
    forall a | a in assets
      ensures ActiveIn(n)(a) ==> HasKey(CategoryKey, n)(a)
    {
      if a.category == Some(n) {
        assert CategoryKey(a) == n;
      }
    }
    CountMonotone(assets, ActiveIn(n), HasKey(CategoryKey, n));
  }

  /** Rows over groups that each count the assets of their (non-empty) category name. */
  lemma RowsBounded(assets: seq<AssetView>, slices: seq<Slice>)
    requires forall i | 0 <= i < |slices| ::
      slices[i].name != "" && slices[i].count == Count(assets, HasKey(CategoryKey, slices[i].name))
    ensures var u := UtilisationOf(assets, slices);
      forall i | 0 <= i < |u| :: u[i].active <= u[i].total && u[i].rate <= 100
  {
    var u := UtilisationOf(assets, slices);
    forall i | 0 <= i < |u|
      ensures u[i].active <= u[i].total
    {
      ActiveWithinGroup(assets, slices[i].name);
    }
  }

  /** The utilisation table: one row per category group, and every row counts no more
      active assets than its group holds, so every rate lies between 0 and 100. */
  function UtilisationRates(assets: seq<AssetView>): (u: seq<Utilisation>)
    ensures var g := CategoryGroups(assets);
      && |u| == |g|
      && forall i | 0 <= i < |u| ::
        && u[i].category == g[i].name && u[i].total == g[i].count
        && u[i].active == Count(assets, ActiveIn(u[i].category))
    ensures forall i | 0 <= i < |u| :: u[i].active <= u[i].total && u[i].rate <= 100
  {
    var slices := CategoryGroups(assets);
    RowsBounded(assets, slices);
    UtilisationOf(assets, slices)
  }

  /** The 'Unknown' group of assets without a category counts none of them as active:
      its row only finds assets of a real category named 'Unknown'. */
  lemma UnknownCategoryInactive(assets: seq<AssetView>)
    requires forall j | 0 <= j < |assets| :: assets[j].category != Some("Unknown")
    ensures var u := UtilisationRates(assets);
      forall i | 0 <= i < |u| && u[i].category == "Unknown" :: u[i].active == 0 && u[i].rate == 0
  {
    var u := UtilisationRates(assets);
    assert forall j | 0 <= j < |assets| :: !ActiveIn("Unknown")(assets[j]);
    CountNone(assets, ActiveIn("Unknown"));
    forall i | 0 <= i < |u| && u[i].category == "Unknown"
      ensures u[i].active == 0 && u[i].rate == 0
    {
      assert u[i].active == Count(assets, ActiveIn("Unknown"));
    }
  }

  /** Assets needing attention: those with status 'repair' or 'broken', in list order. */
  function MaintenanceAlerts(assets: seq<AssetView>): (r: seq<AssetView>)
    ensures |r| <= |assets|
    ensures forall a | a in r :: a in assets && NeedsMaintenance(a)
    ensures forall a | a in assets && NeedsMaintenance(a) :: a in r
  {
    Filter(assets, NeedsMaintenance)
  }

  /** Assets due for replacement, in list order. */
  function ReplacementAlerts(assets: seq<AssetView>): (r: seq<AssetView>)
    ensures |r| <= |assets|
    ensures forall a | a in r :: a in assets && ReplacementDue(a)
    ensures forall a | a in assets && ReplacementDue(a) :: a in r
  {
    Filter(assets, ReplacementDue)
  }

  /** The summary's own filter, written 'broken' first. */
  predicate BrokenOrRepair(a: AssetView) {
    a.status == Some("broken") || a.status == Some("repair")
  }

  predicate ActiveOrBroken(a: AssetView) { IsActive(a) || BrokenOrRepair(a) }
  predicate Counted(a: AssetView) { ActiveOrBroken(a) || IsSpare(a) }

  /** The summary: the broken count agrees with the maintenance alerts, the value is
      1500 per asset, and active, broken and spare assets are disjoint parts of the total. */
  function SummaryOf(assets: seq<AssetView>): (s: Summary)
    ensures s.totalAssets == |assets| && s.valueEstimate == 1500 * s.totalAssets
    ensures s.brokenAssets == |MaintenanceAlerts(assets)|
    ensures s.activeAssets == Count(assets, IsActive) && s.spareAssets == Count(assets, IsSpare)
    ensures s.activeAssets + s.brokenAssets + s.spareAssets <= s.totalAssets
  {
    FilterCongruent(assets, BrokenOrRepair, NeedsMaintenance);
    CountDisjoint(assets, IsActive, BrokenOrRepair, ActiveOrBroken);
    CountDisjoint(assets, ActiveOrBroken, IsSpare, Counted);
    Summary(|assets|, Count(assets, IsActive), Count(assets, BrokenOrRepair), Count(assets, IsSpare), |assets| * 1500)
  }

  /** processAssetData: the groupings, the fixed trend table, utilisation, alerts and
      summary; the input list is only read. */
  function ProcessAssetData(assets: seq<AssetView>): (r: ReportData)
    ensures Plain(r.byCategory) == GroupsOf(assets, CategoryKey)
    ensures Plain(r.byStatus) == GroupsOf(assets, StatusKey)
    ensures r.byLocation == GroupsOf(assets, LocationKey)
    ensures forall i | 0 <= i < |r.byCategory| :: r.byCategory[i].color == CategoryColors[i % 6]
    ensures forall i | 0 <= i < |r.byStatus| :: r.byStatus[i].color == StatusColor(r.byStatus[i].name)
    ensures r.trends == MonthlyTrends
    ensures |r.utilisation| == |r.byCategory|
    ensures forall i | 0 <= i < |r.utilisation| ::
      && r.utilisation[i].category == r.byCategory[i].name && r.utilisation[i].total == r.byCategory[i].count
      && r.utilisation[i].active == Count(assets, ActiveIn(r.byCategory[i].name))
      && r.utilisation[i].active <= r.utilisation[i].total && r.utilisation[i].rate <= 100
    ensures r.maintenanceAlerts == Filter(assets, NeedsMaintenance)
    ensures r.replacementAlerts == Filter(assets, ReplacementDue)
    ensures r.summary.totalAssets == |assets| && r.summary.valueEstimate == 1500 * |assets|
    ensures r.summary.activeAssets == Count(assets, IsActive) && r.summary.spareAssets == Count(assets, IsSpare)
    ensures r.summary.brokenAssets == |r.maintenanceAlerts|
  {
    ReportData(
      CategoryGroups(assets), StatusGroups(assets), GroupsOf(assets, LocationKey), MonthlyTrends,
      UtilisationRates(assets), MaintenanceAlerts(assets), ReplacementAlerts(assets), SummaryOf(assets))
  }
}

=== FILE: asset_rows.dfy ===
/** Request bodies and table rows as the two asset controllers see them: a request is
    the list of fields it sent, a row maps column names to text values (null allowed).
    Also the `unique` rule and the facts that keep a unique column unique. */
module AssetRows {
  import opened Common

  /** One entry of the request body: a field name and its value, null allowed. */
  type Field = (string, Option<string>)

  /** The request body, in the order its fields were sent. */
  type Request = seq<Field>

  /** A PHP array holds each key once. */
  predicate DistinctKeys(req: Request) {
    forall i, j | 0 <= i < j < |req| :: req[i].0 != req[j].0
  }

  /** The field `f` of the request: the value of its first entry named `f`. */
  function Get(req: Request, f: string): Input<string> {
    if req == [] then Absent
    else if req[0].0 == f then FromColumn(req[0].1)
    else Get(req[1..], f)
  }

  /** A field is absent exactly when no entry carries its name; otherwise it holds the
      value sent under that name. */
  lemma {:induction false} GetSpec(req: Request, f: string)
    requires DistinctKeys(req)
    ensures Get(req, f).Absent? <==> forall i | 0 <= i < |req| :: req[i].0 != f
    ensures forall i | 0 <= i < |req| && req[i].0 == f :: Get(req, f) == FromColumn(req[i].1)
  {
    if req != [] {
      assert forall i | 0 <= i < |req| - 1 :: req[1..][i] == req[i + 1];
      GetSpec(req[1..], f);
    }
  }

  function FromColumn(v: Option<string>): (r: Input<string>)
    ensures r.ToOption() == v && !r.Absent?
  {
    if v.Some? then Given(v.value) else Null
  }

  /** An asset row: its primary key and its other columns. */
  datatype Asset = Asset(id: nat, attrs: map<string, Option<string>>)

  /** A column of the row; a column the row does not hold reads as null. */
  function Attr(a: Asset, column: string): Option<string> {
    if column in a.attrs then a.attrs[column] else None
  }

  function IndexOf(assets: seq<Asset>, id: int): (r: Option<nat>)
    ensures r.Some? ==> r.value < |assets| && assets[r.value].id == id
    ensures r.None? <==> forall j | 0 <= j < |assets| :: assets[j].id != id
  {
    FindFirst(assets, (a: Asset) => a.id == id)
  }

  /** GET /assets/{id}, the same in both applications: the stored asset with the id, or
      nothing, which the controller answers with a 404. */
  function Show(assets: seq<Asset>, id: int): (r: Option<Asset>)
    ensures r.None? <==> forall j | 0 <= j < |assets| :: assets[j].id != id
    ensures r.Some? ==> r.value in assets && r.value.id == id
  {
    match IndexOf(assets, id)
    case None => None
    case Some(i) => Some(assets[i])
  }

  /** `unique:assets,<column>[,<id>,<key>]`: no asset other than `except` holds the
      value in that column. Absent fields and blank values are not checked; a null is
      looked up as null. */
  predicate Unique(assets: seq<Asset>, column: string, v: Input<string>, except: Option<nat>) {
    (v.Given? && Blank(v.value)) || v.Absent? ||
    forall j | 0 <= j < |assets| :: Some(assets[j].id) != except ==> Attr(assets[j], column) != v.ToOption()
  }

  /** `nullable|<format>`: a non-blank value must pass the format check. */
  predicate NullableFormat(v: Input<string>, ok: string -> bool) {
    v.Given? && !Blank(v.value) ==> ok(v.value)
  }

  /** `Asset::create($request->all())`: the fillable fields of the request; the others
      start null. */
  function NewAttrs(req: Request, fillable: set<string>): (m: map<string, Option<string>>)
    ensures m.Keys == fillable
    ensures forall f | f in fillable :: m[f] == Get(req, f).ToOption()
  {
    map f | f in fillable :: Get(req, f).ToOption()
  }

  /** `$asset->update($request->all())`: the fillable fields that were sent overwrite
      their columns; everything else keeps its value. */
  function Assign(a: Asset, req: Request, fillable: set<string>): (b: Asset)
    ensures b.id == a.id
    ensures forall f :: Attr(b, f) == if f in fillable && !Get(req, f).Absent? then Get(req, f).ToOption() else Attr(a, f)
  {
    Asset(a.id, map f | f in a.attrs.Keys + fillable :: if f in fillable && !Get(req, f).Absent? then Get(req, f).ToOption() else Attr(a, f))
  }

  /** A value the `unique` rule protects: set and not blank. */
  predicate Guarded(v: Option<string>) {
    v.Some? && !Blank(v.value)
  }

  /** No two rows share a guarded value in `column`. */
  predicate DistinctColumn(assets: seq<Asset>, column: string) {
    forall i, j | 0 <= i < j < |assets| && Guarded(Attr(assets[i], column)) ::
      Attr(assets[i], column) != Attr(assets[j], column)
  }

  /** Appending a row whose value in `column` no other row holds keeps the column distinct. */
  lemma AppendKeepsColumn(assets: seq<Asset>, a: Asset, column: string)
    requires DistinctColumn(assets, column)
    requires forall j | 0 <= j < |assets| :: Attr(assets[j], column) != Attr(a, column)
    ensures DistinctColumn(assets + [a], column)
  {
    var as_ := assets + [a];
    forall i, j | 0 <= i < j < |as_| && Guarded(Attr(as_[i], column))
      ensures Attr(as_[i], column) != Attr(as_[j], column)
    {
      assert as_[i] == assets[i];
      if j < |assets| {
        assert as_[j] == assets[j];
      }
    }
  }

  /** Replacing row `i` by a row whose value in `column` is unguarded or held by no
      other row keeps the column distinct. */
  lemma ReplaceKeepsColumn(assets: seq<Asset>, i: nat, b: Asset, column: string)
    requires i < |assets| && DistinctColumn(assets, column)
    requires Guarded(Attr(b, column)) ==> forall j | 0 <= j < |assets| && j != i :: Attr(assets[j], column) != Attr(b, column)
    requires !Guarded(Attr(b, column)) ==> forall j | 0 <= j < |assets| && j != i && Guarded(Attr(assets[j], column)) :: Attr(assets[j], column) != Attr(b, column)
    ensures DistinctColumn(assets[i := b], column)
  {
    var as_ := assets[i := b];
    forall x, y | 0 <= x < y < |as_| && Guarded(Attr(as_[x], column))
      ensures Attr(as_[x], column) != Attr(as_[y], column)
    {
      if x != i {
        assert as_[x] == assets[x];
      }
      if y != i {
        assert as_[y] == assets[y];
      }
    }
  }

  /** Ids are distinct and below `next`. */
  predicate IdsBelow(assets: seq<Asset>, next: nat) {
    && (forall i | 0 <= i < |assets| :: assets[i].id < next)
    && (forall i, j | 0 <= i < j < |assets| :: assets[i].id != assets[j].id)
  }

  lemma AppendKeepsIds(assets: seq<Asset>, a: Asset, next: nat)
    requires IdsBelow(assets, next) && a.id == next
    ensures IdsBelow(assets + [a], next + 1)
  {
    var as_ := assets + [a];
    forall i | 0 <= i < |assets|
      ensures as_[i] == assets[i]
    {
    }
  }

  lemma ReplaceKeepsIds(assets: seq<Asset>, i: nat, b: Asset, next: nat)
    requires IdsBelow(assets, next) && i < |assets| && b.id == assets[i].id
    ensures IdsBelow(assets[i := b], next)
  {
    var as_ := assets[i := b];
    forall j | 0 <= j < |assets| && j != i
      ensures as_[j] == assets[j]
    {
    }
  }

  /** Removing row `i` keeps ids distinct and below the counter, and keeps `column` distinct. */
  lemma RemoveKeepsRows(assets: seq<Asset>, i: nat, next: nat, column: string)
    requires i < |assets| && IdsBelow(assets, next) && DistinctColumn(assets, column)
    ensures IdsBelow(assets[..i] + assets[i + 1..], next)
    ensures DistinctColumn(assets[..i] + assets[i + 1..], column)
  {
    var as_ := assets[..i] + assets[i + 1..];
    RemoveAt(assets, i);
    forall a, b | 0 <= a < b < |as_|
      ensures as_[a].id != as_[b].id
      ensures Guarded(Attr(as_[a], column)) ==> Attr(as_[a], column) != Attr(as_[b], column)
    {
      assert as_[a] == assets[Skip(i, a)] && as_[b] == assets[Skip(i, b)];
    }
    forall a | 0 <= a < |as_|
      ensures as_[a].id < next
    {
      assert as_[a] == assets[Skip(i, a)];
    }
  }
}

=== FILE: audit_trail.dfy ===
/** The asset controller of the asset-management back end and its audit trail: every
    successful create, update and delete of an asset writes history rows in the same
    database transaction, and the history of an asset is read back newest first.
    Column values are kept as text (null allowed) and compared for equality. */
module AuditTrail {
  import opened Common
  import opened AssetRows

  /** The columns mass assignment may write. */
  const Fillable: set<string> := {
    "asset_type_id", "asset_code", "serial_number", "hostname", "purchase_order",
    "location_region", "current_user", "office_now", "status_id", "remark", "ip_location",
    "user_before", "date_deliver_to_user", "ticket_number", "installed_by", "replaced_by",
    "date_replacement", "done_by"}

  /** `$asset->toArray()`: the columns together with the key. */
  function Original(a: Asset): map<string, Option<string>> {
    a.attrs["id_asset" := Some(Digits(a.id))]
  }

  /** An `asset_history` row. */
  datatype Record = Record(
    assetId: nat, field: string, oldValue: Option<string>, newValue: Option<string>,
    changedBy: Option<string>, changeDate: int, notes: string)

  /** The tables the controller touches, with the id sets the `exists` rules look up
      (ids written in decimal, as the request sends them). */
  datatype Db = Db(assets: seq<Asset>, history: seq<Record>, categoryIds: set<string>, statusIds: set<string>, nextId: nat)

  datatype Response =
    | Created(asset: Asset)
    | Updated(asset: Asset)
    | Deleted
    | History(records: seq<Record>)
    | NotFound
    | ValidationError
    | ServerError
  {
    function Code(): int {
      match this
      case Created(_) => 201
      case NotFound => 404
      case ValidationError => 422
      case ServerError => 500
      case _ => 200
    }
  }

  datatype Result = Result(response: Response, db: Db)

  // ---------------------------------------------------------------- validation

  /** `sometimes|exists:<table>,id`: a sent value must be one of `ids`; a null is never
      found, a blank value is not checked. */
  predicate SometimesExists(v: Input<string>, ids: set<string>) {
    match v
    case Absent => true
    case Null => false
    case Given(s) => Blank(s) || s in ids
  }

  /** `nullable|exists:assets,id_asset`. */
  predicate ReplacedByOk(assets: seq<Asset>, v: Input<string>) {
    v.Given? && !Blank(v.value) ==> exists j | 0 <= j < |assets| :: Digits(assets[j].id) == v.value
  }

  /** The rules the two actions share: the nullable fields with a format or a lookup. */
  predicate OptionalFieldsOk(db: Db, req: Request, fmt: Formats) {
    && NullableFormat(Get(req, "ip_location"), fmt.isIp)
    && NullableFormat(Get(req, "date_deliver_to_user"), fmt.isDate)
    && NullableFormat(Get(req, "date_replacement"), fmt.isDate)
    && ReplacedByOk(db.assets, Get(req, "replaced_by"))
  }

  /** The validator of `store`. */
  predicate StoreValid(db: Db, req: Request, fmt: Formats) {
    && Filled(Get(req, "asset_type_id")) && Get(req, "asset_type_id").value in db.categoryIds
    && Filled(Get(req, "asset_code")) && Unique(db.assets, "asset_code", Get(req, "asset_code"), None)
    && Filled(Get(req, "serial_number")) && Unique(db.assets, "serial_number", Get(req, "serial_number"), None)
    && Filled(Get(req, "status_id")) && Get(req, "status_id").value in db.statusIds
    && Filled(Get(req, "location_region"))
    && OptionalFieldsOk(db, req, fmt)
  }

  /** The validator of `update` for the asset `id`: everything is optional, the two
      unique columns ignore the asset itself, and `location_region` may not be null. */
  predicate UpdateValid(db: Db, id: nat, req: Request, fmt: Formats) {
    && SometimesExists(Get(req, "asset_type_id"), db.categoryIds)
    && Unique(db.assets, "asset_code", Get(req, "asset_code"), Some(id))
    && Unique(db.assets, "serial_number", Get(req, "serial_number"), Some(id))
    && SometimesExists(Get(req, "status_id"), db.statusIds)
    && !Get(req, "location_region").Null?
    && OptionalFieldsOk(db, req, fmt)
  }

  /** `$request->get('changed_by', 'System')`: the default applies only when the field
      is missing; a null is kept. */
  function ChangedBy(req: Request): (who: Option<string>)
    ensures Get(req, "changed_by").Absent? ==> who == Some("System")
    ensures !Get(req, "changed_by").Absent? ==> who == Get(req, "changed_by").ToOption()
  {
    match Get(req, "changed_by")
    case Absent => Some("System")
    case Null => None
    case Given(v) => Some(v)
  }

  // ---------------------------------------------------------------- store

  /** POST /assets. `fault` says whether the database raises an error inside the
      transaction; the model does not predict database errors. */
  function Store(db: Db, req: Request, now: int, fmt: Formats, fault: bool): (r: Result)
    ensures r.response.ValidationError? <==> !StoreValid(db, req, fmt)
    ensures r.response.ServerError? <==> StoreValid(db, req, fmt) && fault
    ensures !r.response.Created? ==> r.db == db
    ensures r.response.Created? ==>
      var a := r.response.asset;
      && a.id == db.nextId && a.attrs == NewAttrs(req, Fillable)
      && r.db == db.(assets := db.assets + [a], nextId := db.nextId + 1,
                     history := db.history + [Record(a.id, "created", None, Some("Asset created"), ChangedBy(req), now, "Asset created in system")])
  {
    if !StoreValid(db, req, fmt) then Result(ValidationError, db)
    else if fault then Result(ServerError, db)
    else
      var a := Asset(db.nextId, NewAttrs(req, Fillable));
      var rec := Record(a.id, "created", None, Some("Asset created"), ChangedBy(req), now, "Asset created in system");
      Result(Created(a), db.(assets := db.assets + [a], history := db.history + [rec], nextId := db.nextId + 1))
  }

  // ---------------------------------------------------------------- update

  /** The history loop's test for one request field: the original row has it set
      (`isset`, so not null) and the new value differs. */
  predicate Changed(original: map<string, Option<string>>, e: Field) {
    e.0 in original && original[e.0].Some? && original[e.0] != e.1
  }

  /** The request fields that get a history row, in request order. */
  function Changes(original: map<string, Option<string>>, req: seq<Field>): seq<Field> {
    Filter(req, (e: Field) => Changed(original, e))
  }

  /** The history row for one changed field. */
  function RecordOf(id: nat, original: map<string, Option<string>>, e: Field, who: Option<string>, now: int): Record
    requires e.0 in original
  {
    Record(id, e.0, original[e.0], e.1, who, now, "Field " + e.0 + " updated")
  }

  /** The history rows of an update: one per changed field, in request order. */
  function Diff(id: nat, original: map<string, Option<string>>, req: seq<Field>, who: Option<string>, now: int): (rs: seq<Record>)
    ensures |rs| == Count(req, (e: Field) => Changed(original, e))
  {
    var ch := Changes(original, req);
    seq(|ch|, k requires 0 <= k < |ch| => RecordOf(id, original, ch[k], who, now))
  }

  /** A field gets a history row exactly when the original row has it set and the new
      value differs; the row carries the old value, the new value and who made the change. */
  lemma DiffSpec(id: nat, original: map<string, Option<string>>, req: Request, who: Option<string>, now: int)
    ensures forall rec | rec in Diff(id, original, req, who, now) ::
      exists k | 0 <= k < |req| :: Changed(original, req[k]) && rec == RecordOf(id, original, req[k], who, now)
    ensures forall k | 0 <= k < |req| && Changed(original, req[k]) ::
      RecordOf(id, original, req[k], who, now) in Diff(id, original, req, who, now)
  {
    var ch := Changes(original, req);
    var rs := Diff(id, original, req, who, now);
    forall rec | rec in rs
      ensures exists k | 0 <= k < |req| :: Changed(original, req[k]) && rec == RecordOf(id, original, req[k], who, now)
    {
      var m :| 0 <= m < |rs| && rs[m] == rec;
      assert ch[m] in req;
    }
    forall k | 0 <= k < |req| && Changed(original, req[k])
      ensures RecordOf(id, original, req[k], who, now) in rs
    {
      var m :| 0 <= m < |ch| && ch[m] == req[k];
      assert rs[m] == RecordOf(id, original, req[k], who, now);
    }
  }

  /** A field the original row lacks, or holds as null, never gets a history row; nor
      does a field sent with the value it already has. */
  lemma UnsetOrSameNotLogged(id: nat, original: map<string, Option<string>>, req: Request, who: Option<string>, now: int, k: nat)
    requires DistinctKeys(req) && k < |req|
    requires req[k].0 !in original || original[req[k].0].None? || original[req[k].0] == req[k].1
    ensures forall rec | rec in Diff(id, original, req, who, now) :: rec.field != req[k].0
  {
    DiffSpec(id, original, req, who, now);
    forall rec | rec in Diff(id, original, req, who, now)
      ensures rec.field != req[k].0
    {
      var j :| 0 <= j < |req| && Changed(original, req[j]) && rec == RecordOf(id, original, req[j], who, now);
      assert j != k;
    }
  }

  /** PUT /assets/{id}. */
  function Update(db: Db, id: int, req: Request, now: int, fmt: Formats, fault: bool): (r: Result)
    ensures r.response.NotFound? <==> IndexOf(db.assets, id).None?
    ensures r.response.ValidationError? <==> IndexOf(db.assets, id).Some? && !UpdateValid(db, id as nat, req, fmt)
    ensures r.response.ServerError? <==> IndexOf(db.assets, id).Some? && UpdateValid(db, id as nat, req, fmt) && fault
    ensures !r.response.Updated? ==> r.db == db
    ensures r.response.Updated? ==>
      var i := IndexOf(db.assets, id).value;
      var a := db.assets[i];
      && r.response.asset == Assign(a, req, Fillable)
      && r.db == db.(assets := db.assets[i := Assign(a, req, Fillable)],
                     history := db.history + Diff(a.id, Original(a), req, ChangedBy(req), now))
  {
    match IndexOf(db.assets, id)
    case None => Result(NotFound, db)
    case Some(i) =>
      var a := db.assets[i];
      if !UpdateValid(db, a.id, req, fmt) then Result(ValidationError, db)
      else if fault then Result(ServerError, db)
      else
        var b := Assign(a, req, Fillable);
        Result(Updated(b), db.(assets := db.assets[i := b], history := db.history + Diff(a.id, Original(a), req, ChangedBy(req), now)))
  }

  // ---------------------------------------------------------------- destroy

  /** DELETE /assets/{id}: one 'deleted' history row, then the row goes. The history
      rows of the asset stay. */
  function Destroy(db: Db, id: int, req: Request, now: int, fault: bool): (r: Result)
    ensures r.response.NotFound? <==> IndexOf(db.assets, id).None?
    ensures r.response.ServerError? <==> IndexOf(db.assets, id).Some? && fault
    ensures !r.response.Deleted? ==> r.db == db
    ensures r.response.Deleted? ==>
      var i := IndexOf(db.assets, id).value;
      && |r.db.assets| == |db.assets| - 1
      && r.db.history == db.history + [Record(id as nat, "deleted", Some("Asset exists"), Some("Asset deleted"), ChangedBy(req), now, "Asset deleted from system")]
      && r.db.assets == db.assets[..i] + db.assets[i + 1..]
  {
    match IndexOf(db.assets, id)
    case None => Result(NotFound, db)
    case Some(i) =>
      if fault then Result(ServerError, db)
      else
        var rec := Record(db.assets[i].id, "deleted", Some("Asset exists"), Some("Asset deleted"), ChangedBy(req), now, "Asset deleted from system");
        Result(Deleted, db.(assets := db.assets[..i] + db.assets[i + 1..], history := db.history + [rec]))
  }

  // ---------------------------------------------------------------- history

  /** Newest first: change dates never increase along the list. */
  predicate NewestFirst(rs: seq<Record>) {
    forall i, j | 0 <= i < j < |rs| :: rs[i].changeDate >= rs[j].changeDate
  }

  /** Put `x` into a newest-first list: before the first row it is strictly newer than. */
  function Insert(x: Record, rs: seq<Record>): (r: seq<Record>)
    requires NewestFirst(rs)
    ensures NewestFirst(r)
    ensures multiset(r) == multiset(rs) + multiset{x}
  {
    if rs == [] || x.changeDate > rs[0].changeDate then
      assert forall k | 0 < k < |rs| :: rs[0].changeDate >= rs[k].changeDate;
      [x] + rs
    else
      var tail := Insert(x, rs[1..]);
      assert rs == [rs[0]] + rs[1..];
      InsertHead(rs[0], x, rs[1..], tail);
      [rs[0]] + tail
  }

  /** A row at least as new as `x` and as every row of `rs` can head their merge. */
  lemma InsertHead(h: Record, x: Record, rs: seq<Record>, tail: seq<Record>)
    requires NewestFirst([h] + rs) && NewestFirst(tail) && h.changeDate >= x.changeDate
    requires multiset(tail) == multiset(rs) + multiset{x}
    ensures NewestFirst([h] + tail)
  {
    forall k | 0 <= k < |tail|
      ensures h.changeDate >= tail[k].changeDate
    {
      var y := tail[k];
      assert y in multiset(tail);
      if y != x {
        assert y in multiset(rs);
        assert y in rs;
        var m :| 0 <= m < |rs| && rs[m] == y;
        var hs := [h] + rs;
        assert hs[0] == h && hs[m + 1] == y;
        assert hs[0].changeDate >= hs[m + 1].changeDate;
      }
    }
    var s := [h] + tail;
    forall a, b | 0 <= a < b < |s|
      ensures s[a].changeDate >= s[b].changeDate
    {
      if a > 0 {
        assert s[a] == tail[a - 1] && s[b] == tail[b - 1];
      } else {
        assert s[b] == tail[b - 1];
      }
    }
  }

  /** `orderBy('change_date', 'desc')`; rows with the same date come newest row first. */
  function SortNewestFirst(rs: seq<Record>): (r: seq<Record>)
    ensures NewestFirst(r)
    ensures multiset(r) == multiset(rs)
  {
    if rs == [] then []
    else
      assert rs == [rs[0]] + rs[1..];
      Insert(rs[0], SortNewestFirst(rs[1..]))
  }

  /** The history rows of one asset, in table order. */
  function HistoryOf(history: seq<Record>, id: int): seq<Record> {
    Filter(history, (rec: Record) => rec.assetId == id)
  }

  /** GET /assets/{id}/history. */
  function GetHistory(db: Db, id: int): (r: Response)
    ensures r.NotFound? <==> IndexOf(db.assets, id).None?
    ensures r.History? ==> NewestFirst(r.records) && multiset(r.records) == multiset(HistoryOf(db.history, id))
  {
    match IndexOf(db.assets, id)
    case None => NotFound
    case Some(_) => History(SortNewestFirst(HistoryOf(db.history, id)))
  }

  /** The history read back holds the asset's own rows and nothing else. */
  lemma HistoryIsOwn(db: Db, id: int)
    requires GetHistory(db, id).History?
    ensures forall rec | rec in GetHistory(db, id).records :: rec.assetId == id && rec in db.history
    ensures forall rec | rec in db.history && rec.assetId == id :: rec in GetHistory(db, id).records
  {
    var own := HistoryOf(db.history, id);
    var rs := GetHistory(db, id).records;
    forall rec | rec in rs
      ensures rec.assetId == id && rec in db.history
    {
      assert rec in multiset(own);
    }
    forall rec | rec in db.history && rec.assetId == id
      ensures rec in rs
    {
      var k :| 0 <= k < |db.history| && db.history[k] == rec;
      assert rec in own;
      assert rec in multiset(rs);
    }
  }

  // ---------------------------------------------------------------- invariant

  /** Ids are distinct and below the counter; asset codes and serial numbers are
      distinct wherever the `unique` rule looked at them. */
  predicate Valid(db: Db) {
    && IdsBelow(db.assets, db.nextId)
    && DistinctColumn(db.assets, "asset_code")
    && DistinctColumn(db.assets, "serial_number")
  }

  /** The row `store` adds holds the value the `unique` rule checked for `column`. */
  lemma StoreColumn(db: Db, req: Request, now: int, fmt: Formats, fault: bool, column: string)
    requires column == "asset_code" || column == "serial_number"
    requires DistinctColumn(db.assets, column)
    requires Store(db, req, now, fmt, fault).response.Created?
    ensures DistinctColumn(Store(db, req, now, fmt, fault).db.assets, column)
  {
    var a := Asset(db.nextId, NewAttrs(req, Fillable));
    assert column in Fillable;
    assert Attr(a, column) == Get(req, column).ToOption();
    AppendKeepsColumn(db.assets, a, column);
  }

  /** A successful `store` keeps the table valid. */
  lemma StoreKeepsValid(db: Db, req: Request, now: int, fmt: Formats, fault: bool)
    requires Valid(db)
    ensures Valid(Store(db, req, now, fmt, fault).db)
  {
    if Store(db, req, now, fmt, fault).response.Created? {
      StoreColumn(db, req, now, fmt, fault, "asset_code");
      StoreColumn(db, req, now, fmt, fault, "serial_number");
      AppendKeepsIds(db.assets, Asset(db.nextId, NewAttrs(req, Fillable)), db.nextId);
    }
  }

  /** The row `update` writes holds either its old value in `column` or the value the
      `unique` rule checked against every other row. */
  lemma UpdateColumn(db: Db, id: int, req: Request, now: int, fmt: Formats, fault: bool, column: string)
    requires column == "asset_code" || column == "serial_number"
    requires Valid(db) && DistinctColumn(db.assets, column)
    requires Update(db, id, req, now, fmt, fault).response.Updated?
    ensures DistinctColumn(Update(db, id, req, now, fmt, fault).db.assets, column)
  {
    var i := IndexOf(db.assets, id).value;
    var b := Assign(db.assets[i], req, Fillable);
    var v := Get(req, column);
    assert column in Fillable;
    assert Unique(db.assets, column, v, Some(id as nat));
    assert Attr(b, column) == if v.Absent? then Attr(db.assets[i], column) else v.ToOption();
    ReplaceKeepsColumn(db.assets, i, b, column);
  }

  /** A successful `update` keeps the table valid. */
  lemma UpdateKeepsValid(db: Db, id: int, req: Request, now: int, fmt: Formats, fault: bool)
    requires Valid(db)
    ensures Valid(Update(db, id, req, now, fmt, fault).db)
  {
    var r := Update(db, id, req, now, fmt, fault);
    if r.response.Updated? {
      UpdateColumn(db, id, req, now, fmt, fault, "asset_code");
      UpdateColumn(db, id, req, now, fmt, fault, "serial_number");
      var i := IndexOf(db.assets, id).value;
      ReplaceKeepsIds(db.assets, i, r.response.asset, db.nextId);
    }
  }

  /** A successful `destroy` keeps the table valid. */
  lemma DestroyKeepsValid(db: Db, id: int, req: Request, now: int, fault: bool)
    requires Valid(db)
    ensures Valid(Destroy(db, id, req, now, fault).db)
  {
    if Destroy(db, id, req, now, fault).response.Deleted? {
      var i := IndexOf(db.assets, id).value;
      RemoveKeepsRows(db.assets, i, db.nextId, "asset_code");
      RemoveKeepsRows(db.assets, i, db.nextId, "serial_number");
    }
  }
}

=== FILE: bulk_import.dfy ===
/** The server-side spreadsheet import of the backend API: every data row is combined
    with the header row into a keyed record, checked, and committed on its own, so
    earlier rows stay imported whatever later rows do. Also the import template the
    API hands out.

    A sheet is the array of rows the spreadsheet reader returns, the header row first;
    an empty cell is None. The asset store is the list of assets created so far,
    together with the category and status catalogs the rows are resolved against. */
module BulkImport {
  import opened Common

  type Cell = Option<string>
  type Row = seq<Cell>

  /** The array key a header cell becomes: PHP turns a null key into "". */
  function Key(h: Cell): string {
    if h.Some? then h.value else ""
  }

  /** `array_combine($headers, $row)[$key]` for a row as long as the header row: the cell
      under the LAST header equal to `key` (later keys overwrite earlier ones), Absent
      when no header is `key`, Null when that cell is empty. */
  function Lookup(headers: Row, row: Row, key: string): Input<string>
    requires |row| == |headers|
  {
    if headers == [] then Absent
    else
      var n := |headers| - 1;
      if Key(headers[n]) == key then (if row[n].Some? then Given(row[n].value) else Null)
      else Lookup(headers[..n], row[..n], key)
  }

  /** PHP `empty($data[$key])`: a missing key, null, "" and "0" are empty. */
  predicate Empty(v: Input<string>) {
    PhpEmpty(v.ToOption())
  }

  /** A header equal to `key` exists in the header row. */
  predicate HasKey(headers: Row, key: string) {
    exists i | 0 <= i < |headers| :: Key(headers[i]) == key
  }

  lemma {:induction false} LookupSpec(headers: Row, row: Row, key: string)
    requires |row| == |headers|
    ensures Lookup(headers, row, key).Absent? <==> !HasKey(headers, key)
    ensures HasKey(headers, key) ==> exists i | 0 <= i < |headers| ::
      && Key(headers[i]) == key
      && Lookup(headers, row, key) == (if row[i].Some? then Given(row[i].value) else Null)
      && forall j | i < j < |headers| :: Key(headers[j]) != key
    decreases |headers|
  {
    if headers != [] {
      var n := |headers| - 1;
      if Key(headers[n]) != key {
        LookupSpec(headers[..n], row[..n], key);
        if HasKey(headers, key) {
          var i :| 0 <= i < |headers| && Key(headers[i]) == key;
          assert headers[..n][i] == headers[i];
        }
      }
    }
  }

  /** The keys of the optional columns, in the order the importer stores them. */
  const OptionalKeys: seq<string> :=
    ["Serial Number", "Hostname", "PO Number", "Location", "Current User", "Office", "Remark", "IP Location",
     "User Before", "Date Deliver", "Ticket", "Installed By", "Replaced By", "Date Replacement", "Done By"]

  /** An asset the import creates: its code, the ids of its category and status, and its
      optional columns in the order of OptionalKeys (null when absent). */
  datatype Created = Created(code: string, categoryId: int, statusId: int, optional: seq<Option<string>>)

  /** Why a row was not imported; `row` is its spreadsheet row number. */
  datatype RowError =
    | MissingFields(row: nat)
    | CategoryNotFound(row: nat, name: string)
    | StatusNotFound(row: nat, name: string)
    | CodeExists(row: nat, code: string)
    | CreateFailed(row: nat, message: string)

  /** The message the response lists for an error. */
  function ErrorText(e: RowError): (t: string)
    ensures StartsWith(t, "Row " + Digits(e.row) + ": ")
  {
    "Row " + Digits(e.row) + ": " +
      match e
      case MissingFields(_) => "Missing required fields"
      case CategoryNotFound(_, n) => "Category '" + n + "' not found"
      case StatusNotFound(_, n) => "Status '" + n + "' not found"
      case CodeExists(_, c) => "Asset code '" + c + "' already exists"
      case CreateFailed(_, m) => m
  }

  /** The first catalog entry whose name is exactly `name`. */
  function FindNamed(entries: seq<CatalogEntry>, name: string): (r: Option<CatalogEntry>)
    ensures r.None? <==> forall j | 0 <= j < |entries| :: entries[j].name != name
    ensures r.Some? ==> exists j | 0 <= j < |entries| :: entries[j] == r.value && r.value.name == name
  {
    if entries == [] then None
    else if entries[0].name == name then Some(entries[0])
    else FindNamed(entries[1..], name)
  }

  /** Some asset of the store has code `code`. */
  predicate CodeTaken(store: seq<Created>, code: string) {
    exists i | 0 <= i < |store| :: store[i].code == code
  }

  datatype Step = Create(asset: Created) | Reject(error: RowError)

  /** The `date` cast of the asset's two date columns, which runs when `Asset::create`
      assigns a value PHP finds truthy (neither null, "" nor "0"): `parses` says whether
      the date library reads a text, and `failure` is the message of the exception it
      throws when it does not. The library itself is not modelled. */
  datatype DateCast = DateCast(parses: string -> bool, failure: string -> string)

  /** Positions in OptionalKeys of the date columns, in the order `create` assigns them. */
  const DateDeliver: nat := 9
  const DateReplacement: nat := 13

  /** The cast rejects an optional value: it is truthy and does not parse. */
  predicate CastFails(cast: DateCast, v: Option<string>) {
    !PhpEmpty(v) && !cast.parses(v.value)
  }

  /** The first date value among `vs` the cast rejects, if any: Date Deliver before Date
      Replacement. */
  function FailedDate(vs: seq<Option<string>>, cast: DateCast): Option<string>
    requires |vs| == |OptionalKeys|
  {
    if CastFails(cast, vs[DateDeliver]) then vs[DateDeliver]
    else if CastFails(cast, vs[DateReplacement]) then vs[DateReplacement]
    else None
  }

  /** One data row at index `index` (spreadsheet row index + 2), against the store as the
      earlier rows left it: the three required keys must be non-empty, then the
      category and then the status must name an entry, then the code must be new; then
      `create` casts the date columns, and a date the cast rejects throws, which the
      row's handler reports with the exception's message. */
  function RowStep(headers: Row, row: Row, index: nat, cats: seq<CatalogEntry>, stats: seq<CatalogEntry>, cast: DateCast, store: seq<Created>): Step
    requires |row| == |headers|
  {
    var n := index + 2;
    var code := Lookup(headers, row, "Asset Code");
    var cat := Lookup(headers, row, "Category");
    var st := Lookup(headers, row, "Status");
    if Empty(code) || Empty(cat) || Empty(st) then Reject(MissingFields(n))
    else
      var c := FindNamed(cats, cat.value);
      var s := FindNamed(stats, st.value);
      if c.None? then Reject(CategoryNotFound(n, cat.value))
      else if s.None? then Reject(StatusNotFound(n, st.value))
      else if CodeTaken(store, code.value) then Reject(CodeExists(n, code.value))
      else
        var vs := OptionalValues(headers, row);
        var bad := FailedDate(vs, cast);
        if bad.Some? then Reject(CreateFailed(n, cast.failure(bad.value)))
        else Create(Created(code.value, c.value.id, s.value.id, vs))
  }

  /** `$data[$key] ?? null` for every optional key. */
  function OptionalValues(headers: Row, row: Row): (vs: seq<Option<string>>)
    requires |row| == |headers|
    ensures |vs| == |OptionalKeys|
  {
    seq(|OptionalKeys|, k requires 0 <= k < |OptionalKeys| => Lookup(headers, row, OptionalKeys[k]).ToOption())
  }

  /** What a row yields, by the first check it fails. Every error carries the row's
      number; a row that passes the lookups but holds a date the cast rejects is reported
      with the message for its first such date; a row is created exactly when all checks
      pass, and the created asset takes its code from the row, its ids from entries
      named exactly as the row's cells, and its optional values from the row. */
  lemma RowStepSpec(headers: Row, row: Row, index: nat, cats: seq<CatalogEntry>, stats: seq<CatalogEntry>, cast: DateCast, store: seq<Created>)
    requires |row| == |headers|
    ensures var r := RowStep(headers, row, index, cats, stats, cast, store);
      var code := Lookup(headers, row, "Asset Code");
      var cat := Lookup(headers, row, "Category");
      var st := Lookup(headers, row, "Status");
      var missing := Empty(code) || Empty(cat) || Empty(st);
      var catKnown := !missing && exists j | 0 <= j < |cats| :: cats[j].name == cat.value;
      var statKnown := !missing && exists j | 0 <= j < |stats| :: stats[j].name == st.value;
      var vs := OptionalValues(headers, row);
      var datesCast := !CastFails(cast, vs[DateDeliver]) && !CastFails(cast, vs[DateReplacement]);
      && (r.Reject? ==> r.error.row == index + 2)
      && (r == Reject(MissingFields(index + 2)) <==> missing)
      && (r.Reject? && r.error.CategoryNotFound? <==> !missing && !catKnown)
      && (r.Reject? && r.error.StatusNotFound? <==> catKnown && !statKnown)
      && (r.Reject? && r.error.CodeExists? <==> catKnown && statKnown && CodeTaken(store, code.value))
      && (r.Reject? && r.error.CreateFailed? <==> catKnown && statKnown && !CodeTaken(store, code.value) && !datesCast)
      && (r.Reject? && r.error.CreateFailed? ==>
            r.error.message == cast.failure(if CastFails(cast, vs[DateDeliver]) then vs[DateDeliver].value else vs[DateReplacement].value))
      && (r.Create? <==> catKnown && statKnown && !CodeTaken(store, code.value) && datesCast)
      && (r.Create? ==>
           && r.asset.code == code.value
           && r.asset.optional == vs
           && (exists j | 0 <= j < |cats| :: cats[j].id == r.asset.categoryId && cats[j].name == cat.value)
           && (exists j | 0 <= j < |stats| :: stats[j].id == r.asset.statusId && stats[j].name == st.value))
  {
  }

  /** A row whose cells are all empty is not skipped: it is reported as missing fields. */
  lemma BlankRowRejected(headers: Row, row: Row, index: nat, cats: seq<CatalogEntry>, stats: seq<CatalogEntry>, cast: DateCast, store: seq<Created>)
    requires |row| == |headers|
    requires forall i | 0 <= i < |row| :: row[i].None?
    ensures RowStep(headers, row, index, cats, stats, cast, store) == Reject(MissingFields(index + 2))
  {
    LookupSpec(headers, row, "Asset Code");
  }

  /** An optional column whose key is not among the headers is stored as null. */
  /** The cell under the last header equal to `key` is `v`. */
  predicate LastCellIs(headers: Row, row: Row, key: string, v: Cell)
    requires |row| == |headers|
  {
    exists i | 0 <= i < |headers| ::
      && Key(headers[i]) == key && row[i] == v
      && forall j | i < j < |headers| :: Key(headers[j]) != key
  }

  /** Each optional value is the cell under the last header with its key, an empty cell
      giving null, and null when no header has the key. */
  lemma OptionalValuesSpec(headers: Row, row: Row)
    requires |row| == |headers|
    ensures var vs := OptionalValues(headers, row);
      && |vs| == |OptionalKeys|
      && (forall k | 0 <= k < |OptionalKeys| && HasKey(headers, OptionalKeys[k]) :: LastCellIs(headers, row, OptionalKeys[k], vs[k]))
      && (forall k | 0 <= k < |OptionalKeys| && !HasKey(headers, OptionalKeys[k]) :: vs[k].None?)
  {
    var vs := OptionalValues(headers, row);
    forall k | 0 <= k < |OptionalKeys|
      ensures HasKey(headers, OptionalKeys[k]) ==> LastCellIs(headers, row, OptionalKeys[k], vs[k])
      ensures !HasKey(headers, OptionalKeys[k]) ==> vs[k].None?
    {
      LookupSpec(headers, row, OptionalKeys[k]);
    }
  }

  lemma AbsentColumnIsNull(headers: Row, row: Row, k: nat)
    requires |row| == |headers| && k < |OptionalKeys|
    requires !HasKey(headers, OptionalKeys[k])
    ensures OptionalValues(headers, row)[k] == None
  {
    LookupSpec(headers, row, OptionalKeys[k]);
  }

  /** The import after its first `n` data rows: the store with the assets created so far,
      the count of created assets, the row errors, and the index of the row that made
      `array_combine` throw, if one did (that error escapes the handler, so no later
      row is visited). */
  datatype State = State(store: seq<Created>, imported: nat, errors: seq<RowError>, crash: Option<nat>)

  function Loop(headers: Row, rows: seq<Row>, cats: seq<CatalogEntry>, stats: seq<CatalogEntry>, cast: DateCast, store: seq<Created>, n: nat): State
    requires n <= |rows|
    decreases n
  {
    if n == 0 then State(store, 0, [], None)
    else Advance(Loop(headers, rows, cats, stats, cast, store, n - 1), headers, rows[n - 1], n - 1, cats, stats, cast)
  }

  /** Visit the data row at index `index`, unless an earlier row crashed the loop. */
  function Advance(s: State, headers: Row, row: Row, index: nat, cats: seq<CatalogEntry>, stats: seq<CatalogEntry>, cast: DateCast): State {
    if s.crash.Some? then s
    else if |row| != |headers| then s.(crash := Some(index))
    else
      match RowStep(headers, row, index, cats, stats, cast, s.store)
      case Create(a) => s.(store := s.store + [a], imported := s.imported + 1)
      case Reject(e) => s.(errors := s.errors + [e])
  }

  /** The response: the import completed with its count and its row errors, or the
      request failed with a server error at a spreadsheet row. */
  datatype Response = Completed(imported: nat, errors: seq<RowError>) | Crashed(row: nat)

  datatype Result = Result(response: Response, store: seq<Created>)

  /** `importAssets` on a sheet whose first row is the header row. */
  function ImportAssets(sheet: seq<Row>, cats: seq<CatalogEntry>, stats: seq<CatalogEntry>, cast: DateCast, store: seq<Created>): Result {
    if sheet == [] then Result(Completed(0, []), store)
    else
      var s := Loop(sheet[0], sheet[1..], cats, stats, cast, store, |sheet| - 1);
      Result(if s.crash.Some? then Crashed(s.crash.value + 2) else Completed(s.imported, s.errors), s.store)
  }

  predicate UniqueCodes(store: seq<Created>) {
    forall i, j | 0 <= i < j < |store| :: store[i].code != store[j].code
  }

  /** Rows are committed one by one: the store only grows, by one asset per imported row,
      and each row visited before the crash (if any) is either imported or reported. */
  lemma {:induction false} LoopCounts(headers: Row, rows: seq<Row>, cats: seq<CatalogEntry>, stats: seq<CatalogEntry>, cast: DateCast, store: seq<Created>, n: nat)
    requires n <= |rows|
    ensures var s := Loop(headers, rows, cats, stats, cast, store, n);
      && store <= s.store && |s.store| == |store| + s.imported
      && s.imported + |s.errors| == (if s.crash.Some? then s.crash.value else n)
      && (s.crash.Some? ==> s.crash.value < n)
    decreases n
  {
    if n > 0 {
      LoopCounts(headers, rows, cats, stats, cast, store, n - 1);
      var s := Loop(headers, rows, cats, stats, cast, store, n - 1);
      if s.crash.None? && |rows[n - 1]| == |headers| {
        var r := RowStep(headers, rows[n - 1], n - 1, cats, stats, cast, s.store);
        if r.Create? {
          PrefixExtend(store, s.store, r.asset);
        }
      }
    }
  }

  lemma PrefixExtend<T>(a: seq<T>, b: seq<T>, x: T)
    requires a <= b
    ensures a <= b + [x]
  {
    assert (b + [x])[..|a|] == b[..|a|];
  }

  /** The loop crashes exactly when some row is not as long as the header row, and then
      at the first such row. */
  lemma {:induction false} LoopCrash(headers: Row, rows: seq<Row>, cats: seq<CatalogEntry>, stats: seq<CatalogEntry>, cast: DateCast, store: seq<Created>, n: nat)
    requires n <= |rows|
    ensures var s := Loop(headers, rows, cats, stats, cast, store, n);
      && (s.crash.None? <==> forall i | 0 <= i < n :: |rows[i]| == |headers|)
      && (s.crash.Some? ==>
            && s.crash.value < n && |rows[s.crash.value]| != |headers|
            && forall i | 0 <= i < s.crash.value :: |rows[i]| == |headers|)
    decreases n
  {
    if n > 0 {
      LoopCrash(headers, rows, cats, stats, cast, store, n - 1);
    }
  }

  /** Error rows all lie in `[2, n + 1]` and strictly increase. */
  predicate RowsInOrder(errors: seq<RowError>, n: nat) {
    && (forall k | 0 <= k < |errors| :: 2 <= errors[k].row <= n + 1)
    && (forall k, l | 0 <= k < l < |errors| :: errors[k].row < errors[l].row)
  }

  lemma RowsInOrderExtend(errors: seq<RowError>, e: RowError, n: nat)
    requires RowsInOrder(errors, n) && e.row == n + 2
    ensures RowsInOrder(errors + [e], n + 1)
  {
    var es := errors + [e];
    forall k, l | 0 <= k < l < |es|
      ensures es[k].row < es[l].row
    {
      assert es[k] == errors[k];
      if l < |errors| {
        assert es[l] == errors[l];
      }
    }
  }

  /** Each error names the row that raised it: errors come in row order, one row apart at least. */
  lemma {:induction false} LoopErrorRows(headers: Row, rows: seq<Row>, cats: seq<CatalogEntry>, stats: seq<CatalogEntry>, cast: DateCast, store: seq<Created>, n: nat)
    requires n <= |rows|
    ensures RowsInOrder(Loop(headers, rows, cats, stats, cast, store, n).errors, n)
    decreases n
  {
    if n > 0 {
      LoopErrorRows(headers, rows, cats, stats, cast, store, n - 1);
      var s := Loop(headers, rows, cats, stats, cast, store, n - 1);
      if s.crash.None? && |rows[n - 1]| == |headers| {
        var r := RowStep(headers, rows[n - 1], n - 1, cats, stats, cast, s.store);
        RowErrorRow(headers, rows[n - 1], n - 1, cats, stats, cast, s.store);
        if r.Reject? {
          RowsInOrderExtend(s.errors, r.error, n - 1);
        }
      }
    }
  }

  lemma RowErrorRow(headers: Row, row: Row, index: nat, cats: seq<CatalogEntry>, stats: seq<CatalogEntry>, cast: DateCast, store: seq<Created>)
    requires |row| == |headers|
    ensures var r := RowStep(headers, row, index, cats, stats, cast, store);
      r.Reject? ==> r.error.row == index + 2
  {
  }

  /** A store whose codes are unique keeps them unique: no row creates a code the store
      already holds, whether it was there before the import or an earlier row created it. */
  lemma {:induction false} LoopKeepsCodesUnique(headers: Row, rows: seq<Row>, cats: seq<CatalogEntry>, stats: seq<CatalogEntry>, cast: DateCast, store: seq<Created>, n: nat)
    requires n <= |rows| && UniqueCodes(store)
    ensures UniqueCodes(Loop(headers, rows, cats, stats, cast, store, n).store)
    decreases n
  {
    if n > 0 {
      LoopKeepsCodesUnique(headers, rows, cats, stats, cast, store, n - 1);
      var s := Loop(headers, rows, cats, stats, cast, store, n - 1);
      if s.crash.None? && |rows[n - 1]| == |headers| {
        var r := RowStep(headers, rows[n - 1], n - 1, cats, stats, cast, s.store);
        if r.Create? {
          RowStepSpec(headers, rows[n - 1], n - 1, cats, stats, cast, s.store);
          var t := s.store + [r.asset];
          forall i, j | 0 <= i < j < |t|
            ensures t[i].code != t[j].code
          {
            if j == |s.store| {
              assert t[i] == s.store[i];
            }
          }
        }
      }
    }
  }

  /** The response of an import and what it leaves in the store. The store grows by
      exactly the imported assets, kept even when later rows fail; a sheet whose rows
      are all as long as its header row completes, with one outcome per data row; the row
      errors come in row order; and the import never creates an asset code twice. */
  lemma ImportSpec(sheet: seq<Row>, cats: seq<CatalogEntry>, stats: seq<CatalogEntry>, cast: DateCast, store: seq<Created>)
    ensures var r := ImportAssets(sheet, cats, stats, cast, store);
      && store <= r.store
      && (r.response.Completed? ==> |r.store| == |store| + r.response.imported)
      && (r.response.Completed? <==> forall i | 1 <= i < |sheet| :: |sheet[i]| == |sheet[0]|)
      && (r.response.Completed? && sheet != [] ==> r.response.imported + |r.response.errors| == |sheet| - 1)
      && (r.response.Completed? && sheet != [] ==> RowsInOrder(r.response.errors, |sheet| - 1))
      && (r.response.Crashed? ==> 2 <= r.response.row <= |sheet|)
      && (UniqueCodes(store) ==> UniqueCodes(r.store))
  {
    if sheet != [] {
      var rows := sheet[1..];
      LoopCounts(sheet[0], rows, cats, stats, cast, store, |rows|);
      LoopCrash(sheet[0], rows, cats, stats, cast, store, |rows|);
      LoopErrorRows(sheet[0], rows, cats, stats, cast, store, |rows|);
      if UniqueCodes(store) {
        LoopKeepsCodesUnique(sheet[0], rows, cats, stats, cast, store, |rows|);
      }
      var s := Loop(sheet[0], rows, cats, stats, cast, store, |rows|);
      if forall i | 1 <= i < |sheet| :: |sheet[i]| == |sheet[0]| {
        forall i | 0 <= i < |rows|
          ensures |rows[i]| == |sheet[0]|
        {
          assert rows[i] == sheet[i + 1];
        }
      }
      if forall i | 0 <= i < |rows| :: |rows[i]| == |sheet[0]| {
        forall i | 1 <= i < |sheet|
          ensures |sheet[i]| == |sheet[0]|
        {
          assert sheet[i] == rows[i - 1];
        }
      }
    }
  }

  /** Two identical rows that would both be imported into a store without their code: the
      first is created and the second is refused as a duplicate of it. */
  lemma DuplicateRowRejected(headers: Row, row: Row, cats: seq<CatalogEntry>, stats: seq<CatalogEntry>, cast: DateCast, store: seq<Created>)
    requires |row| == |headers|
    requires RowStep(headers, row, 0, cats, stats, cast, store).Create?
    ensures var code := Lookup(headers, row, "Asset Code").value;
      var r := ImportAssets([headers, row, row], cats, stats, cast, store);
      && r.response == Completed(1, [CodeExists(3, code)])
      && r.store == store + [RowStep(headers, row, 0, cats, stats, cast, store).asset]
  {
    var rows := [headers, row, row][1..];
    assert rows == [row, row];
    var a := RowStep(headers, row, 0, cats, stats, cast, store).asset;
    FirstCopyCreated(headers, row, cats, stats, cast, store);
    SecondCopyRejected(headers, row, cats, stats, cast, store);
    assert Loop(headers, rows, cats, stats, cast, store, 2) == Advance(State(store + [a], 1, [], None), headers, row, 1, cats, stats, cast);
  }

  /** Two identical rows whose lookups pass but whose date the cast rejects: neither is
      created, and both are reported, as rows 2 and 3, with the cast's message rather
      than as an existing code. */
  lemma BadDateRowsReported(headers: Row, row: Row, cats: seq<CatalogEntry>, stats: seq<CatalogEntry>, cast: DateCast, store: seq<Created>)
    requires |row| == |headers|
    requires RowStep(headers, row, 0, cats, stats, cast, store).Reject?
    requires RowStep(headers, row, 0, cats, stats, cast, store).error.CreateFailed?
    ensures var m := RowStep(headers, row, 0, cats, stats, cast, store).error.message;
      var r := ImportAssets([headers, row, row], cats, stats, cast, store);
      && r.response == Completed(0, [CreateFailed(2, m), CreateFailed(3, m)])
      && r.store == store
  {
    var rows := [headers, row, row][1..];
    assert rows == [row, row];
    var e := RowStep(headers, row, 0, cats, stats, cast, store).error;
    assert Loop(headers, rows, cats, stats, cast, store, 0) == State(store, 0, [], None);
    assert Loop(headers, rows, cats, stats, cast, store, 1) == State(store, 0, [e], None);
  }

  lemma FirstCopyCreated(headers: Row, row: Row, cats: seq<CatalogEntry>, stats: seq<CatalogEntry>, cast: DateCast, store: seq<Created>)
    requires |row| == |headers|
    requires RowStep(headers, row, 0, cats, stats, cast, store).Create?
    ensures Loop(headers, [row, row], cats, stats, cast, store, 1) ==
      State(store + [RowStep(headers, row, 0, cats, stats, cast, store).asset], 1, [], None)
  {
    assert Loop(headers, [row, row], cats, stats, cast, store, 0) == State(store, 0, [], None);
  }

  lemma SecondCopyRejected(headers: Row, row: Row, cats: seq<CatalogEntry>, stats: seq<CatalogEntry>, cast: DateCast, store: seq<Created>)
    requires |row| == |headers|
    requires RowStep(headers, row, 0, cats, stats, cast, store).Create?
    ensures var a := RowStep(headers, row, 0, cats, stats, cast, store).asset;
      RowStep(headers, row, 1, cats, stats, cast, store + [a]) == Reject(CodeExists(3, Lookup(headers, row, "Asset Code").value))
  {
    var a := RowStep(headers, row, 0, cats, stats, cast, store).asset;
    assert (store + [a])[|store|] == a;
    assert CodeTaken(store + [a], a.code);
  }

  // ---------------------------------------------------------------- template

  /** The headers of the import template. */
  const TemplateHeaders: seq<string> :=
    ["Asset Code", "Category", "Serial Number", "Hostname", "PO Number", "Location", "Current User", "Office",
     "Status", "Remark", "IP Location", "User Before", "Date Deliver", "Ticket", "Installed By",
     "Replaced By", "Date Replacement", "Done By"]

  /** The sample row of the template. */
  const SampleRow: seq<string> :=
    ["LAP002", "Laptop", "SN123456789", "LAPTOP-JANE", "PO-2024-007", "Jakarta Pusat", "Jane Smith",
     "Kantor Pusat Lt. 2", "Active", "Laptop untuk marketing", "192.168.1.103", "John Doe", "2024-03-01",
     "TKT-2024-007", "Tech Support", "", "", "IT Team"]

  function Cells(s: seq<string>): (r: Row)
    ensures |r| == |s| && forall i | 0 <= i < |s| :: r[i] == Some(s[i])
  {
    seq(|s|, i requires 0 <= i < |s| => Some(s[i]))
  }

  /** The template lines up: as many sample cells as headers, the three required keys
      among the headers, and the optional keys the importer reads are the remaining
      headers, in order. */
  lemma TemplateShape()
    ensures |TemplateHeaders| == |SampleRow| == 18
    ensures TemplateHeaders[0] == "Asset Code" && TemplateHeaders[1] == "Category" && TemplateHeaders[8] == "Status"
    ensures OptionalKeys == TemplateHeaders[2..8] + TemplateHeaders[9..]
  {
  }

  /** Every key the importer reads is a header of the template. */
  lemma TemplateHasEveryKey(k: nat)
    requires k < |OptionalKeys|
    ensures HasKey(Cells(TemplateHeaders), OptionalKeys[k])
  {
    TemplateShape();
    var i := if k < 6 then k + 2 else k + 3;
    assert Cells(TemplateHeaders)[i] == Some(OptionalKeys[k]);
  }
}

=== FILE: common.dfy ===
/** Shared vocabulary: optional values, request fields, and the small text and
    list functions that several controllers and pages rely on. */
module Common {

  /** A value that may be missing (a PHP null, a JavaScript undefined). */
  datatype Option<T> = None | Some(value: T) {
    /** PHP `??` / JavaScript `?? d`: the value, or `d` when there is none. */
    function GetOr(d: T): T {
      if Some? then value else d
    }
  }

  /** One field of an HTTP request body: not sent, sent as null, or sent with a value. */
  datatype Input<T> = Absent | Null | Given(value: T) {
    /** PHP `$request->field ?? d`. */
    function Coalesce(d: T): T {
      if Given? then value else d
    }

    /** The value as a nullable column: null whether the field was missing or null. */
    function ToOption(): Option<T> {
      if Given? then Some(value) else None
    }

    /** Mass assignment: a missing field keeps `prev`, a null clears it, a value replaces it. */
    function Merge(prev: Option<T>): Option<T> {
      match this
      case Absent => prev
      case Null => None
      case Given(v) => Some(v)
    }
  }

  /** A category or a status: its id and its name. */
  datatype CatalogEntry = CatalogEntry(id: int, name: string)

  /** A date as a request sends it: text that Laravel's `date` rule accepts, with the
      instant (in seconds) it denotes, or any other text. */
  datatype DateText = Instant(text: string, at: int) | NotADate(text: string)

  /** `nullable|date`: a value that is sent must be a date, unless it is blank (Laravel
      runs only the implicit rules on a blank string). */
  predicate NullableDate(d: Input<DateText>) {
    d.Given? && d.value.NotADate? ==> Blank(d.value.text)
  }

  /** Framework format checks the model does not re-implement (Laravel's `ip` and `date` rules). */
  datatype Formats = Formats(isIp: string -> bool, isDate: string -> bool)

  // ---------------------------------------------------------------- text

  /** The characters PHP's trim() removes. */
  predicate IsTrimmed(c: char) {
    c == ' ' || c == '\t' || c == '\n' || c == '\r' || c as int == 0 || c as int == 11
  }

  /** Laravel's blank() for strings: empty after trimming. */
  predicate Blank(s: string) {
    forall i | 0 <= i < |s| :: IsTrimmed(s[i])
  }

  /** Laravel's `filled` / `required` on a string field: sent, not null, not blank. */
  predicate Filled(f: Input<string>) {
    f.Given? && !Blank(f.value)
  }

  /** JavaScript truthiness of a string value: present and non-empty. */
  predicate Truthy(v: Option<string>) {
    v.Some? && v.value != ""
  }

  /** PHP empty(): null, "" and "0" are empty. */
  predicate PhpEmpty(v: Option<string>) {
    v.None? || v.value == "" || v.value == "0"
  }

  function LowerChar(c: char): char {
    if 'A' <= c <= 'Z' then (c as int + 32) as char else c
  }

  /** toLowerCase() restricted to ASCII letters. */
  function Lower(s: string): (r: string)
    ensures |r| == |s|
    ensures forall i | 0 <= i < |s| :: r[i] == LowerChar(s[i])
  {
    if s == [] then [] else [LowerChar(s[0])] + Lower(s[1..])
  }

  /** `sub` occurs in `s` starting at index `i`. */
  predicate OccursAt(s: string, sub: string, i: int) {
    0 <= i && i + |sub| <= |s| && s[i..i + |sub|] == sub
  }

  /** JavaScript `s.includes(sub)`. */
  predicate Contains(s: string, sub: string) {
    exists i | 0 <= i <= |s| - |sub| :: OccursAt(s, sub, i)
  }

  function StartsWith(s: string, prefix: string): bool {
    |prefix| <= |s| && s[..|prefix|] == prefix
  }

  predicate IsDigit(c: char) {
    '0' <= c <= '9'
  }

  predicate AllDigits(s: string) {
    forall i | 0 <= i < |s| :: IsDigit(s[i])
  }

  function DigitChar(d: nat): (c: char)
    requires d < 10
    ensures IsDigit(c)
  {
    ('0' as int + d) as char
  }

  /** Decimal rendering of a natural number, without leading zeros. */
  function Digits(n: nat): (r: string)
    ensures |r| >= 1 && AllDigits(r)
    ensures n > 0 ==> r[0] != '0'
  {
    if n < 10 then [DigitChar(n)] else Digits(n / 10) + [DigitChar(n % 10)]
  }

  /** The number a string of decimal digits denotes (leading zeros allowed). */
  function Value(s: string): nat
    requires AllDigits(s)
  {
    if s == [] then 0 else Value(s[..|s| - 1]) * 10 + (s[|s| - 1] as int - '0' as int)
  }

  lemma {:induction false} ValueOfDigits(n: nat)
    ensures Value(Digits(n)) == n
  {
    if n >= 10 {
      var d := Digits(n / 10) + [DigitChar(n % 10)];
      assert d[..|d| - 1] == Digits(n / 10);
      ValueOfDigits(n / 10);
    }
  }

  function Repeat(c: char, k: nat): (r: string)
    ensures |r| == k
    ensures forall i | 0 <= i < k :: r[i] == c
  {
    if k == 0 then [] else [c] + Repeat(c, k - 1)
  }

  /** PHP str_pad($s, $width, $c, STR_PAD_LEFT). */
  function PadLeft(s: string, width: nat, c: char): (r: string)
    ensures |r| == if |s| >= width then |s| else width
    ensures r[|r| - |s|..] == s
    ensures forall i | 0 <= i < |r| - |s| :: r[i] == c
  {
    if |s| >= width then s else Repeat(c, width - |s|) + s
  }

  lemma {:induction false} ValueOfZeros(k: nat)
    ensures AllDigits(Repeat('0', k)) && Value(Repeat('0', k)) == 0
  {
    if k > 0 {
      var z := Repeat('0', k);
      assert z[..k - 1] == Repeat('0', k - 1);
      ValueOfZeros(k - 1);
    }
  }

  lemma {:induction false} ValueAfterZeros(k: nat, s: string)
    requires AllDigits(s)
    ensures AllDigits(Repeat('0', k) + s)
    ensures Value(Repeat('0', k) + s) == Value(s)
    decreases |s|
  {
    var z := Repeat('0', k);
    if s == [] {
      assert z + s == z;
      ValueOfZeros(k);
    } else {
      var s' := s[..|s| - 1];
      assert (z + s)[..|z + s| - 1] == z + s';
      ValueAfterZeros(k, s');
    }
  }

  /** Leading zeros do not change the number a digit string denotes. */
  lemma ValueIgnoresZeroPadding(s: string, width: nat)
    requires AllDigits(s)
    ensures AllDigits(PadLeft(s, width, '0'))
    ensures Value(PadLeft(s, width, '0')) == Value(s)
  {
    if |s| < width {
      ValueOfZeros(width - |s|);
      ValueAfterZeros(width - |s|, s);
    }
  }

  /** JavaScript `parts.join(sep)` / PHP implode. */
  function Join(parts: seq<string>, sep: string): string {
    if parts == [] then "" else if |parts| == 1 then parts[0] else parts[0] + sep + Join(parts[1..], sep)
  }

  // ---------------------------------------------------------------- lists

  /** Array.prototype.filter / Collection::filter: the order-preserving sublist of `s` satisfying `p`. */
  function Filter<T>(s: seq<T>, p: T -> bool): (r: seq<T>)
    ensures |r| <= |s|
    ensures forall i | 0 <= i < |r| :: r[i] in s && p(r[i])
    ensures forall i | 0 <= i < |s| :: p(s[i]) ==> s[i] in r
  {
    if s == [] then [] else (if p(s[0]) then [s[0]] else []) + Filter(s[1..], p)
  }

  /** The number of elements of `s` satisfying `p`. */
  function Count<T>(s: seq<T>, p: T -> bool): nat {
    |Filter(s, p)|
  }

  lemma {:induction false} FilterAppend<T>(a: seq<T>, b: seq<T>, p: T -> bool)
    ensures Filter(a + b, p) == Filter(a, p) + Filter(b, p)
  {
    if a != [] {
      assert (a + b)[1..] == a[1..] + b;
      FilterAppend(a[1..], b, p);
    } else {
      assert a + b == b;
    }
  }

  /** Filtering by a predicate that implies another gives no more elements. */
  lemma {:induction false} CountMonotone<T>(s: seq<T>, p: T -> bool, q: T -> bool)
    requires forall x | x in s :: p(x) ==> q(x)
    ensures Count(s, p) <= Count(s, q)
  {
    if s != [] {
      assert forall x | x in s[1..] :: x in s;
      CountMonotone(s[1..], p, q);
    }
  }

  /** Filtering by two predicates that agree on every element gives the same sublist. */
  lemma {:induction false} FilterCongruent<T>(s: seq<T>, p: T -> bool, q: T -> bool)
    requires forall x | x in s :: p(x) == q(x)
    ensures Filter(s, p) == Filter(s, q)
  {
    if s != [] {
      assert forall x | x in s[1..] :: x in s;
      FilterCongruent(s[1..], p, q);
    }
  }

  /** Count of a disjunction of two exclusive predicates. */
  lemma {:induction false} CountDisjoint<T>(s: seq<T>, p: T -> bool, q: T -> bool, pq: T -> bool)
    requires forall x | x in s :: pq(x) == (p(x) || q(x)) && !(p(x) && q(x))
    ensures Count(s, pq) == Count(s, p) + Count(s, q)
  {
    if s != [] {
      assert forall x | x in s[1..] :: x in s;
      CountDisjoint(s[1..], p, q, pq);
    }
  }

  /** Two lists of the same length whose elements pass their filters at the same
      positions have the same count. */
  lemma {:induction false} CountAligned<A, B>(a: seq<A>, b: seq<B>, p: A -> bool, q: B -> bool)
    requires |a| == |b|
    requires forall j | 0 <= j < |a| :: p(a[j]) == q(b[j])
    ensures Count(a, p) == Count(b, q)
  {
    if a != [] {
      assert forall j | 0 <= j < |a| - 1 :: a[1..][j] == a[j + 1] && b[1..][j] == b[j + 1];
      CountAligned(a[1..], b[1..], p, q);
    }
  }

  /** Every element satisfies `p`: the count is the length. */
  lemma {:induction false} CountAll<T>(s: seq<T>, p: T -> bool)
    requires forall j | 0 <= j < |s| :: p(s[j])
    ensures Count(s, p) == |s|
  {
    if s != [] {
      assert forall j | 0 <= j < |s| - 1 :: s[1..][j] == s[j + 1];
      CountAll(s[1..], p);
    }
  }

  /** No element satisfies `p`: the count is zero. */
  lemma {:induction false} CountNone<T>(s: seq<T>, p: T -> bool)
    requires forall j | 0 <= j < |s| :: !p(s[j])
    ensures Count(s, p) == 0
  {
    if s != [] {
      assert forall j | 0 <= j < |s| - 1 :: s[1..][j] == s[j + 1];
      CountNone(s[1..], p);
    }
  }

  /** Exactly the element at `k` satisfies `p`: the count is one. */
  lemma {:induction false} CountOne<T>(s: seq<T>, p: T -> bool, k: nat)
    requires k < |s| && p(s[k])
    requires forall j | 0 <= j < |s| && j != k :: !p(s[j])
    ensures Count(s, p) == 1
  {
    assert forall j | 0 <= j < |s| - 1 :: s[1..][j] == s[j + 1];
    if k == 0 {
      CountNone(s[1..], p);
    } else {
      CountOne(s[1..], p, k - 1);
    }
  }

  /** Position of the first element satisfying `p` (Eloquent `find`, `firstWhere`). */
  function FindFirst<T>(s: seq<T>, p: T -> bool): (r: Option<nat>)
    ensures r.Some? ==> r.value < |s| && p(s[r.value])
    ensures r.Some? ==> forall j | 0 <= j < r.value :: !p(s[j])
    ensures r.None? <==> forall j | 0 <= j < |s| :: !p(s[j])
  {
    if s == [] then None
    else if p(s[0]) then Some(0)
    else
      match FindFirst(s[1..], p)
      case None => None
      case Some(i) => Some(i + 1)
  }

  /** Position in `s` of the element at position `j` of `s` without its element `i`. */
  function Skip(i: nat, j: nat): nat {
    if j < i then j else j + 1
  }

  /** Removing the element at `i` shifts the later elements down by one. */
  lemma RemoveAt<T>(s: seq<T>, i: nat)
    requires i < |s|
    ensures |s[..i] + s[i + 1..]| == |s| - 1
    ensures forall j | 0 <= j < |s| - 1 :: (s[..i] + s[i + 1..])[j] == s[Skip(i, j)]
  {
  }

  /** Collection::take($n) / Array.slice(0, n). */
  function Take<T>(s: seq<T>, n: nat): (r: seq<T>)
    ensures |r| == if |s| < n then |s| else n
    ensures r == s[..|r|]
  {
    if |s| <= n then s else s[..n]
  }
}

=== FILE: grouping.dfy ===
/** Counting by key in first-occurrence order: a JavaScript `Map` filled with
    `map.set(k, (map.get(k) || 0) + 1)` and read back with `Array.from(map.entries())`,
    or a Laravel `$collection->groupBy(key)->map->count()`. */
module Grouping {
  import opened Common

  datatype Group = Group(name: string, count: nat)

  /** Index of the group named `k`, or |gs| when there is none. */
  function Find(gs: seq<Group>, k: string): (i: nat)
    ensures i <= |gs|
    ensures i < |gs| ==> gs[i].name == k
    ensures i == |gs| ==> forall j | 0 <= j < |gs| :: gs[j].name != k
  {
    if gs == [] then 0 else if gs[0].name == k then 0 else 1 + Find(gs[1..], k)
  }

  /** Sum of the counts. */
  function Total(gs: seq<Group>): nat {
    if gs == [] then 0 else Total(gs[..|gs| - 1]) + gs[|gs| - 1].count
  }

  /** Position of the first occurrence of `x` in `s`. */
  function FirstIndex(s: seq<string>, x: string): (i: nat)
    requires x in s
    ensures i < |s| && s[i] == x
    ensures forall j | 0 <= j < i :: s[j] != x
  {
    if s[0] == x then 0 else 1 + FirstIndex(s[1..], x)
  }

  predicate DistinctNames(gs: seq<Group>) {
    forall i, j | 0 <= i < j < |gs| :: gs[i].name != gs[j].name
  }

  /** One more occurrence of `k`: bump its group, or open a new group at the end. */
  function Tally(gs: seq<Group>, k: string): seq<Group> {
    var i := Find(gs, k);
    if i < |gs| then gs[i := Group(k, gs[i].count + 1)] else gs + [Group(k, 1)]
  }

  /** Group counts of `keys`: the keys tallied one after the other. */
  function GroupCounts(keys: seq<string>): seq<Group>
    decreases |keys|
  {
    if keys == [] then [] else Tally(GroupCounts(keys[..|keys| - 1]), keys[|keys| - 1])
  }

  /** The group counts hold one group per distinct key, in order of first occurrence,
      each with the number of times its key occurs; the counts add up to |keys|. */
  lemma {:induction false} GroupCountsSpec(keys: seq<string>)
    ensures var r := GroupCounts(keys);
      && DistinctNames(r)
      && (forall i | 0 <= i < |r| :: r[i].name in keys && r[i].count == multiset(keys)[r[i].name])
      && (forall i | 0 <= i < |keys| :: Find(r, keys[i]) < |r|)
      && (forall i, j | 0 <= i < j < |r| :: FirstIndex(keys, r[i].name) < FirstIndex(keys, r[j].name))
      && Total(r) == |keys|
    decreases |keys|
  {
    if keys != [] {
      var prev := keys[..|keys| - 1];
      var k := keys[|keys| - 1];
      assert keys == prev + [k];
      GroupCountsSpec(prev);
      TallyStep(GroupCounts(prev), prev, k, keys);
    }
  }

  /** Tallying one more key keeps `gs` a faithful summary of the longer key list. */
  lemma TallyStep(gs: seq<Group>, prev: seq<string>, k: string, keys: seq<string>)
    requires keys == prev + [k]
    requires DistinctNames(gs)
    requires forall i | 0 <= i < |gs| :: gs[i].name in prev && gs[i].count == multiset(prev)[gs[i].name]
    requires forall i | 0 <= i < |prev| :: Find(gs, prev[i]) < |gs|
    requires forall i, j | 0 <= i < j < |gs| :: FirstIndex(prev, gs[i].name) < FirstIndex(prev, gs[j].name)
    requires Total(gs) == |prev|
    ensures var r := Tally(gs, k);
      && DistinctNames(r)
      && (forall i | 0 <= i < |r| :: r[i].name in keys && r[i].count == multiset(keys)[r[i].name])
      && (forall i | 0 <= i < |keys| :: Find(r, keys[i]) < |r|)
      && (forall i, j | 0 <= i < j < |r| :: FirstIndex(keys, r[i].name) < FirstIndex(keys, r[j].name))
      && Total(r) == |keys|
  {
    TallyKeepsCounts(gs, prev, k);
    TallyKeepsOrder(gs, prev, k);
    TallyTotal(gs, k);
  }

  lemma TallyKeepsCounts(gs: seq<Group>, prev: seq<string>, k: string)
    requires DistinctNames(gs)
    requires forall i | 0 <= i < |gs| :: gs[i].name in prev && gs[i].count == multiset(prev)[gs[i].name]
    requires forall i | 0 <= i < |prev| :: Find(gs, prev[i]) < |gs|
    ensures var r := Tally(gs, k);
      && DistinctNames(r)
      && (forall i | 0 <= i < |r| :: r[i].name in prev + [k] && r[i].count == multiset(prev + [k])[r[i].name])
      && (forall i | 0 <= i < |prev + [k]| :: Find(r, (prev + [k])[i]) < |r|)
  {
    var keys := prev + [k];
    var r := Tally(gs, k);
    assert multiset(keys) == multiset(prev) + multiset{k};
    if Find(gs, k) == |gs| {
      forall j | 0 <= j < |prev|
        ensures prev[j] != k
      {
        assert Find(gs, prev[j]) < |gs|;
      }
      assert k !in prev;
    }
    forall i | 0 <= i < |keys|
      ensures Find(r, keys[i]) < |r|
    {
      if i < |prev| {
        assert keys[i] == prev[i];
        var j := Find(gs, prev[i]);
        assert r[j].name == keys[i];
      } else {
        assert r[Find(gs, k)].name == k;
      }
    }
  }

  lemma TallyKeepsOrder(gs: seq<Group>, prev: seq<string>, k: string)
    requires forall i | 0 <= i < |gs| :: gs[i].name in prev
    requires forall i | 0 <= i < |prev| :: Find(gs, prev[i]) < |gs|
    requires forall i, j | 0 <= i < j < |gs| :: FirstIndex(prev, gs[i].name) < FirstIndex(prev, gs[j].name)
    ensures var r := Tally(gs, k);
      forall i, j | 0 <= i < j < |r| :: FirstIndex(prev + [k], r[i].name) < FirstIndex(prev + [k], r[j].name)
  {
    FirstIndexExtend(prev, k);
    var r := Tally(gs, k);
    if Find(gs, k) == |gs| {
      forall j | 0 <= j < |prev|
        ensures prev[j] != k
      {
        assert Find(gs, prev[j]) < |gs|;
      }
      assert k !in prev;
      forall i | 0 <= i < |gs|
        ensures FirstIndex(prev + [k], r[i].name) < |prev|
      {
        assert r[i] == gs[i];
      }
    }
  }

  lemma TallyTotal(gs: seq<Group>, k: string)
    ensures Total(Tally(gs, k)) == Total(gs) + 1
  {
    var i := Find(gs, k);
    if i < |gs| {
      TotalBump(gs, i, k);
    } else {
      assert (gs + [Group(k, 1)])[..|gs|] == gs;
    }
  }

  lemma FirstIndexExtend(prev: seq<string>, k: string)
    ensures forall x | x in prev :: FirstIndex(prev + [k], x) == FirstIndex(prev, x)
    ensures k !in prev ==> FirstIndex(prev + [k], k) == |prev|
  {
    forall x | x in prev
      ensures FirstIndex(prev + [k], x) == FirstIndex(prev, x)
    {
      var i := FirstIndex(prev, x);
      var j := FirstIndex(prev + [k], x);
      assert (prev + [k])[i] == x;
      assert prev[j] == x || j == |prev|;
    }
  }

  /** Raising one count by one raises the total by one. */
  lemma {:induction false} TotalBump(gs: seq<Group>, i: nat, k: string)
    requires i < |gs|
    ensures Total(gs[i := Group(k, gs[i].count + 1)]) == Total(gs) + 1
    decreases |gs|
  {
    var gs' := gs[i := Group(k, gs[i].count + 1)];
    var n := |gs|;
    if i == n - 1 {
      assert gs'[..n - 1] == gs[..n - 1];
    } else {
      assert gs'[..n - 1] == gs[..n - 1][i := Group(k, gs[i].count + 1)];
      TotalBump(gs[..n - 1], i, k);
    }
  }

  // ---------------------------------------------------------------- grouping records by a key

  /** The grouping key of every record, in list order. */
  function Keys<T>(s: seq<T>, key: T -> string): (r: seq<string>)
    ensures |r| == |s|
    ensures forall i | 0 <= i < |s| :: r[i] == key(s[i])
  {
    seq(|s|, i requires 0 <= i < |s| => key(s[i]))
  }

  /** The records whose key is `n`. */
  function HasKey<T>(key: T -> string, n: string): T -> bool {
    (x: T) => key(x) == n
  }

  /** The number of records carrying a key is its multiplicity among the keys. */
  lemma {:induction false} CountIsMultiplicity<T>(s: seq<T>, key: T -> string, n: string)
    ensures Count(s, HasKey(key, n)) == multiset(Keys(s, key))[n]
  {
    if s != [] {
      assert Keys(s, key) == [key(s[0])] + Keys(s[1..], key);
      CountIsMultiplicity(s[1..], key, n);
    }
  }

  /** The groups of records by key: the records' keys, tallied in list order. */
  function GroupsOf<T>(s: seq<T>, key: T -> string): seq<Group> {
    GroupCounts(Keys(s, key))
  }

  /** The groups of records by key hold one group per distinct key in first-occurrence
      order, each counting how often its key occurs among the records' keys, adding up to
      all the records. `GroupsCount` restates the counts as numbers of records. */
  lemma GroupsOfSpec<T>(s: seq<T>, key: T -> string)
    ensures var gs := GroupsOf(s, key);
      && Total(gs) == |s|
      && DistinctNames(gs)
      && (forall i | 0 <= i < |gs| :: gs[i].name in Keys(s, key) && gs[i].count == multiset(Keys(s, key))[gs[i].name])
      && (forall i, j | 0 <= i < j < |gs| :: FirstIndex(Keys(s, key), gs[i].name) < FirstIndex(Keys(s, key), gs[j].name))
  {
    GroupCountsSpec(Keys(s, key));
  }

  /** Each group counts the records carrying its name, at least one. */
  lemma GroupsCount<T>(s: seq<T>, key: T -> string)
    ensures var gs := GroupsOf(s, key);
      forall i | 0 <= i < |gs| :: gs[i].count == Count(s, HasKey(key, gs[i].name)) > 0
  {
    var gs := GroupsOf(s, key);
    forall i | 0 <= i < |gs|
      ensures gs[i].count == Count(s, HasKey(key, gs[i].name)) > 0
    {
      GroupCount(s, key, gs[i]);
    }
  }

  /** A group of the keys counts the records carrying its name, at least one. */
  lemma GroupCount<T>(s: seq<T>, key: T -> string, g: Group)
    requires g in GroupCounts(Keys(s, key))
    ensures g.count == Count(s, HasKey(key, g.name)) > 0
  {
    var keys := Keys(s, key);
    GroupCountsSpec(keys);
    assert g.count == multiset(keys)[g.name] && g.name in keys;
    CountIsMultiplicity(s, key, g.name);
  }

  /** Every record's key has its group. */
  lemma GroupsCover<T>(s: seq<T>, key: T -> string)
    ensures var gs := GroupsOf(s, key);
      forall x | x in s :: exists i | 0 <= i < |gs| :: gs[i].name == key(x)
  {
    var keys := Keys(s, key);
    var gs := GroupsOf(s, key);
    GroupCountsSpec(keys);
    forall x | x in s
      ensures exists i | 0 <= i < |gs| :: gs[i].name == key(x)
    {
      var j :| 0 <= j < |s| && s[j] == x;
      assert gs[Find(gs, keys[j])].name == key(x);
    }
  }

  /** No record is grouped under the empty name when no key is empty. */
  lemma NoEmptyKey<T>(s: seq<T>, key: T -> string)
    requires forall x :: key(x) != ""
    ensures Count(s, HasKey(key, "")) == 0
  {
    CountNone(s, HasKey(key, ""));
  }
}

=== FILE: legacy_assets.dfy ===
/** The asset controller of the older back end. Its history is narrower than the audit
    trail of the asset-management back end: it records only who holds an asset and, on
    update, status changes, each with fixed default texts, and nothing runs inside a
    transaction. Also its CSV export. */
module LegacyAssets {
  import opened Common
  import opened AssetRows

  /** The columns mass assignment may write. */
  const Fillable: set<string> := {
    "asset_code", "asset_type_id", "serial_number", "hostname", "po_number",
    "location_region", "current_user", "office_now", "status_id", "remark", "ip_location",
    "user_before", "date_deliver_to_user", "ticket_number", "installed_by", "replaced_by",
    "date_replacement", "done_by"}

  /** A category or status row. */
  datatype Entry = Entry(id: nat, name: string)

  /** An `asset_histories` row. */
  datatype Record = Record(assetId: nat, actionType: string, oldValue: string, newValue: string, changedBy: string, remark: string)

  datatype Db = Db(assets: seq<Asset>, history: seq<Record>, categories: seq<Entry>, statuses: seq<Entry>, nextId: nat)

  datatype Response =
    | Created(asset: Asset)
    | Updated(asset: Asset)
    | Deleted
    | NotFound
    | ValidationError
    | ServerError
  {
    function Code(): int {
      match this
      case Created(_) => 201
      case NotFound => 404
      case ValidationError => 422
      case ServerError => 500
      case _ => 200
    }
  }

  datatype Result = Result(response: Response, db: Db)

  /** The entry whose id is written `v` (`find`, and the `exists:…,id` rule). */
  function Lookup(entries: seq<Entry>, v: string): (r: Option<Entry>)
    ensures r.Some? ==> r.value in entries && Digits(r.value.id) == v
    ensures r.None? <==> forall k | 0 <= k < |entries| :: Digits(entries[k].id) != v
  {
    match FindFirst(entries, (e: Entry) => Digits(e.id) == v)
    case None => None
    case Some(k) => Some(entries[k])
  }

  /** `required|exists:<table>,id`. */
  predicate RequiredExists(v: Input<string>, entries: seq<Entry>) {
    Filled(v) && Lookup(entries, v.value).Some?
  }

  /** The validator of `store`, and of `update` for the asset `except`: the code is
      required and unique (apart from the asset itself), the category and the status
      must exist, and the optional fields with a format must have it. */
  predicate Valid(db: Db, req: Request, fmt: Formats, except: Option<nat>) {
    && Filled(Get(req, "asset_code")) && Unique(db.assets, "asset_code", Get(req, "asset_code"), except)
    && RequiredExists(Get(req, "asset_type_id"), db.categories)
    && RequiredExists(Get(req, "status_id"), db.statuses)
    && NullableFormat(Get(req, "ip_location"), fmt.isIp)
    && NullableFormat(Get(req, "date_deliver_to_user"), fmt.isDate)
    && NullableFormat(Get(req, "date_replacement"), fmt.isDate)
  }

  // ---------------------------------------------------------------- store

  /** The history row of a new asset handed to a user: the previous holder defaults to
      'New Asset' and the installer to 'System'. */
  function HandOver(id: nat, req: Request): Record
    requires Filled(Get(req, "current_user"))
  {
    Record(id, "user_change", Get(req, "user_before").Coalesce("New Asset"), Get(req, "current_user").value,
      Get(req, "installed_by").Coalesce("System"), "Asset created and assigned to user")
  }

  /** POST /assets: one history row when a user is named, none otherwise. */
  function Store(db: Db, req: Request, fmt: Formats): (r: Result)
    ensures r.response.Created? <==> Valid(db, req, fmt, None)
    ensures !r.response.Created? ==> r == Result(ValidationError, db)
    ensures r.response.Created? ==>
      && r.response.asset == Asset(db.nextId, NewAttrs(req, Fillable))
      && r.db.assets == db.assets + [r.response.asset] && r.db.nextId == db.nextId + 1
      && r.db.history == db.history + (if Filled(Get(req, "current_user")) then [HandOver(db.nextId, req)] else [])
  {
    if !Valid(db, req, fmt, None) then Result(ValidationError, db)
    else
      var a := Asset(db.nextId, NewAttrs(req, Fillable));
      var written := if Filled(Get(req, "current_user")) then [HandOver(a.id, req)] else [];
      Result(Created(a), db.(assets := db.assets + [a], history := db.history + written, nextId := db.nextId + 1))
  }

  // ---------------------------------------------------------------- update

  /** The update changes the status: it is filled and differs from the stored one. */
  predicate StatusChanges(a: Asset, req: Request) {
    Filled(Get(req, "status_id")) && Attr(a, "status_id") != Some(Get(req, "status_id").value)
  }

  /** The update changes the holder: it is filled and differs from the stored one. */
  predicate UserChanges(a: Asset, req: Request) {
    Filled(Get(req, "current_user")) && Attr(a, "current_user") != Some(Get(req, "current_user").value)
  }

  /** The name of the asset's present status, when that status row exists. */
  function CurrentStatus(db: Db, a: Asset): Option<Entry> {
    match Attr(a, "status_id")
    case None => None
    case Some(v) => Lookup(db.statuses, v)
  }

  /** The name of the status the request asks for (the validator made sure it exists). */
  function NewStatusName(db: Db, req: Request): string {
    if Get(req, "status_id").Given? then
      match Lookup(db.statuses, Get(req, "status_id").value)
      case None => ""
      case Some(e) => e.name
    else ""
  }

  /** The history rows an update writes, status first. `old` is the name of the present
      status; the holder defaults to 'No User' and the editor to 'System'. */
  function UpdateRecords(db: Db, a: Asset, req: Request, oldStatus: string): (rs: seq<Record>) {
    var who := Get(req, "done_by").Coalesce("System");
    (if StatusChanges(a, req)
     then [Record(a.id, "status_change", oldStatus, NewStatusName(db, req), who, "Status updated")]
     else [])
    + (if UserChanges(a, req)
       then [Record(a.id, "user_change", Attr(a, "current_user").GetOr("No User"), Get(req, "current_user").value, who, "User assignment updated")]
       else [])
  }

  /** The name of the present status, or nothing to print when there is none. */
  function OldStatusName(db: Db, a: Asset): string {
    match CurrentStatus(db, a)
    case None => ""
    case Some(e) => e.name
  }

  /** The update would read the name of a status row that no longer exists. */
  predicate StatusRowMissing(db: Db, a: Asset, req: Request) {
    StatusChanges(a, req) && CurrentStatus(db, a).None?
  }

  /** PUT /assets/{id}. The history rows are written before the asset, outside any
      transaction: `fault` says whether the final write of the asset fails, which
      leaves the history rows in place. Reading the name of a status row that no longer
      exists fails before anything is written. */
  function Update(db: Db, id: int, req: Request, fmt: Formats, fault: bool): (r: Result)
    ensures r.response.NotFound? <==> IndexOf(db.assets, id).None?
    ensures r.response.ValidationError? <==> IndexOf(db.assets, id).Some? && !Valid(db, req, fmt, Some(id as nat))
    ensures r.response.Updated? || r.response.ServerError? ==> IndexOf(db.assets, id).Some?
    ensures !r.response.Updated? ==> r.db.assets == db.assets
    ensures r.db.nextId == db.nextId
    ensures r.response.Updated? || r.response.ServerError? ==>
      var a := db.assets[IndexOf(db.assets, id).value];
      r.db.history == db.history ||
      (!StatusRowMissing(db, a, req) && r.db.history == db.history + UpdateRecords(db, a, req, OldStatusName(db, a)))
    ensures r.response.Updated? ==>
      var i := IndexOf(db.assets, id).value;
      && !StatusRowMissing(db, db.assets[i], req)
      && r.response.asset == Assign(db.assets[i], req, Fillable)
      && r.db.assets == db.assets[i := r.response.asset]
      && r.db.history == db.history + UpdateRecords(db, db.assets[i], req, OldStatusName(db, db.assets[i]))
  {
    match IndexOf(db.assets, id)
    case None => Result(NotFound, db)
    case Some(i) =>
      var a := db.assets[i];
      if !Valid(db, req, fmt, Some(a.id)) then Result(ValidationError, db)
      else if StatusRowMissing(db, a, req) then Result(ServerError, db)
      else
        var written := db.history + UpdateRecords(db, a, req, OldStatusName(db, a));
        if fault then Result(ServerError, db.(history := written))
        else
          var b := Assign(a, req, Fillable);
          Result(Updated(b), db.(assets := db.assets[i := b], history := written))
  }

  /** An update writes a 'status_change' row exactly when the status changes and a
      'user_change' row exactly when the holder changes, status first, and no other row:
      at most two, whatever else the request changes. */
  lemma UpdateHistory(db: Db, a: Asset, req: Request, oldStatus: string)
    ensures var rs := UpdateRecords(db, a, req, oldStatus);
      && |rs| == (if StatusChanges(a, req) then 1 else 0) + (if UserChanges(a, req) then 1 else 0)
      && (forall k | 0 <= k < |rs| :: rs[k].assetId == a.id && rs[k].actionType in {"status_change", "user_change"})
      && (StatusChanges(a, req) <==> exists k | 0 <= k < |rs| :: rs[k].actionType == "status_change")
      && (UserChanges(a, req) <==> exists k | 0 <= k < |rs| :: rs[k].actionType == "user_change")
      && (StatusChanges(a, req) ==> rs[0].actionType == "status_change" && rs[0].oldValue == oldStatus)
  {
    var rs := UpdateRecords(db, a, req, oldStatus);
    if UserChanges(a, req) {
      assert rs[|rs| - 1].actionType == "user_change";
    }
    if StatusChanges(a, req) {
      assert rs[0].actionType == "status_change";
    }
  }

  /** A failing final write leaves the history rows behind and the asset as it was. */
  lemma HistoryOutlivesFailedUpdate(db: Db, id: int, req: Request, fmt: Formats)
    requires IndexOf(db.assets, id).Some?
    requires var a := db.assets[IndexOf(db.assets, id).value];
      Valid(db, req, fmt, Some(a.id)) && (StatusChanges(a, req) ==> CurrentStatus(db, a).Some?)
    ensures var r := Update(db, id, req, fmt, true);
      var a := db.assets[IndexOf(db.assets, id).value];
      && r.response.ServerError? && r.db.assets == db.assets
      && (|r.db.history| > |db.history| <==> StatusChanges(a, req) || UserChanges(a, req))
  {
    var a := db.assets[IndexOf(db.assets, id).value];
    UpdateHistory(db, a, req, OldStatusName(db, a));
  }

  // ---------------------------------------------------------------- destroy

  /** DELETE /assets/{id}: the row goes; no history is written. */
  function Destroy(db: Db, id: int): (r: Result)
    ensures r.response.NotFound? <==> IndexOf(db.assets, id).None?
    ensures r.db.history == db.history
    ensures r.response.NotFound? ==> r.db == db
    ensures r.response.Deleted? ==>
      var i := IndexOf(db.assets, id).value;
      r.db.assets == db.assets[..i] + db.assets[i + 1..]
  {
    match IndexOf(db.assets, id)
    case None => Result(NotFound, db)
    case Some(i) => Result(Deleted, db.(assets := db.assets[..i] + db.assets[i + 1..]))
  }

  // ---------------------------------------------------------------- invariant

  /** Ids are distinct and below the counter; asset codes are distinct wherever the
      `unique` rule looked at them. */
  predicate Consistent(db: Db) {
    IdsBelow(db.assets, db.nextId) && DistinctColumn(db.assets, "asset_code")
  }

  lemma StoreKeepsConsistent(db: Db, req: Request, fmt: Formats)
    requires Consistent(db)
    ensures Consistent(Store(db, req, fmt).db)
  {
    if Store(db, req, fmt).response.Created? {
      var a := Asset(db.nextId, NewAttrs(req, Fillable));
      assert "asset_code" in Fillable;
      assert Attr(a, "asset_code") == Get(req, "asset_code").ToOption();
      AppendKeepsColumn(db.assets, a, "asset_code");
      AppendKeepsIds(db.assets, a, db.nextId);
    }
  }

  lemma UpdateKeepsConsistent(db: Db, id: int, req: Request, fmt: Formats, fault: bool)
    requires Consistent(db)
    ensures Consistent(Update(db, id, req, fmt, fault).db)
  {
    var r := Update(db, id, req, fmt, fault);
    if r.response.Updated? {
      ValidReplaceConsistent(db, IndexOf(db.assets, id).value, id, req, fmt);
    }
  }

  /** Replacing the asset with id `id` by its validated update keeps the table consistent. */
  lemma ValidReplaceConsistent(db: Db, i: nat, id: int, req: Request, fmt: Formats)
    requires Consistent(db) && i < |db.assets| && db.assets[i].id == id && id >= 0
    requires Valid(db, req, fmt, Some(id as nat))
    ensures Consistent(db.(assets := db.assets[i := Assign(db.assets[i], req, Fillable)]))
  {
    var b := Assign(db.assets[i], req, Fillable);
    assert "asset_code" in Fillable;
    assert Attr(b, "asset_code") == Get(req, "asset_code").ToOption();
    assert Unique(db.assets, "asset_code", Get(req, "asset_code"), Some(id as nat));
    ReplaceKeepsColumn(db.assets, i, b, "asset_code");
    ReplaceKeepsIds(db.assets, i, b, db.nextId);
  }

  lemma DestroyKeepsConsistent(db: Db, id: int)
    requires Consistent(db)
    ensures Consistent(Destroy(db, id).db)
  {
    if Destroy(db, id).response.Deleted? {
      RemoveKeepsRows(db.assets, IndexOf(db.assets, id).value, db.nextId, "asset_code");
    }
  }

  // ---------------------------------------------------------------- export

  /** The CSV header, and the asset column each position reads (the category and the
      status are printed by name). */
  const Header: seq<string> := [
    "Asset Code", "Category", "Serial Number", "Hostname", "PO Number",
    "Location", "Current User", "Office", "Status", "Remark", "IP Location",
    "User Before", "Date Deliver", "Ticket", "Installed By", "Replaced By",
    "Date Replacement", "Done By"]

  const Columns: seq<string> := [
    "asset_code", "asset_type_id", "serial_number", "hostname", "po_number",
    "location_region", "current_user", "office_now", "status_id", "remark", "ip_location",
    "user_before", "date_deliver_to_user", "ticket_number", "installed_by", "replaced_by",
    "date_replacement", "done_by"]

  /** A cell: null prints as an empty field. */
  function Cell(v: Option<string>): string {
    v.GetOr("")
  }

  /** The name of the entry a column points at, when it exists. */
  function NameOf(entries: seq<Entry>, v: Option<string>): Option<string> {
    if v.None? then None
    else match Lookup(entries, v.value)
      case None => None
      case Some(e) => Some(e.name)
  }

  /** The CSV line of one asset, or nothing when its category or status row is missing
      (reading the name of a missing row fails). */
  function Line(db: Db, a: Asset): (r: Option<seq<string>>)
    ensures r.Some? <==> NameOf(db.categories, Attr(a, "asset_type_id")).Some? && NameOf(db.statuses, Attr(a, "status_id")).Some?
    ensures r.Some? ==> |r.value| == 18 && r.value[0] == Cell(Attr(a, "asset_code"))
    ensures r.Some? ==> r.value[1] == NameOf(db.categories, Attr(a, "asset_type_id")).value
    ensures r.Some? ==> r.value[8] == NameOf(db.statuses, Attr(a, "status_id")).value
  {
    var category := NameOf(db.categories, Attr(a, "asset_type_id"));
    var status := NameOf(db.statuses, Attr(a, "status_id"));
    if category.None? || status.None? then None
    else
      assert |Columns| == 18 && Columns[0] == "asset_code";
      Some(seq(18, k requires 0 <= k < 18 =>
        if k == 1 then category.value else if k == 8 then status.value else Cell(Attr(a, Columns[k]))))
  }

  /** Every other cell of a line prints the column of the same position, null as empty. */
  lemma LineCells(db: Db, a: Asset, k: nat)
    requires Line(db, a).Some? && k < 18 && k != 1 && k != 8
    ensures Line(db, a).value[k] == Cell(Attr(a, Columns[k]))
  {
  }

  /** What a stream has written: the lines produced before the first failure, and
      whether it got to the end. */
  datatype Stream<T> = Stream(lines: seq<T>, complete: bool)

  /** Apply `f` to each element in order, stopping at the first element it fails on. */
  function UntilFailure<A, B>(s: seq<A>, f: A -> Option<B>): (e: Stream<B>)
    ensures |e.lines| <= |s|
    ensures forall k | 0 <= k < |e.lines| :: f(s[k]) == Some(e.lines[k])
    ensures e.complete <==> forall k | 0 <= k < |s| :: f(s[k]).Some?
    ensures e.complete ==> |e.lines| == |s|
    ensures !e.complete ==> f(s[|e.lines|]).None?
  {
    if s == [] then Stream([], true)
    else
      match f(s[0])
      case None => Stream([], false)
      case Some(l) =>
        var rest := UntilFailure(s[1..], f);
        assert forall k | 1 <= k < |s| :: s[1..][k - 1] == s[k];
        Stream([l] + rest.lines, rest.complete)
  }

  /** GET /assets/export: the header, then one line per asset in table order, up to
      the first asset whose category or status row is missing. */
  function ExportCsv(db: Db): (e: Stream<seq<string>>)
    ensures 1 <= |e.lines| <= |db.assets| + 1 && e.lines[0] == Header
    ensures e.complete <==> forall k | 0 <= k < |db.assets| :: Line(db, db.assets[k]).Some?
    ensures e.complete ==> |e.lines| == |db.assets| + 1
    ensures forall k | 1 <= k < |e.lines| :: Line(db, db.assets[k - 1]) == Some(e.lines[k])
  {
    WithHeader(Header, db.assets, a => Line(db, a))
  }

  /** A header line, then `UntilFailure`. */
  function WithHeader<A, B>(h: B, s: seq<A>, f: A -> Option<B>): (e: Stream<B>)
    ensures 1 <= |e.lines| <= |s| + 1 && e.lines[0] == h
    ensures e.complete <==> forall k | 0 <= k < |s| :: f(s[k]).Some?
    ensures e.complete ==> |e.lines| == |s| + 1
    ensures forall k | 1 <= k < |e.lines| :: f(s[k - 1]) == Some(e.lines[k])
  {
    var body := UntilFailure(s, f);
    var lines := [h] + body.lines;
    assert forall k | 1 <= k < |lines| :: lines[k] == body.lines[k - 1];
    Stream(lines, body.complete)
  }

  /** Every line the export writes, header included, has the header's 18 columns, and
      each asset line starts with the asset's code. */
  lemma ExportShape(db: Db)
    ensures var e := ExportCsv(db);
      && |Header| == 18
      && (forall k | 0 <= k < |e.lines| :: |e.lines[k]| == 18)
      && (forall k | 1 <= k < |e.lines| :: e.lines[k][0] == Cell(Attr(db.assets[k - 1], "asset_code")))
  {
    var e := ExportCsv(db);
    forall k | 1 <= k < |e.lines|
      ensures |e.lines[k]| == 18 && e.lines[k][0] == Cell(Attr(db.assets[k - 1], "asset_code"))
    {
      assert Line(db, db.assets[k - 1]) == Some(e.lines[k]);
      LineShape(db, db.assets[k - 1]);
    }
  }

  lemma LineShape(db: Db, a: Asset)
    requires Line(db, a).Some?
    ensures |Line(db, a).value| == 18 && Line(db, a).value[0] == Cell(Attr(a, "asset_code"))
  {
  }
}

=== FILE: maintenance.dfy ===
/** Maintenance schedules of the backend API: creation, validated updates that stamp the
    completion date, the overdue sweep, automatic preventive scheduling, the dashboard
    counters, and the schedule model's own predicates and badge colours. Times are Unix
    seconds; calendar steps (six months) are given as instants. */
module Maintenance {
  import opened Common
  import opened Access
  import opened Notifications
  import opened Grouping

  const Types: set<string> := {"preventive", "corrective", "emergency", "upgrade"}
  const UpdateStatuses: set<string> := {"scheduled", "in_progress", "completed", "cancelled"}
  const Day: int := 86400

  /** A schedule row. The scheduled date is always a date (every path that writes it
      requires one); the completion and next dates are kept as sent. */
  datatype Schedule = Schedule(
    id: nat, assetId: int, kind: string, scheduledDate: int, completedDate: Option<DateText>,
    technicianId: Option<int>, description: string, status: string, notes: Option<string>,
    nextDate: Option<DateText>)

  /** The asset fields the controller reads. */
  datatype AssetRow = AssetRow(id: int, code: string, statusId: int)

  /** The schedules, the assets and user ids the `exists` rules look up, and the id counter. */
  datatype Plant = Plant(schedules: seq<Schedule>, assets: seq<AssetRow>, userIds: set<int>, nextId: nat)

  datatype StoreRequest = StoreRequest(
    assetId: Input<int>, kind: Input<string>, scheduledDate: Input<DateText>, technicianId: Input<int>,
    description: Input<string>, notes: Input<string>)

  /** The fields `update` mass-assigns: the validated ones and the unvalidated asset id. */
  datatype UpdateRequest = UpdateRequest(
    assetId: Input<int>, kind: Input<string>, scheduledDate: Input<DateText>, completedDate: Input<DateText>,
    technicianId: Input<int>, description: Input<string>, status: Input<string>, notes: Input<string>,
    nextDate: Input<DateText>)

  datatype Response =
    | Created(schedule: Schedule)
    | Shown(schedule: Schedule)
    | Updated(schedule: Schedule)
    | Deleted
    | NotFound
    | Invalid
  {
    function Code(): int {
      match this
      case Created(_) => 201
      case NotFound => 404
      case Invalid => 422
      case _ => 200
    }
  }

  /** A response, the tables after it, and the notifications it sent. */
  datatype Result = Result(response: Response, plant: Plant, sent: seq<Notification>)

  function IndexOf(p: Plant, id: int): (r: Option<nat>)
    ensures r.Some? ==> r.value < |p.schedules| && p.schedules[r.value].id == id
    ensures r.None? <==> forall j | 0 <= j < |p.schedules| :: p.schedules[j].id != id
  {
    FindFirst(p.schedules, (s: Schedule) => s.id == id)
  }

  /** The asset with id `id`. */
  function AssetOf(p: Plant, id: int): (r: Option<AssetRow>)
    ensures r.Some? ==> r.value in p.assets && r.value.id == id
    ensures r.None? <==> forall k | 0 <= k < |p.assets| :: p.assets[k].id != id
  {
    match FindFirst(p.assets, (a: AssetRow) => a.id == id)
    case None => None
    case Some(k) => Some(p.assets[k])
  }

  /** `if ($x->technician_id)`: set and not 0. */
  predicate Assigned(t: Option<int>) {
    t.Some? && t.value != 0
  }

  // ---------------------------------------------------------------- store

  /** The validator of `store`; `today` is midnight of the current day, the reference
      point of `after:today`. */
  predicate StoreValid(p: Plant, req: StoreRequest, today: int) {
    && req.assetId.Given? && AssetOf(p, req.assetId.value).Some?
    && req.kind.Given? && req.kind.value in Types
    && req.scheduledDate.Given? && req.scheduledDate.value.Instant? && req.scheduledDate.value.at > today
    && (req.technicianId.Given? ==> req.technicianId.value in p.userIds)
    && Filled(req.description)
  }

  /** The notice a technician gets for a new schedule. */
  function ScheduledNotice(s: Schedule, code: string, dateText: string): Draft {
    var id := Digits(s.id);
    Draft("Maintenance Scheduled", "You have been assigned to maintain asset " + code + " on " + dateText,
      "maintenance", [("schedule_id", Int(s.id))], Some("/maintenance/" + id))
  }

  /** POST /maintenance: a new schedule always starts 'scheduled'; an assigned technician
      is notified. */
  function Store(p: Plant, req: StoreRequest, today: int): (r: Result)
    ensures r.response.Created? <==> StoreValid(p, req, today)
    ensures !r.response.Created? ==> r == Result(Invalid, p, [])
    ensures r.response.Created? ==>
      var s := r.response.schedule;
      && s.id == p.nextId && s.status == "scheduled" && s.kind in Types && s.scheduledDate > today
      && s.completedDate.None? && s.nextDate.None?
      && s.assetId == req.assetId.value && s.kind == req.kind.value
      && s.scheduledDate == req.scheduledDate.value.at
      && s.technicianId == req.technicianId.ToOption() && s.description == req.description.value
      && s.notes == req.notes.ToOption()
      && r.plant == p.(schedules := p.schedules + [s], nextId := p.nextId + 1)
      && |r.sent| == (if Assigned(req.technicianId.ToOption()) then 1 else 0)
      && (forall i | 0 <= i < |r.sent| :: r.sent[i].userId == req.technicianId.value && !r.sent[i].isRead)
      && (|r.sent| == 1 ==>
            exists a | a in p.assets && a.id == s.assetId ::
              r.sent[0] == Create(req.technicianId.value, ScheduledNotice(s, a.code, req.scheduledDate.value.text)))
  {
    if !StoreValid(p, req, today) then Result(Invalid, p, [])
    else
      var s := Schedule(p.nextId, req.assetId.value, req.kind.value, req.scheduledDate.value.at, None,
        req.technicianId.ToOption(), req.description.value, "scheduled", req.notes.ToOption(), None);
      var code := AssetOf(p, req.assetId.value).value.code;
      var sent := if Assigned(s.technicianId) then [Create(s.technicianId.value, ScheduledNotice(s, code, req.scheduledDate.value.text))] else [];
      Result(Created(s), p.(schedules := p.schedules + [s], nextId := p.nextId + 1), sent)
  }

  /** Every stored schedule has an id below the counter, as the table's auto-increment
      guarantees. */
  predicate IdsBelowCounter(p: Plant) {
    forall j | 0 <= j < |p.schedules| :: p.schedules[j].id < p.nextId
  }

  /** A created schedule is shown back as created, and the counter stays ahead of every
      id. */
  lemma StoreThenShow(p: Plant, req: StoreRequest, today: int)
    requires IdsBelowCounter(p)
    ensures var r := Store(p, req, today);
      && IdsBelowCounter(r.plant)
      && (r.response.Created? ==> Show(r.plant, r.response.schedule.id) == Shown(r.response.schedule))
  {
    var r := Store(p, req, today);
    if r.response.Created? {
      var s := r.response.schedule;
      var ss := r.plant.schedules;
      assert ss == p.schedules + [s];
      assert ss[|p.schedules|] == s;
      forall j | 0 <= j < |p.schedules|
        ensures ss[j].id != s.id
      {
        assert ss[j] == p.schedules[j];
      }
    }
  }

  /** GET /maintenance/{id}. */
  function Show(p: Plant, id: int): (r: Response)
    ensures r.NotFound? <==> IndexOf(p, id).None?
    ensures r.Shown? ==> r.schedule in p.schedules && r.schedule.id == id
  {
    match IndexOf(p, id)
    case None => NotFound
    case Some(i) => Shown(p.schedules[i])
  }

  // ---------------------------------------------------------------- update

  /** `sometimes|required|…` on a string. */
  predicate Sometimes(f: Input<string>, ok: string -> bool) {
    f.Absent? || (Filled(f) && ok(f.value))
  }

  predicate UpdateValid(p: Plant, req: UpdateRequest) {
    && Sometimes(req.kind, k => k in Types)
    && (req.scheduledDate.Absent? || (req.scheduledDate.Given? && req.scheduledDate.value.Instant?))
    && NullableDate(req.completedDate)
    && (req.technicianId.Given? ==> req.technicianId.value in p.userIds)
    && Sometimes(req.description, _ => true)
    && Sometimes(req.status, st => st in UpdateStatuses)
    && NullableDate(req.nextDate)
  }

  predicate Completes(s: Schedule, req: UpdateRequest) {
    req.status == Given("completed") && s.status != "completed"
  }

  /** The schedule after mass-assigning a validated request at `now` (`nowText` is how
      the framework writes that instant). A completion overrides any completion date the
      request sent. */
  function Apply(s: Schedule, req: UpdateRequest, now: int, nowText: string): Schedule {
    s.(assetId := req.assetId.Coalesce(s.assetId),
       kind := req.kind.Coalesce(s.kind),
       scheduledDate := if req.scheduledDate.Given? && req.scheduledDate.value.Instant? then req.scheduledDate.value.at else s.scheduledDate,
       completedDate := if Completes(s, req) then Some(Instant(nowText, now)) else req.completedDate.Merge(s.completedDate),
       technicianId := req.technicianId.Merge(s.technicianId),
       description := req.description.Coalesce(s.description),
       status := req.status.Coalesce(s.status),
       notes := req.notes.Merge(s.notes),
       nextDate := req.nextDate.Merge(s.nextDate))
  }

  /** PUT /maintenance/{id}. */
  function Update(p: Plant, id: int, req: UpdateRequest, now: int, nowText: string): (r: Result)
    ensures r.sent == []
    ensures r.response.NotFound? <==> IndexOf(p, id).None?
    ensures r.response.Invalid? <==> IndexOf(p, id).Some? && !UpdateValid(p, req)
    ensures !r.response.Updated? ==> r.plant == p
    ensures r.response.Updated? ==>
      var i := IndexOf(p, id).value;
      && r.response.schedule == Apply(p.schedules[i], req, now, nowText)
      && r.plant == p.(schedules := p.schedules[i := r.response.schedule])
  {
    match IndexOf(p, id)
    case None => Result(NotFound, p, [])
    case Some(i) =>
      if !UpdateValid(p, req) then Result(Invalid, p, [])
      else
        var s := Apply(p.schedules[i], req, now, nowText);
        Result(Updated(s), p.(schedules := p.schedules[i := s]), [])
  }

  /** Moving a schedule into 'completed' stamps it with the request time; a schedule
      already completed keeps its date unless the request sends one. */
  lemma CompletionStamped(s: Schedule, req: UpdateRequest, now: int, nowText: string)
    requires req.status == Given("completed")
    ensures var t := Apply(s, req, now, nowText);
      && t.status == "completed"
      && (s.status != "completed" ==> t.completedDate == Some(Instant(nowText, now)))
      && (s.status == "completed" && req.completedDate.Absent? ==> t.completedDate == s.completedDate)
  {
  }

  /** An update that does not complete the schedule takes the completion date from the
      request alone. */
  lemma NoStampWithoutCompletion(s: Schedule, req: UpdateRequest, now: int, nowText: string)
    requires req.status != Given("completed")
    ensures Apply(s, req, now, nowText).completedDate == req.completedDate.Merge(s.completedDate)
  {
  }

  /** DELETE /maintenance/{id}. */
  function Destroy(p: Plant, id: int): (r: Result)
    ensures r.sent == []
    ensures r.response.NotFound? <==> IndexOf(p, id).None?
    ensures r.response.NotFound? ==> r.plant == p
    ensures r.response.Deleted? ==>
      var i := IndexOf(p, id).value;
      r.plant == p.(schedules := p.schedules[..i] + p.schedules[i + 1..])
  {
    match IndexOf(p, id)
    case None => Result(NotFound, p, [])
    case Some(i) => Result(Deleted, p.(schedules := p.schedules[..i] + p.schedules[i + 1..]), [])
  }

  // ---------------------------------------------------------------- model predicates

  /** `MaintenanceSchedule::isOverdue`, and the same test as the dashboard's overdue filter
      and the sweep's query: scheduled before now and not completed. */
  predicate IsOverdue(s: Schedule, now: int) {
    s.scheduledDate < now && s.status != "completed"
  }

  /** Carbon's `diffInDays`: whole days between the two instants, either way round. */
  function DiffInDays(a: int, b: int): nat {
    (if a <= b then b - a else a - b) / Day
  }

  /** `MaintenanceSchedule::isDueSoon`: within a week of now, before or after. */
  predicate IsDueSoon(s: Schedule, now: int) {
    DiffInDays(s.scheduledDate, now) <= 7 && s.status == "scheduled"
  }

  /** A completed schedule is never overdue. */
  lemma CompletedNeverOverdue(s: Schedule, now: int)
    requires s.status == "completed"
    ensures !IsOverdue(s, now)
  {
  }

  function StatusColor(status: string): (c: string)
    ensures status !in UpdateStatuses + {"overdue"} ==> c == "bg-gray-100 text-gray-800"
  {
    match status
    case "scheduled" => "bg-blue-100 text-blue-800"
    case "in_progress" => "bg-yellow-100 text-yellow-800"
    case "completed" => "bg-green-100 text-green-800"
    case "cancelled" => "bg-red-100 text-red-800"
    case "overdue" => "bg-red-100 text-red-800"
    case _ => "bg-gray-100 text-gray-800"
  }

  function KindColor(kind: string): (c: string)
    ensures kind !in Types ==> c == "bg-gray-100 text-gray-800"
  {
    match kind
    case "preventive" => "bg-green-100 text-green-800"
    case "corrective" => "bg-red-100 text-red-800"
    case "emergency" => "bg-orange-100 text-orange-800"
    case "upgrade" => "bg-purple-100 text-purple-800"
    case _ => "bg-gray-100 text-gray-800"
  }

  /** Every known status and type has a tinted badge; an overdue schedule looks cancelled. */
  lemma ColorsOfKnownValues(status: string, kind: string)
    requires status in UpdateStatuses && kind in Types
    ensures StatusColor(status) != "bg-gray-100 text-gray-800" && KindColor(kind) != "bg-gray-100 text-gray-800"
    ensures StatusColor("overdue") == StatusColor("cancelled")
  {
  }

  // ---------------------------------------------------------------- dashboard

  /** The dashboard's due-soon filter: in the coming seven days, still 'scheduled'. */
  predicate DashboardDueSoon(s: Schedule, now: int) {
    now <= s.scheduledDate <= now + 7 * Day && s.status == "scheduled"
  }

  datatype Stats = Stats(total: nat, scheduled: nat, inProgress: nat, completed: nat, overdue: nat, dueSoon: nat)

  function Dashboard(schedules: seq<Schedule>, now: int): (st: Stats)
    ensures st.total == |schedules|
  {
    Stats(|schedules|,
      Count(schedules, (s: Schedule) => s.status == "scheduled"),
      Count(schedules, (s: Schedule) => s.status == "in_progress"),
      Count(schedules, (s: Schedule) => s.status == "completed"),
      Count(schedules, (s: Schedule) => IsOverdue(s, now)),
      Count(schedules, (s: Schedule) => DashboardDueSoon(s, now)))
  }

  /** The upcoming list of the dashboard: dated from now on and still 'scheduled'. */
  predicate Upcoming(s: Schedule, now: int) {
    s.scheduledDate >= now && s.status == "scheduled"
  }

  function UpcomingAt(now: int): Schedule -> bool {
    (s: Schedule) => Upcoming(s, now)
  }

  function OverdueAt(now: int): Schedule -> bool {
    (s: Schedule) => IsOverdue(s, now)
  }

  /** At most ten: the number of schedules kept, or ten when more are kept. */
  function UpToTen(n: nat): nat {
    if n < 10 then n else 10
  }

  /** The whole dashboard payload: the counters, counts per type and per status in order
      of first appearance, and the first ten upcoming and overdue schedules. */
  datatype Board = Board(stats: Stats, typeStats: seq<Group>, statusStats: seq<Group>,
    upcoming: seq<Schedule>, overdue: seq<Schedule>)

  /** The grouping keys of the dashboard's statistics. */
  function KindOf(s: Schedule): string { s.kind }
  function StatusOf(s: Schedule): string { s.status }

  /** The first ten schedules satisfying `keep`, in table order. */
  function FirstTen(schedules: seq<Schedule>, keep: Schedule -> bool): (r: seq<Schedule>)
    ensures |r| == UpToTen(Count(schedules, keep))
    ensures r <= Filter(schedules, keep)
    ensures forall i | 0 <= i < |r| :: r[i] in schedules && keep(r[i])
  {
    var all := Filter(schedules, keep);
    var r := Take(all, 10);
    assert forall i | 0 <= i < |r| :: r[i] == all[i];
    r
  }

  /** GET /maintenance/dashboard. */
  function DashboardBoard(schedules: seq<Schedule>, now: int): (b: Board)
    ensures b.stats == Dashboard(schedules, now)
    ensures b.typeStats == GroupsOf(schedules, KindOf) && b.statusStats == GroupsOf(schedules, StatusOf)
    ensures Total(b.typeStats) == |schedules| && Total(b.statusStats) == |schedules|
    ensures |b.upcoming| == UpToTen(Count(schedules, UpcomingAt(now))) && b.upcoming <= Filter(schedules, UpcomingAt(now))
    ensures |b.overdue| == UpToTen(Count(schedules, OverdueAt(now))) && b.overdue <= Filter(schedules, OverdueAt(now))
    ensures forall i | 0 <= i < |b.upcoming| :: b.upcoming[i] in schedules && Upcoming(b.upcoming[i], now)
    ensures forall i | 0 <= i < |b.overdue| :: b.overdue[i] in schedules && IsOverdue(b.overdue[i], now)
  {
    GroupsOfSpec(schedules, KindOf);
    GroupsOfSpec(schedules, StatusOf);
    Board(Dashboard(schedules, now), GroupsOf(schedules, KindOf), GroupsOf(schedules, StatusOf),
      FirstTen(schedules, UpcomingAt(now)),
      FirstTen(schedules, OverdueAt(now)))
  }

  /** A schedule due soon on the dashboard is due soon for the model's `isDueSoon` too,
      but not the other way round (the model also counts the week just past); and it is
      never also overdue. */
  lemma OverduePredicatesAgree(s: Schedule, now: int)
    ensures DashboardDueSoon(s, now) ==> IsDueSoon(s, now)
    ensures !(IsOverdue(s, now) && DashboardDueSoon(s, now))
  {
  }

  lemma DueSoonLooksBack(now: int)
    ensures var s := Schedule(0, 0, "preventive", now - Day, None, None, "", "scheduled", None, None);
      IsDueSoon(s, now) && !DashboardDueSoon(s, now)
  {
  }

  /** Overdue and due-soon schedules are disjoint, so together they never exceed the total. */
  lemma DashboardBounds(schedules: seq<Schedule>, now: int)
    ensures var st := Dashboard(schedules, now);
      st.overdue + st.dueSoon <= st.total && st.completed + st.overdue <= st.total
  {
    var late := (s: Schedule) => IsOverdue(s, now);
    var soon := (s: Schedule) => DashboardDueSoon(s, now);
    var done := (s: Schedule) => s.status == "completed";
    var lateOrSoon := (s: Schedule) => late(s) || soon(s);
    var lateOrDone := (s: Schedule) => late(s) || done(s);
    var all := (s: Schedule) => true;
    CountDisjoint(schedules, late, soon, lateOrSoon);
    CountDisjoint(schedules, late, done, lateOrDone);
    CountMonotone(schedules, lateOrSoon, all);
    CountMonotone(schedules, lateOrDone, all);
    CountAll(schedules, all);
  }

  // ---------------------------------------------------------------- overdue sweep

  /** Each schedule after the sweep: marked 'overdue' when selected. */
  function Sweep(schedules: seq<Schedule>, now: int): (r: seq<Schedule>)
    ensures |r| == |schedules|
    ensures forall i | 0 <= i < |r| ::
      r[i] == if IsOverdue(schedules[i], now) then schedules[i].(status := "overdue") else schedules[i]
  {
    seq(|schedules|, i requires 0 <= i < |schedules| =>
      if IsOverdue(schedules[i], now) then schedules[i].(status := "overdue") else schedules[i])
  }

  /** A schedule the sweep selects and whose technician it notifies. */
  predicate Notified(s: Schedule, now: int) {
    IsOverdue(s, now) && Assigned(s.technicianId)
  }

  /** The notice sent to the technician of an overdue schedule. */
  function OverdueNotice(p: Plant, s: Schedule): Notification
    requires Assigned(s.technicianId)
  {
    var code := match AssetOf(p, s.assetId) case Some(a) => a.code case None => "";
    Create(s.technicianId.value, Draft("Maintenance Overdue", "Maintenance for asset " + code + " is overdue",
      "maintenance", [("schedule_id", Int(s.id))], Some("/maintenance/" + Digits(s.id))))
  }

  /** The notices of the sweep: one per selected schedule with a technician, in order. */
  function OverdueNotices(p: Plant, schedules: seq<Schedule>, now: int): seq<Notification>
    decreases |schedules|
  {
    if schedules == [] then []
    else
      (if Notified(schedules[0], now) then [OverdueNotice(p, schedules[0])] else [])
        + OverdueNotices(p, schedules[1..], now)
  }

  lemma {:induction false} OverdueNoticesCount(p: Plant, schedules: seq<Schedule>, now: int)
    ensures |OverdueNotices(p, schedules, now)| == Count(schedules, (s: Schedule) => Notified(s, now))
    decreases |schedules|
  {
    if schedules != [] {
      OverdueNoticesCount(p, schedules[1..], now);
    }
  }

  /** Every notice is an unread maintenance notice addressed to the technician of a
      selected schedule. */
  predicate FromSelected(ns: seq<Notification>, schedules: seq<Schedule>, now: int) {
    forall k | 0 <= k < |ns| :: ns[k].kind == "maintenance" && !ns[k].isRead &&
      exists i | 0 <= i < |schedules| :: Notified(schedules[i], now) && ns[k].userId == schedules[i].technicianId.value
  }

  lemma {:induction false} OverdueNoticesRecipients(p: Plant, schedules: seq<Schedule>, now: int)
    ensures FromSelected(OverdueNotices(p, schedules, now), schedules, now)
    decreases |schedules|
  {
    if schedules != [] {
      OverdueNoticesRecipients(p, schedules[1..], now);
      var ns := OverdueNotices(p, schedules, now);
      var tail := OverdueNotices(p, schedules[1..], now);
      var head := if Notified(schedules[0], now) then [OverdueNotice(p, schedules[0])] else [];
      assert ns == head + tail;
      forall k | 0 <= k < |ns|
        ensures ns[k].kind == "maintenance" && !ns[k].isRead
        ensures exists i | 0 <= i < |schedules| :: Notified(schedules[i], now) && ns[k].userId == schedules[i].technicianId.value
      {
        if k < |head| {
          assert ns[k] == OverdueNotice(p, schedules[0]);
          assert Notified(schedules[0], now);
        } else {
          var m := k - |head|;
          assert ns[k] == tail[m];
          var j :| 0 <= j < |schedules[1..]| && Notified(schedules[1..][j], now) && tail[m].userId == schedules[1..][j].technicianId.value;
          assert schedules[1..][j] == schedules[j + 1];
        }
      }
    }
  }

  /** The sweep notifies only technicians of selected schedules, once per selected schedule
      that has one: every notice is an unread maintenance notice addressed to such a
      technician, and there are as many as such schedules. */
  lemma OverdueNoticesSpec(p: Plant, schedules: seq<Schedule>, now: int)
    ensures |OverdueNotices(p, schedules, now)| == Count(schedules, (s: Schedule) => Notified(s, now))
    ensures FromSelected(OverdueNotices(p, schedules, now), schedules, now)
  {
    OverdueNoticesCount(p, schedules, now);
    OverdueNoticesRecipients(p, schedules, now);
  }

  datatype SweepResult = SweepResult(count: nat, plant: Plant, sent: seq<Notification>)

  /** `checkOverdue`: mark every schedule dated before now and not completed as 'overdue'
      (cancelled ones too), notify their technicians, and report how many there were. */
  function CheckOverdue(p: Plant, now: int): (r: SweepResult)
    ensures r.count == Count(p.schedules, (s: Schedule) => IsOverdue(s, now))
    ensures r.plant == p.(schedules := Sweep(p.schedules, now))
  {
    SweepResult(Count(p.schedules, (s: Schedule) => IsOverdue(s, now)), p.(schedules := Sweep(p.schedules, now)),
      OverdueNotices(p, p.schedules, now))
  }

  /** After the sweep, a schedule is overdue exactly when it is marked so or was already;
      a second sweep at the same instant selects the same schedules, changes no schedule,
      and sends the same notices again. */
  lemma CheckOverdueIdempotent(p: Plant, now: int)
    ensures var once := CheckOverdue(p, now);
      var twice := CheckOverdue(once.plant, now);
      && twice.plant == once.plant
      && twice.count == once.count
      && twice.sent == once.sent
      && forall i | 0 <= i < |p.schedules| ::
           (IsOverdue(p.schedules[i], now) <==> once.plant.schedules[i].status == "overdue" && p.schedules[i].scheduledDate < now)
  {
    var s0 := p.schedules;
    var s1 := Sweep(s0, now);
    assert forall i | 0 <= i < |s1| :: IsOverdue(s1[i], now) <==> IsOverdue(s0[i], now);
    assert Sweep(s1, now) == s1;
    FilterCongruentIndexed(s0, s1, now);
    SweepResends(p, p.(schedules := s1), s0, now);
  }

  /** The swept schedules select the same notices as before the sweep: marking a schedule
      'overdue' keeps it selected and changes nothing a notice reads. */
  lemma {:induction false} SweepResends(p: Plant, q: Plant, schedules: seq<Schedule>, now: int)
    requires q.assets == p.assets
    ensures OverdueNotices(q, Sweep(schedules, now), now) == OverdueNotices(p, schedules, now)
    decreases |schedules|
  {
    if schedules != [] {
      var swept := Sweep(schedules, now);
      assert swept[1..] == Sweep(schedules[1..], now);
      SweepResends(p, q, schedules[1..], now);
      assert Notified(swept[0], now) <==> Notified(schedules[0], now);
      if Notified(schedules[0], now) {
        assert AssetOf(q, swept[0].assetId) == AssetOf(p, schedules[0].assetId);
        assert OverdueNotice(q, swept[0]) == OverdueNotice(p, schedules[0]);
      }
    }
  }

  /** Two schedule lists that agree, position by position, on being overdue have the
      same overdue count. */
  lemma {:induction false} FilterCongruentIndexed(a: seq<Schedule>, b: seq<Schedule>, now: int)
    requires |a| == |b| && forall i | 0 <= i < |a| :: IsOverdue(a[i], now) <==> IsOverdue(b[i], now)
    ensures Count(a, (s: Schedule) => IsOverdue(s, now)) == Count(b, (s: Schedule) => IsOverdue(s, now))
  {
    if a != [] {
      assert forall i | 0 <= i < |a| - 1 :: a[1..][i] == a[i + 1] && b[1..][i] == b[i + 1];
      FilterCongruentIndexed(a[1..], b[1..], now);
    }
  }

  // ---------------------------------------------------------------- auto scheduling

  /** An active asset (`status_id` 1) with no schedule dated on or after `since`. */
  predicate NeedsSchedule(p: Plant, a: AssetRow, since: int) {
    a.statusId == 1 && forall j | 0 <= j < |p.schedules| :: p.schedules[j].assetId == a.id ==> p.schedules[j].scheduledDate < since
  }

  /** The preventive schedules created for `assets`, numbered from `nextId`. */
  function NewSchedules(p: Plant, assets: seq<AssetRow>, since: int, at: int, nextId: nat): (r: seq<Schedule>)
    ensures forall i | 0 <= i < |r| ::
      && r[i].kind == "preventive" && r[i].status == "scheduled" && r[i].scheduledDate == at
      && r[i].description == "Regular preventive maintenance" && r[i].technicianId.None?
      && r[i].id == nextId + i
    decreases |assets|
  {
    if assets == [] then []
    else
      var a := assets[0];
      if NeedsSchedule(p, a, since) then
        [Schedule(nextId, a.id, "preventive", at, None, None, "Regular preventive maintenance", "scheduled", None, None)]
          + NewSchedules(p, assets[1..], since, at, nextId + 1)
      else NewSchedules(p, assets[1..], since, at, nextId)
  }

  /** The asset filter of `autoSchedule`. */
  function Eligible(p: Plant, since: int): AssetRow -> bool {
    a => NeedsSchedule(p, a, since)
  }

  /** The assets that get a schedule. */
  function Selected(p: Plant, since: int): seq<AssetRow> {
    Filter(p.assets, Eligible(p, since))
  }

  /** The created schedules are for the eligible assets, one each, in table order. */
  predicate SchedulesFor(r: seq<Schedule>, sel: seq<AssetRow>) {
    |r| == |sel| && forall i | 0 <= i < |r| :: r[i].assetId == sel[i].id
  }

  lemma {:induction false} NewSchedulesMatch(p: Plant, assets: seq<AssetRow>, since: int, at: int, nextId: nat)
    ensures SchedulesFor(NewSchedules(p, assets, since, at, nextId), Filter(assets, Eligible(p, since)))
    decreases |assets|
  {
    if assets != [] {
      var a := assets[0];
      var next := if NeedsSchedule(p, a, since) then nextId + 1 else nextId;
      var r := NewSchedules(p, assets, since, at, nextId);
      var rest := NewSchedules(p, assets[1..], since, at, next);
      var sel := Filter(assets, Eligible(p, since));
      var selRest := Filter(assets[1..], Eligible(p, since));
      NewSchedulesMatch(p, assets[1..], since, at, next);
      if NeedsSchedule(p, a, since) {
        assert sel == [a] + selRest;
        assert r == [Schedule(nextId, a.id, "preventive", at, None, None, "Regular preventive maintenance", "scheduled", None, None)] + rest;
        forall i | 0 <= i < |r|
          ensures r[i].assetId == sel[i].id
        {
          if i > 0 {
            assert r[i] == rest[i - 1] && sel[i] == selRest[i - 1];
          }
        }
      } else {
        assert sel == selRest && r == rest;
      }
    }
  }

  datatype AutoResult = AutoResult(scheduledCount: nat, plant: Plant)

  /** `autoSchedule`: `since` is six months ago and `at` six months ahead. The assets are
      chosen before any schedule is created. */
  function AutoSchedule(p: Plant, since: int, at: int): (r: AutoResult)
    ensures r.scheduledCount == |Selected(p, since)|
    ensures |r.plant.schedules| == |p.schedules| + r.scheduledCount
    ensures r.plant.schedules[..|p.schedules|] == p.schedules
    ensures r.plant.nextId == p.nextId + r.scheduledCount
    ensures forall i | |p.schedules| <= i < |r.plant.schedules| ::
      && r.plant.schedules[i].kind == "preventive" && r.plant.schedules[i].status == "scheduled"
      && r.plant.schedules[i].scheduledDate == at
      && r.plant.schedules[i].assetId == Selected(p, since)[i - |p.schedules|].id
  {
    var created := NewSchedules(p, p.assets, since, at, p.nextId);
    NewSchedulesMatch(p, p.assets, since, at, p.nextId);
    var all := p.schedules + created;
    assert all[..|p.schedules|] == p.schedules;
    AutoResult(|created|, p.(schedules := all, nextId := p.nextId + |created|))
  }

  /** Run again at the same moment, auto-scheduling creates nothing: every asset it picked
      now has a schedule six months ahead, which is not before six months ago. */
  lemma AutoScheduleSettles(p: Plant, since: int, at: int)
    requires since <= at
    ensures AutoSchedule(AutoSchedule(p, since, at).plant, since, at).scheduledCount == 0
  {
    var q := AutoSchedule(p, since, at).plant;
    var sel := Selected(p, since);
    forall k | 0 <= k < |q.assets|
      ensures !Eligible(q, since)(q.assets[k])
    {
      var a := q.assets[k];
      if NeedsSchedule(p, a, since) {
        // the new schedule for `a` is dated `at`, not before `since`
        assert a in sel;
        var m :| 0 <= m < |sel| && sel[m] == a;
        var j := |p.schedules| + m;
        assert q.schedules[j].assetId == a.id && q.schedules[j].scheduledDate == at;
      } else if a.statusId == 1 {
        // an older schedule for `a` already dated on or after `since` is still there
        var j :| 0 <= j < |p.schedules| && p.schedules[j].assetId == a.id && p.schedules[j].scheduledDate >= since;
        assert q.schedules[j] == p.schedules[j];
      }
    }
    CountNone(q.assets, Eligible(q, since));
  }
}

=== FILE: notifications.dfy ===
/** In-app notifications of the backend API: who receives which notification when an
    asset, ticket or maintenance event happens, and the read flag. */
module Notifications {
  import opened Common
  import opened Access

  /** A value of the JSON `data` payload. */
  datatype Value = Int(i: int) | Text(s: string)

  /** What a notification says, before it is addressed to anyone. */
  datatype Draft = Draft(title: string, message: string, kind: string, data: seq<(string, Value)>, actionUrl: Option<string>)

  /** A notification row. */
  datatype Notification = Notification(
    userId: int, title: string, message: string, kind: string, data: seq<(string, Value)>,
    actionUrl: Option<string>, isRead: bool, readAt: Option<int>)

  /** `NotificationService::create`: the draft, addressed to `userId`, unread. */
  function Create(userId: int, d: Draft): (n: Notification)
    ensures n.userId == userId && !n.isRead && n.readAt.None?
    ensures n.title == d.title && n.message == d.message && n.kind == d.kind
    ensures n.data == d.data && n.actionUrl == d.actionUrl
  {
    Notification(userId, d.title, d.message, d.kind, d.data, d.actionUrl, false, None)
  }

  /** One copy of the draft for every user satisfying `p`, in table order. */
  function Fanout(users: seq<User>, p: User -> bool, d: Draft): seq<Notification>
    decreases |users|
  {
    if users == [] then []
    else (if p(users[0]) then [Create(users[0].id, d)] else []) + Fanout(users[1..], p, d)
  }

  /** `User::where('role', $role)->where('is_active', true)`. */
  function ActiveWithRole(role: string): User -> bool {
    (u: User) => u.active && u.role == Some(role)
  }

  function IsActive(u: User): bool {
    u.active
  }

  function CreateForRole(users: seq<User>, role: string, d: Draft): seq<Notification> {
    Fanout(users, ActiveWithRole(role), d)
  }

  function CreateForAll(users: seq<User>, d: Draft): seq<Notification> {
    Fanout(users, IsActive, d)
  }

  /** How many of the notifications go to user `id`. */
  function Received(ns: seq<Notification>, id: int): nat {
    Count(ns, (n: Notification) => n.userId == id)
  }

  predicate DistinctIds(users: seq<User>) {
    forall i, j | 0 <= i < j < |users| :: users[i].id != users[j].id
  }

  /** Every notification of a fan-out is the draft, unread, addressed to a user. */
  lemma {:induction false} FanoutContent(users: seq<User>, p: User -> bool, d: Draft)
    ensures var ns := Fanout(users, p, d);
      forall i | 0 <= i < |ns| :: ns[i] == Create(ns[i].userId, d)
    decreases |users|
  {
    if users != [] {
      FanoutContent(users[1..], p, d);
      var head := if p(users[0]) then [Create(users[0].id, d)] else [];
      var ns := Fanout(users, p, d);
      assert ns == head + Fanout(users[1..], p, d);
      forall i | 0 <= i < |ns|
        ensures ns[i] == Create(ns[i].userId, d)
      {
        if i >= |head| {
          assert ns[i] == Fanout(users[1..], p, d)[i - |head|];
        }
      }
    }
  }

  /** A user id receives one notification per user of the table with that id that
      satisfies `p`. */
  lemma {:induction false} FanoutCount(users: seq<User>, p: User -> bool, d: Draft, id: int)
    ensures Received(Fanout(users, p, d), id) == Count(users, (u: User) => u.id == id && p(u))
    decreases |users|
  {
    if users != [] {
      var head := if p(users[0]) then [Create(users[0].id, d)] else [];
      FanoutCount(users[1..], p, d, id);
      FilterAppend(head, Fanout(users[1..], p, d), (n: Notification) => n.userId == id);
    }
  }

  /** With distinct ids, the fan-out reaches each user once when the user satisfies `p`
      and never otherwise, and nobody outside the table hears of it. */
  lemma FanoutSpec(users: seq<User>, p: User -> bool, d: Draft, id: int)
    requires DistinctIds(users)
    ensures forall k | 0 <= k < |users| && users[k].id == id :: Received(Fanout(users, p, d), id) == if p(users[k]) then 1 else 0
    ensures (forall k | 0 <= k < |users| :: users[k].id != id) ==> Received(Fanout(users, p, d), id) == 0
  {
    FanoutCount(users, p, d, id);
    var q := (u: User) => u.id == id && p(u);
    forall k | 0 <= k < |users| && users[k].id == id
      ensures Received(Fanout(users, p, d), id) == if p(users[k]) then 1 else 0
    {
      if p(users[k]) {
        CountOne(users, q, k);
      } else {
        CountNone(users, q);
      }
    }
    if forall k | 0 <= k < |users| :: users[k].id != id {
      CountNone(users, q);
    }
  }

  /** `createForRole` reaches each active user of the role exactly once and nobody else. */
  lemma CreateForRoleSpec(users: seq<User>, role: string, d: Draft, k: nat)
    requires DistinctIds(users) && k < |users|
    ensures Received(CreateForRole(users, role, d), users[k].id) == if users[k].active && HasRole(users[k], role) then 1 else 0
  {
    FanoutSpec(users, ActiveWithRole(role), d, users[k].id);
  }

  /** `createForAll` reaches each active user exactly once and no inactive one. */
  lemma CreateForAllSpec(users: seq<User>, d: Draft, k: nat)
    requires DistinctIds(users) && k < |users|
    ensures Received(CreateForAll(users, d), users[k].id) == if users[k].active then 1 else 0
  {
    FanoutSpec(users, IsActive, d, users[k].id);
  }

  // ---------------------------------------------------------------- events

  /** The asset fields the event messages read. */
  datatype AssetInfo = AssetInfo(id: nat, code: string, currentUser: Option<string>)

  /** The ticket fields the event messages read. */
  datatype TicketInfo = TicketInfo(id: nat, number: string, title: string, assignedTechnician: Option<int>)

  /** PHP string interpolation of a nullable column: null reads as "". */
  function Show(v: Option<string>): string {
    v.GetOr("")
  }

  function AssetData(a: AssetInfo): seq<(string, Value)> {
    [("asset_id", Int(a.id)), ("asset_code", Text(a.code))]
  }

  function TicketData(t: TicketInfo): seq<(string, Value)> {
    [("ticket_id", Int(t.id)), ("ticket_number", Text(t.number))]
  }

  function AssetUrl(a: AssetInfo): Option<string> {
    Some("/assets/" + Digits(a.id))
  }

  function TicketUrl(t: TicketInfo): Option<string> {
    Some("/tickets/" + Digits(t.id))
  }

  function AssetCreated(users: seq<User>, a: AssetInfo): seq<Notification> {
    CreateForRole(users, "admin", Draft("New Asset Created",
      "Asset " + a.code + " has been created and assigned to " + Show(a.currentUser), "asset", AssetData(a), AssetUrl(a)))
  }

  function AssetUpdated(users: seq<User>, a: AssetInfo): seq<Notification> {
    CreateForRole(users, "admin", Draft("Asset Updated", "Asset " + a.code + " has been updated", "asset", AssetData(a), AssetUrl(a)))
  }

  function MaintenanceDue(users: seq<User>, a: AssetInfo): seq<Notification> {
    CreateForRole(users, "technician", Draft("Maintenance Due",
      "Asset " + a.code + " is due for maintenance", "maintenance", AssetData(a), AssetUrl(a)))
  }

  function AssetReplacementDue(users: seq<User>, a: AssetInfo): seq<Notification> {
    CreateForRole(users, "admin", Draft("Asset Replacement Due",
      "Asset " + a.code + " is due for replacement", "asset", AssetData(a), AssetUrl(a)))
  }

  /** `if ($ticket->assigned_technician)`: set and not 0. */
  predicate HasTechnician(t: TicketInfo) {
    t.assignedTechnician.Some? && t.assignedTechnician.value != 0
  }

  /** The admins, then the assigned technician (whether or not that user is active). */
  function ToAdminsAndTechnician(users: seq<User>, t: TicketInfo, d: Draft): seq<Notification> {
    CreateForRole(users, "admin", d) + (if HasTechnician(t) then [Create(t.assignedTechnician.value, d)] else [])
  }

  function TicketCreated(users: seq<User>, t: TicketInfo): seq<Notification> {
    var d := Draft("New Ticket Created", "Ticket " + t.number + " has been created: " + t.title, "ticket", TicketData(t), TicketUrl(t));
    ToAdminsAndTechnician(users, t, d)
  }

  function TicketUpdated(users: seq<User>, t: TicketInfo): seq<Notification> {
    CreateForRole(users, "admin", Draft("Ticket Updated", "Ticket " + t.number + " has been updated", "ticket", TicketData(t), TicketUrl(t)))
  }

  function TicketOverdue(users: seq<User>, t: TicketInfo): seq<Notification> {
    var d := Draft("Ticket Overdue", "Ticket " + t.number + " is overdue", "ticket", TicketData(t), TicketUrl(t));
    ToAdminsAndTechnician(users, t, d)
  }

  /** `sendEmailNotification`: a plain unread notification to the user, with no data and
      no link; `kind` is None when the caller leaves the type out, which means 'info'. */
  function SendEmailNotification(u: User, title: string, message: string, kind: Option<string>): (n: Notification)
    ensures n.userId == u.id && n.title == title && n.message == message
    ensures kind.Some? ==> n.kind == kind.value
    ensures kind.None? ==> n.kind == "info"
    ensures n.data == [] && n.actionUrl.None? && !n.isRead && n.readAt.None?
  {
    Create(u.id, Draft(title, message, kind.GetOr("info"), [], None))
  }

  /** Leaving the type out is the same as asking for an 'info' notification. */
  lemma EmailDefaultsToInfo(u: User, title: string, message: string)
    ensures SendEmailNotification(u, title, message, None) == SendEmailNotification(u, title, message, Some("info"))
  {
  }

  /** The addressees of a batch, in order. */
  function Recipients(ns: seq<Notification>): (r: seq<int>)
    ensures |r| == |ns| && forall i | 0 <= i < |ns| :: r[i] == ns[i].userId
  {
    seq(|ns|, i requires 0 <= i < |ns| => ns[i].userId)
  }

  /** The addressees of a fan-out depend only on the users, not on the draft. */
  lemma {:induction false} FanoutRecipients(users: seq<User>, p: User -> bool, d: Draft, e: Draft)
    ensures Recipients(Fanout(users, p, d)) == Recipients(Fanout(users, p, e))
    decreases |users|
  {
    if users != [] {
      FanoutRecipients(users[1..], p, d, e);
      var hd := if p(users[0]) then [Create(users[0].id, d)] else [];
      var he := if p(users[0]) then [Create(users[0].id, e)] else [];
      RecipientsAppend(hd, Fanout(users[1..], p, d));
      RecipientsAppend(he, Fanout(users[1..], p, e));
      assert Recipients(hd) == Recipients(he);
    }
  }

  lemma RecipientsAppend(a: seq<Notification>, b: seq<Notification>)
    ensures Recipients(a + b) == Recipients(a) + Recipients(b)
  {
  }

  /** A ticket update reaches every active admin once and nobody else. */
  lemma TicketUpdatedAudience(users: seq<User>, t: TicketInfo, k: nat)
    requires DistinctIds(users) && k < |users|
    ensures Received(TicketUpdated(users, t), users[k].id) == if users[k].active && HasRole(users[k], "admin") then 1 else 0
  {
    CreateForRoleSpec(users, "admin", Draft("Ticket Updated", "Ticket " + t.number + " has been updated", "ticket", TicketData(t), TicketUrl(t)), k);
  }

  /** An overdue ticket is announced to exactly the users told of its creation. */
  lemma OverdueSameRecipients(users: seq<User>, t: TicketInfo)
    ensures Recipients(TicketOverdue(users, t)) == Recipients(TicketCreated(users, t))
  {
    var d := Draft("New Ticket Created", "Ticket " + t.number + " has been created: " + t.title, "ticket", TicketData(t), TicketUrl(t));
    var e := Draft("Ticket Overdue", "Ticket " + t.number + " is overdue", "ticket", TicketData(t), TicketUrl(t));
    FanoutRecipients(users, ActiveWithRole("admin"), e, d);
    var tail := if HasTechnician(t) then [t.assignedTechnician.value] else [];
    assert Recipients(TicketOverdue(users, t)) == Recipients(CreateForRole(users, "admin", e)) + tail;
    assert Recipients(TicketCreated(users, t)) == Recipients(CreateForRole(users, "admin", d)) + tail;
  }

  /** A new ticket reaches every active admin once, and its technician when one is set. */
  lemma TicketCreatedReaches(users: seq<User>, t: TicketInfo, k: nat)
    requires DistinctIds(users) && k < |users|
    requires users[k].active && HasRole(users[k], "admin")
    ensures Received(TicketCreated(users, t), users[k].id) >= 1
    ensures HasTechnician(t) ==> Received(TicketCreated(users, t), t.assignedTechnician.value) >= 1
  {
    var d := Draft("New Ticket Created", "Ticket " + t.number + " has been created: " + t.title, "ticket", TicketData(t), TicketUrl(t));
    var admins := CreateForRole(users, "admin", d);
    var tail := if HasTechnician(t) then [Create(t.assignedTechnician.value, d)] else [];
    CreateForRoleSpec(users, "admin", d, k);
    forall id
      ensures Received(admins + tail, id) == Received(admins, id) + Received(tail, id)
    {
      FilterAppend(admins, tail, (n: Notification) => n.userId == id);
    }
  }

  /** Asset events go to the admins, maintenance reminders to the technicians. */
  lemma EventAudiences(users: seq<User>, a: AssetInfo, k: nat)
    requires DistinctIds(users) && k < |users|
    ensures var admin := if users[k].active && HasRole(users[k], "admin") then 1 else 0;
      && Received(AssetCreated(users, a), users[k].id) == admin
      && Received(AssetUpdated(users, a), users[k].id) == admin
      && Received(AssetReplacementDue(users, a), users[k].id) == admin
      && Received(MaintenanceDue(users, a), users[k].id) == if users[k].active && HasRole(users[k], "technician") then 1 else 0
  {
    var ma := "Asset " + a.code + " has been created and assigned to " + Show(a.currentUser);
    CreateForRoleSpec(users, "admin", Draft("New Asset Created", ma, "asset", AssetData(a), AssetUrl(a)), k);
    CreateForRoleSpec(users, "admin", Draft("Asset Updated", "Asset " + a.code + " has been updated", "asset", AssetData(a), AssetUrl(a)), k);
    CreateForRoleSpec(users, "admin", Draft("Asset Replacement Due", "Asset " + a.code + " is due for replacement", "asset", AssetData(a), AssetUrl(a)), k);
    CreateForRoleSpec(users, "technician", Draft("Maintenance Due", "Asset " + a.code + " is due for maintenance", "maintenance", AssetData(a), AssetUrl(a)), k);
  }

  // ---------------------------------------------------------------- reading

  /** `markAsRead`: sets the flag and the read time, and nothing else. */
  function MarkAsRead(n: Notification, now: int): (r: Notification)
    ensures r.isRead && r.readAt == Some(now)
    ensures r.(isRead := n.isRead, readAt := n.readAt) == n
  {
    n.(isRead := true, readAt := Some(now))
  }

  /** Reading twice leaves the notification read, stamped with the second time. */
  lemma MarkAsReadTwice(n: Notification, t1: int, t2: int)
    ensures MarkAsRead(MarkAsRead(n, t1), t2) == MarkAsRead(n, t2)
  {
  }

  /** The badge classes of a notification type; unknown types are gray. */
  function TypeColor(kind: string): (c: string)
    ensures kind !in {"info", "success", "warning", "error", "asset", "ticket", "maintenance"} ==> c == "bg-gray-100 text-gray-800"
  {
    match kind
    case "info" => "bg-blue-100 text-blue-800"
    case "success" => "bg-green-100 text-green-800"
    case "warning" => "bg-yellow-100 text-yellow-800"
    case "error" => "bg-red-100 text-red-800"
    case "asset" => "bg-purple-100 text-purple-800"
    case "ticket" => "bg-orange-100 text-orange-800"
    case "maintenance" => "bg-indigo-100 text-indigo-800"
    case _ => "bg-gray-100 text-gray-800"
  }

  /** Every notification type the service sends has its own colour. */
  lemma SentTypesColoured()
    ensures TypeColor("asset") != TypeColor("ticket") && TypeColor("ticket") != TypeColor("maintenance")
    ensures TypeColor("asset") != TypeColor("maintenance")
    ensures forall k | k in {"asset", "ticket", "maintenance", "info"} :: TypeColor(k) != "bg-gray-100 text-gray-800"
  {
  }
}

=== FILE: reference_catalog.dfy ===
/** The asset categories and asset statuses of the asset-management back end. Both
    controllers follow one set of rules, so one model serves both: an entry has an id, a
    name that the validator keeps unique, and a description; an entry that an asset still
    points at cannot be deleted. */
module ReferenceCatalog {
  import opened Common

  /** Which of the two catalogs: the categories (an asset points at one through
      `asset_type_id`) or the statuses (through `status_id`). */
  datatype Kind = Category | Status

  /** The two catalog links an asset holds. */
  datatype AssetLinks = AssetLinks(typeId: int, statusId: int) {
    function Link(kind: Kind): int {
      match kind
      case Category => typeId
      case Status => statusId
    }
  }

  /** A category or status row. The name column holds whatever the validator let
      through, null included. */
  datatype Entry = Entry(id: nat, name: Option<string>, description: Option<string>)

  /** The table and its auto-increment counter. */
  datatype Catalog = Catalog(entries: seq<Entry>, nextId: nat)

  /** The request body of `store` and `update`: the name and the description. */
  datatype Request = Request(name: Input<string>, description: Input<string>)

  datatype Response =
    | Created(entry: Entry)
    | Shown(entry: Entry)
    | Updated(entry: Entry)
    | Deleted
    | NotFound
    | ValidationFailed
    | InUse
  {
    /** The HTTP status code of the response. */
    function Code(): int {
      match this
      case Created(_) => 201
      case NotFound => 404
      case ValidationFailed => 422
      case InUse => 400
      case _ => 200
    }
  }

  datatype Result = Result(response: Response, catalog: Catalog)

  /** Position of the entry with id `id`, if any. */
  function IndexOf(entries: seq<Entry>, id: int): (r: Option<nat>)
    ensures r.Some? ==> r.value < |entries| && entries[r.value].id == id
    ensures r.Some? ==> forall j | 0 <= j < r.value :: entries[j].id != id
    ensures r.None? <==> forall j | 0 <= j < |entries| :: entries[j].id != id
  {
    if entries == [] then None
    else if entries[0].id == id then Some(0)
    else
      match IndexOf(entries[1..], id)
      case None => None
      case Some(i) => Some(i + 1)
  }

  /** Laravel's `unique` rule: some row other than `except` holds `name` (a null name
      is looked up with `whereNull`, so it too must be unique). */
  predicate NameTaken(entries: seq<Entry>, name: Option<string>, except: Option<int>) {
    exists j | 0 <= j < |entries| :: entries[j].name == name && Some(entries[j].id) != except
  }

  /** Some asset points at the entry `id`: `$entry->assets()->count() > 0`. */
  predicate Referenced(assets: seq<AssetLinks>, kind: Kind, id: int) {
    exists k | 0 <= k < |assets| :: assets[k].Link(kind) == id
  }

  /** `required|unique`: a name that is sent, not null, not blank, and not used yet. */
  predicate StoreAccepts(c: Catalog, req: Request) {
    Filled(req.name) && !NameTaken(c.entries, Some(req.name.value), None)
  }

  /** `sometimes|unique:…,id`: a name that is not sent is not checked; a blank name
      skips the `unique` rule (it is not implicit); any other value, null included, must
      not be the name of another entry. */
  predicate UpdateAccepts(c: Catalog, id: int, req: Request) {
    match req.name
    case Absent => true
    case Given(v) => Blank(v) || !NameTaken(c.entries, Some(v), Some(id))
    case Null => !NameTaken(c.entries, None, Some(id))
  }

  /** POST: validate, then create the entry with the next id. */
  function Store(c: Catalog, req: Request): (r: Result)
    ensures r.response.Created? <==> StoreAccepts(c, req)
    ensures r.response.Created? ==>
      && r.response.entry == Entry(c.nextId, Some(req.name.value), req.description.ToOption())
      && r.catalog == Catalog(c.entries + [r.response.entry], c.nextId + 1)
    ensures !r.response.Created? ==> r == Result(ValidationFailed, c)
  {
    if !StoreAccepts(c, req) then Result(ValidationFailed, c)
    else
      var e := Entry(c.nextId, Some(req.name.value), req.description.ToOption());
      Result(Created(e), Catalog(c.entries + [e], c.nextId + 1))
  }

  /** GET one entry. */
  function Show(c: Catalog, id: int): (r: Response)
    ensures r.NotFound? <==> IndexOf(c.entries, id).None?
    ensures r.Shown? ==> r.entry in c.entries && r.entry.id == id
  {
    match IndexOf(c.entries, id)
    case None => NotFound
    case Some(i) => Shown(c.entries[i])
  }

  /** PUT: find, validate, then mass-assign the two fillable columns. */
  function Update(c: Catalog, id: int, req: Request): (r: Result)
    ensures r.response.NotFound? <==> IndexOf(c.entries, id).None?
    ensures r.response.ValidationFailed? <==> IndexOf(c.entries, id).Some? && !UpdateAccepts(c, id, req)
    ensures !r.response.Updated? ==> r.catalog == c
    ensures r.response.Updated? ==>
      var i := IndexOf(c.entries, id).value;
      && r.response.entry == Entry(id, req.name.Merge(c.entries[i].name), req.description.Merge(c.entries[i].description))
      && r.catalog == c.(entries := c.entries[i := r.response.entry])
  {
    match IndexOf(c.entries, id)
    case None => Result(NotFound, c)
    case Some(i) =>
      if !UpdateAccepts(c, id, req) then Result(ValidationFailed, c)
      else
        var prev := c.entries[i];
        var e := Entry(id, req.name.Merge(prev.name), req.description.Merge(prev.description));
        Result(Updated(e), c.(entries := c.entries[i := e]))
  }

  /** DELETE: find, refuse while an asset points at the entry, then remove it. */
  function Destroy(c: Catalog, id: int, assets: seq<AssetLinks>, kind: Kind): (r: Result)
    ensures r.response.NotFound? <==> IndexOf(c.entries, id).None?
    ensures r.response.InUse? <==> IndexOf(c.entries, id).Some? && Referenced(assets, kind, id)
    ensures r.response.Deleted? <==> IndexOf(c.entries, id).Some? && !Referenced(assets, kind, id)
    ensures !r.response.Deleted? ==> r.catalog == c
    ensures r.response.Deleted? ==>
      var i := IndexOf(c.entries, id).value;
      r.catalog == c.(entries := c.entries[..i] + c.entries[i + 1..])
  {
    match IndexOf(c.entries, id)
    case None => Result(NotFound, c)
    case Some(i) =>
      if Referenced(assets, kind, id) then Result(InUse, c)
      else Result(Deleted, c.(entries := c.entries[..i] + c.entries[i + 1..]))
  }

  // ---------------------------------------------------------------- invariant

  /** A name the `unique` rule guards: null or not blank. */
  predicate Guarded(name: Option<string>) {
    name.None? || !Blank(name.value)
  }

  /** The table as the controllers keep it: ids distinct and below the counter, and no
      guarded name held by two entries. */
  predicate Valid(c: Catalog) {
    && (forall j | 0 <= j < |c.entries| :: c.entries[j].id < c.nextId)
    && (forall i, j | 0 <= i < j < |c.entries| :: c.entries[i].id != c.entries[j].id)
    && (forall i, j | 0 <= i < j < |c.entries| && Guarded(c.entries[i].name) :: c.entries[i].name != c.entries[j].name)
  }

  lemma StoreKeepsValid(c: Catalog, req: Request)
    requires Valid(c)
    ensures Valid(Store(c, req).catalog)
  {
    var r := Store(c, req);
    if r.response.Created? {
      var es := r.catalog.entries;
      forall i, j | 0 <= i < j < |es| && Guarded(es[i].name)
        ensures es[i].name != es[j].name
      {
        if j == |c.entries| {
          assert es[i] == c.entries[i];
        }
      }
    }
  }

  lemma {:induction false} UpdateKeepsValid(c: Catalog, id: int, req: Request)
    requires Valid(c)
    ensures Valid(Update(c, id, req).catalog)
  {
    var r := Update(c, id, req);
    if r.response.Updated? {
      var i := IndexOf(c.entries, id).value;
      var es := r.catalog.entries;
      forall a, b | 0 <= a < b < |es| && Guarded(es[a].name)
        ensures es[a].name != es[b].name
      {
        if a == i || b == i {
          var other := if a == i then b else a;
          assert es[other] == c.entries[other];
          assert c.entries[other].id != id;
          match req.name
          case Absent =>
          case Null =>
          case Given(v) =>
            if Blank(v) {
              assert !Guarded(es[i].name);
            }
        }
      }
    }
  }

  lemma DestroyKeepsValid(c: Catalog, id: int, assets: seq<AssetLinks>, kind: Kind)
    requires Valid(c)
    ensures Valid(Destroy(c, id, assets, kind).catalog)
  {
    var r := Destroy(c, id, assets, kind);
    if r.response.Deleted? {
      var i := IndexOf(c.entries, id).value;
      var es := r.catalog.entries;
      RemoveAt(c.entries, i);
      forall a, b | 0 <= a < b < |es|
        ensures es[a].id != es[b].id
        ensures Guarded(es[a].name) ==> es[a].name != es[b].name
      {
        assert es[a] == c.entries[Skip(i, a)] && es[b] == c.entries[Skip(i, b)];
      }
      forall a | 0 <= a < |es|
        ensures es[a].id < c.nextId
      {
        assert es[a] == c.entries[Skip(i, a)];
      }
    }
  }

  /** One request to either controller. */
  datatype Op = StoreOp(req: Request) | UpdateOp(id: int, req: Request) | DestroyOp(id: int)

  function Apply(c: Catalog, op: Op, assets: seq<AssetLinks>, kind: Kind): Result {
    match op
    case StoreOp(req) => Store(c, req)
    case UpdateOp(id, req) => Update(c, id, req)
    case DestroyOp(id) => Destroy(c, id, assets, kind)
  }

  /** The table after a sequence of requests (the assets are fixed meanwhile). */
  function Run(c: Catalog, ops: seq<Op>, assets: seq<AssetLinks>, kind: Kind): Catalog
    decreases |ops|
  {
    if ops == [] then c else Run(Apply(c, ops[0], assets, kind).catalog, ops[1..], assets, kind)
  }

  /** Whatever requests arrive, ids stay distinct and guarded names stay unique. */
  lemma {:induction false} RunKeepsValid(c: Catalog, ops: seq<Op>, assets: seq<AssetLinks>, kind: Kind)
    requires Valid(c)
    ensures Valid(Run(c, ops, assets, kind))
    decreases |ops|
  {
    if ops != [] {
      match ops[0] {
        case StoreOp(req) => StoreKeepsValid(c, req);
        case UpdateOp(id, req) => UpdateKeepsValid(c, id, req);
        case DestroyOp(id) => DestroyKeepsValid(c, id, assets, kind);
      }
      RunKeepsValid(Apply(c, ops[0], assets, kind).catalog, ops[1..], assets, kind);
    }
  }

  // ---------------------------------------------------------------- consequences

  /** In a valid table the entry found by id is the only one with that id. */
  lemma IndexUnique(c: Catalog, id: int, j: nat)
    requires Valid(c) && j < |c.entries| && c.entries[j].id == id
    ensures IndexOf(c.entries, id) == Some(j)
  {
  }

  /** A created entry is shown back as it was created. */
  lemma StoreThenShow(c: Catalog, req: Request)
    requires Valid(c) && StoreAccepts(c, req)
    ensures var r := Store(c, req);
      Show(r.catalog, c.nextId) == Shown(r.response.entry)
  {
    var r := Store(c, req);
    StoreKeepsValid(c, req);
    IndexUnique(r.catalog, c.nextId, |c.entries|);
  }

  /** Renaming an entry to its own current name passes validation. */
  lemma OwnNameAccepted(c: Catalog, i: nat, description: Input<string>)
    requires Valid(c) && i < |c.entries| && c.entries[i].name.Some?
    ensures var e := c.entries[i];
      Update(c, e.id, Request(Given(e.name.value), description)).response.Updated?
  {
    var e := c.entries[i];
    IndexUnique(c, e.id, i);
    if NameTaken(c.entries, e.name, Some(e.id)) {
      var j :| 0 <= j < |c.entries| && c.entries[j].name == e.name && Some(c.entries[j].id) != Some(e.id);
      assert j != i;
    }
  }

  /** Renaming an entry to the guarded name of another entry is refused, and nothing changes. */
  lemma OtherNameRejected(c: Catalog, i: nat, j: nat, description: Input<string>)
    requires Valid(c) && i < |c.entries| && j < |c.entries| && i != j
    requires c.entries[j].name.Some? && !Blank(c.entries[j].name.value)
    ensures var r := Update(c, c.entries[i].id, Request(Given(c.entries[j].name.value), description));
      r.response == ValidationFailed && r.catalog == c
  {
    IndexUnique(c, c.entries[i].id, i);
    assert c.entries[j].id != c.entries[i].id;
  }

  /** A referenced entry survives every delete request. */
  lemma ReferencedSurvives(c: Catalog, id: int, assets: seq<AssetLinks>, kind: Kind, k: nat)
    requires k < |assets| && assets[k].Link(kind) == id
    ensures Destroy(c, id, assets, kind).catalog == c
  {
  }

  /** After an accepted delete in a valid table the id is gone and every other entry remains. */
  lemma DestroyRemoves(c: Catalog, id: int, assets: seq<AssetLinks>, kind: Kind)
    requires Valid(c)
    requires Destroy(c, id, assets, kind).response.Deleted?
    ensures var es := Destroy(c, id, assets, kind).catalog.entries;
      && IndexOf(es, id).None?
      && |es| == |c.entries| - 1
      && forall j | 0 <= j < |c.entries| && c.entries[j].id != id :: c.entries[j] in es
  {
    var i := IndexOf(c.entries, id).value;
    var es := Destroy(c, id, assets, kind).catalog.entries;
    RemoveAt(c.entries, i);
    forall a | 0 <= a < |es|
      ensures es[a].id != id
    {
      assert es[a] == c.entries[Skip(i, a)];
    }
    forall j | 0 <= j < |c.entries| && c.entries[j].id != id
      ensures c.entries[j] in es
    {
      var a := if j < i then j else j - 1;
      assert es[a] == c.entries[Skip(i, a)];
    }
  }

  /** Without the framework's input trimming, two entries can both be renamed to the
      same blank name: the `unique` rule does not look at blank values. */
  lemma BlankNamesRepeat()
    ensures var c := Catalog([Entry(1, Some("Laptop"), None), Entry(2, Some("Printer"), None)], 3);
      var c1 := Update(c, 1, Request(Given(" "), Absent)).catalog;
      var c2 := Update(c1, 2, Request(Given(" "), Absent)).catalog;
      c2.entries[0].name == c2.entries[1].name == Some(" ")
  {
    assert Blank(" ");
  }
}

=== FILE: server_reports.dfy ===
/** The report endpoints of the backend API that aggregate loaded collections in memory:
    the asset, ticket, maintenance and dashboard reports, and the export switch that names
    the report file. Each report is a pure function of the rows it was given. */
module ServerReports {
  import opened Common
  import opened Grouping
  import Access
  import Tickets

  /** What the reports read of an asset: its code, the names of its loaded category and
      status (absent when the relation is missing), region, holder and delivery date. */
  datatype ReportAsset = ReportAsset(
    code: string, category: Option<string>, status: Option<string>, location: Option<string>,
    currentUser: Option<string>, deliveredOn: Option<string>)

  /** What the reports read of a ticket; the due date is an instant. */
  datatype ReportTicket = ReportTicket(
    status: string, priority: string, technician: Option<string>, category: Option<string>, dueDate: Option<int>)

  /** `groupBy` on a value that may be null: PHP turns a null array key into "", so the
      rows without a value are grouped with the empty ones. */
  function GroupKey(v: Option<string>): string {
    v.GetOr("")
  }

  function CategoryOf(a: ReportAsset): string { GroupKey(a.category) }
  function StatusOf(a: ReportAsset): string { GroupKey(a.status) }
  function LocationOf(a: ReportAsset): string { GroupKey(a.location) }
  function HolderOf(a: ReportAsset): string { GroupKey(a.currentUser) }

  function TicketStatus(t: ReportTicket): string { t.status }
  function TicketPriority(t: ReportTicket): string { t.priority }
  function TechnicianOf(t: ReportTicket): string { GroupKey(t.technician) }
  function TicketCategory(t: ReportTicket): string { GroupKey(t.category) }

  /** `where('status.name', 'Active')`. */
  predicate IsActive(a: ReportAsset) { a.status == Some("Active") }

  /** `whereIn('status.name', ['Broken', 'Repair'])`. */
  predicate NeedsRepair(a: ReportAsset) { a.status == Some("Broken") || a.status == Some("Repair") }

  // ---------------------------------------------------------------- asset report

  datatype AssetSummary = AssetSummary(
    totalAssets: nat, byCategory: seq<Group>, byStatus: seq<Group>, byLocation: seq<Group>,
    byUser: seq<Group>, highValue: seq<ReportAsset>)

  /** The first ten active assets, in list order. */
  function HighValue(assets: seq<ReportAsset>): (r: seq<ReportAsset>)
    ensures |r| == if Count(assets, IsActive) < 10 then Count(assets, IsActive) else 10
    ensures r <= Filter(assets, IsActive)
  {
    Take(Filter(assets, IsActive), 10)
  }

  /** `assetReport` on the assets the filters selected: each grouping is the groups of
      the assets by that key (so it accounts for each asset once), and the 'high value'
      list is the first ten active assets. */
  function AssetReport(assets: seq<ReportAsset>): (r: AssetSummary)
    ensures r.totalAssets == |assets|
    ensures r.byCategory == GroupsOf(assets, CategoryOf) && r.byStatus == GroupsOf(assets, StatusOf)
    ensures r.byLocation == GroupsOf(assets, LocationOf) && r.byUser == GroupsOf(assets, HolderOf)
    ensures Total(r.byCategory) == r.totalAssets && Total(r.byStatus) == r.totalAssets
    ensures Total(r.byLocation) == r.totalAssets && Total(r.byUser) == r.totalAssets
    ensures r.highValue == HighValue(assets)
  {
    GroupsOfSpec(assets, CategoryOf);
    GroupsOfSpec(assets, StatusOf);
    GroupsOfSpec(assets, LocationOf);
    GroupsOfSpec(assets, HolderOf);
    AssetSummary(|assets|, GroupsOf(assets, CategoryOf), GroupsOf(assets, StatusOf),
      GroupsOf(assets, LocationOf), GroupsOf(assets, HolderOf), HighValue(assets))
  }

  // ---------------------------------------------------------------- maintenance report

  datatype CategoryHealth = CategoryHealth(name: string, total: nat, active: nat, broken: nat)

  datatype ScheduleEntry = ScheduleEntry(
    code: string, category: string, currentUser: Option<string>, location: Option<string>,
    last: Option<string>, next: Option<string>)

  datatype MaintenanceSummary = MaintenanceSummary(
    totalAssets: nat, dueMaintenance: nat, needingReplacement: nat,
    byCategory: seq<CategoryHealth>, schedule: seq<ScheduleEntry>)

  /** The assets of the category group `n` satisfying `p`. */
  function InGroup(n: string, p: ReportAsset -> bool): ReportAsset -> bool {
    (a: ReportAsset) => CategoryOf(a) == n && p(a)
  }

  /** The counts of one category group. Active and broken assets are disjoint parts of it. */
  function Health(assets: seq<ReportAsset>, g: Group): (h: CategoryHealth)
    requires g.count == Count(assets, HasKey(CategoryOf, g.name))
    ensures h.name == g.name && h.total == g.count
    ensures h.active == Count(assets, InGroup(g.name, IsActive))
    ensures h.broken == Count(assets, InGroup(g.name, NeedsRepair))
    ensures h.active + h.broken <= h.total
  {
    var active := InGroup(g.name, IsActive);
    var broken := InGroup(g.name, NeedsRepair);
    var either := (a: ReportAsset) => active(a) || broken(a);
    CountDisjoint(assets, active, broken, either);
    CountMonotone(assets, either, HasKey(CategoryOf, g.name));
    CategoryHealth(g.name, g.count, Count(assets, active), Count(assets, broken))
  }

  function HealthOf(assets: seq<ReportAsset>, gs: seq<Group>): (r: seq<CategoryHealth>)
    requires forall i | 0 <= i < |gs| :: gs[i].count == Count(assets, HasKey(CategoryOf, gs[i].name))
    ensures |r| == |gs|
    ensures forall i | 0 <= i < |r| :: r[i] == Health(assets, gs[i])
  {
    seq(|gs|, i requires 0 <= i < |gs| => Health(assets, gs[i]))
  }

  /** How the calendar enters the schedule, both as parameters: `asJson` is how the
      model's `date` cast serialises a stored delivery date (a full timestamp), and
      `sixMonthsLater` is the `Y-m-d` date six months after it. */
  datatype Calendar = Calendar(asJson: string -> string, sixMonthsLater: string -> string)

  /** One line of the maintenance schedule: the next date is six months after the
      delivery date when there is one. */
  function Entry(a: ReportAsset, cal: Calendar): ScheduleEntry
    requires a.category.Some?
  {
    ScheduleEntry(a.code, a.category.value, a.currentUser, a.location,
      if a.deliveredOn.Some? then Some(cal.asJson(a.deliveredOn.value)) else None,
      if a.deliveredOn.Some? then Some(cal.sixMonthsLater(a.deliveredOn.value)) else None)
  }

  /** An active asset without a category: reading its category name fails the request. */
  predicate Uncategorised(a: ReportAsset) { IsActive(a) && a.category.None? }

  /** What a schedule line reports of its asset: the code, category name, holder and
      region as stored, the serialised delivery date as the last maintenance, and six
      months after it as the next one; neither date without a delivery date. */
  predicate ScheduleLine(e: ScheduleEntry, a: ReportAsset, cal: Calendar) {
    && e.code == a.code && a.category == Some(e.category)
    && e.currentUser == a.currentUser && e.location == a.location
    && (a.deliveredOn.None? ==> e.last.None? && e.next.None?)
    && (a.deliveredOn.Some? ==>
         e.last == Some(cal.asJson(a.deliveredOn.value)) && e.next == Some(cal.sixMonthsLater(a.deliveredOn.value)))
  }

  /** The schedule lists one line per asset, in the assets' order. */
  predicate ScheduleOf(r: seq<ScheduleEntry>, active: seq<ReportAsset>, cal: Calendar) {
    |r| == |active| && forall i | 0 <= i < |r| :: ScheduleLine(r[i], active[i], cal)
  }

  function Schedule(active: seq<ReportAsset>, cal: Calendar): (r: seq<ScheduleEntry>)
    requires forall i | 0 <= i < |active| :: active[i].category.Some?
    ensures ScheduleOf(r, active, cal)
  {
    seq(|active|, i requires 0 <= i < |active| => Entry(active[i], cal))
  }

  /** The group sizes of the health lines. */
  function Totals(hs: seq<CategoryHealth>): (gs: seq<Group>)
    ensures |gs| == |hs|
    ensures forall i | 0 <= i < |hs| :: gs[i] == Group(hs[i].name, hs[i].total)
  {
    seq(|hs|, i requires 0 <= i < |hs| => Group(hs[i].name, hs[i].total))
  }

  /** One health line per category group, in first-occurrence order: the names and sizes
      are the category groups (so the sizes add up to all the assets, by `GroupsOfSpec`),
      each line counts the active and the broken assets of its
      category, and no line counts more active and broken assets than it holds. */
  function CategoryHealthOf(assets: seq<ReportAsset>): (r: seq<CategoryHealth>)
    ensures Totals(r) == GroupsOf(assets, CategoryOf)
    ensures forall i | 0 <= i < |r| ::
      && r[i].active == Count(assets, InGroup(r[i].name, IsActive))
      && r[i].broken == Count(assets, InGroup(r[i].name, NeedsRepair))
    ensures forall i | 0 <= i < |r| :: r[i].active + r[i].broken <= r[i].total
  {
    var gs := GroupsOf(assets, CategoryOf);
    GroupsOfSpec(assets, CategoryOf);
    GroupsCount(assets, CategoryOf);
    var health := HealthOf(assets, gs);
    assert Totals(health) == gs;
    health
  }

  /** The category lines account for every asset once. */
  lemma CategoryTotals(assets: seq<ReportAsset>)
    ensures Total(Totals(CategoryHealthOf(assets))) == |assets|
  {
    GroupsOfSpec(assets, CategoryOf);
  }

  /** Without uncategorised active assets, every active asset has a category. */
  lemma ActiveCategorised(assets: seq<ReportAsset>)
    requires forall i | 0 <= i < |assets| :: !Uncategorised(assets[i])
    ensures var active := Filter(assets, IsActive);
      forall i | 0 <= i < |active| :: active[i].category.Some?
  {
    var active := Filter(assets, IsActive);
    forall i | 0 <= i < |active|
      ensures active[i].category.Some?
    {
      var j :| 0 <= j < |assets| && assets[j] == active[i];
      assert !Uncategorised(assets[j]);
    }
  }

  /** `maintenanceReport`: nothing (a server error) when an active asset has no
      category; else the counts, one health line per category group, and one schedule
      line per active asset. */
  function MaintenanceReport(assets: seq<ReportAsset>, cal: Calendar): (r: Option<MaintenanceSummary>)
    ensures r.None? <==> exists i | 0 <= i < |assets| :: Uncategorised(assets[i])
    ensures r.Some? ==>
      && r.value.totalAssets == |assets|
      && r.value.dueMaintenance == Count(assets, IsActive)
      && r.value.needingReplacement == Count(assets, NeedsRepair)
      && |r.value.schedule| == r.value.dueMaintenance
      && ScheduleOf(r.value.schedule, Filter(assets, IsActive), cal)
      && r.value.byCategory == CategoryHealthOf(assets)
  {
    if exists i | 0 <= i < |assets| :: Uncategorised(assets[i]) then None
    else
      var active := Filter(assets, IsActive);
      ActiveCategorised(assets);
      Some(MaintenanceSummary(|assets|, |active|, Count(assets, NeedsRepair), CategoryHealthOf(assets), Schedule(active, cal)))
  }

  // ---------------------------------------------------------------- ticket report

  predicate Closed(t: ReportTicket) { t.status == "completed" || t.status == "cancelled" }

  /** `where('due_date', '<', now())->whereNotIn('status', ['completed', 'cancelled'])`.
      The collection's `where` answers false when one side is null and the other an
      object, so a ticket without a due date is never overdue. */
  predicate Overdue(t: ReportTicket, now: int) {
    t.dueDate.Some? && t.dueDate.value < now && !Closed(t)
  }

  function OverdueAt(now: int): ReportTicket -> bool {
    (t: ReportTicket) => Overdue(t, now)
  }

  datatype TicketSummary = TicketSummary(
    totalTickets: nat, byStatus: seq<Group>, byPriority: seq<Group>, byTechnician: seq<Group>,
    byCategory: seq<Group>, overdue: nat)

  /** `ticketReport` on the tickets the filters selected: each grouping is the groups of
      the tickets by that key, so it accounts for each ticket once; overdue tickets and closed tickets are disjoint. */
  function TicketReport(tickets: seq<ReportTicket>, now: int): (r: TicketSummary)
    ensures r.totalTickets == |tickets|
    ensures r.byStatus == GroupsOf(tickets, TicketStatus) && r.byPriority == GroupsOf(tickets, TicketPriority)
    ensures r.byTechnician == GroupsOf(tickets, TechnicianOf) && r.byCategory == GroupsOf(tickets, TicketCategory)
    ensures Total(r.byStatus) == r.totalTickets && Total(r.byPriority) == r.totalTickets
    ensures Total(r.byTechnician) == r.totalTickets && Total(r.byCategory) == r.totalTickets
    ensures r.overdue == Count(tickets, OverdueAt(now))
    ensures r.overdue + Count(tickets, Closed) <= r.totalTickets
  {
    var late := OverdueAt(now);
    var either := (t: ReportTicket) => late(t) || Closed(t);
    CountDisjoint(tickets, late, Closed, either);
    GroupsOfSpec(tickets, TicketStatus);
    GroupsOfSpec(tickets, TicketPriority);
    GroupsOfSpec(tickets, TechnicianOf);
    GroupsOfSpec(tickets, TicketCategory);
    TicketSummary(|tickets|, GroupsOf(tickets, TicketStatus), GroupsOf(tickets, TicketPriority),
      GroupsOf(tickets, TechnicianOf), GroupsOf(tickets, TicketCategory), Count(tickets, late))
  }

  /** How the reports see a stored due date: its instant, when it is a date. */
  function DueInstant(d: Option<DateText>): Option<int> {
    if d.Some? && d.value.Instant? then Some(d.value.at) else None
  }

  /** The reports and the ticket dashboard apply the same overdue rule: a report row with a
      ticket's status and due instant is overdue exactly when the ticket is overdue on the
      dashboard. */
  lemma OverdueRule(t: Tickets.Ticket, r: ReportTicket, now: int)
    requires r.status == t.status && r.dueDate == DueInstant(t.dueDate)
    ensures OverdueAt(now)(r) <==> Tickets.OverdueAt(now)(t)
  {
  }

  /** On the same tickets, the ticket report and the ticket dashboard count the same
      number of overdue tickets. */
  lemma OverdueCountsAgree(desk: seq<Tickets.Ticket>, rows: seq<ReportTicket>, now: int)
    requires |rows| == |desk|
    requires forall i | 0 <= i < |rows| :: rows[i].status == desk[i].status && rows[i].dueDate == DueInstant(desk[i].dueDate)
    ensures TicketReport(rows, now).overdue == Tickets.Dashboard(desk, now).overdue
  {
    forall i | 0 <= i < |rows|
      ensures OverdueAt(now)(rows[i]) == Tickets.OverdueAt(now)(desk[i])
    {
      OverdueRule(desk[i], rows[i], now);
    }
    CountAligned(rows, desk, OverdueAt(now), Tickets.OverdueAt(now));
  }

  // ---------------------------------------------------------------- dashboard report

  datatype DashboardSummary = DashboardSummary(
    totalAssets: nat, activeAssets: nat, totalTickets: nat, openTickets: nat, totalUsers: nat, activeUsers: nat)

  datatype Charts = Charts(assetsByCategory: seq<Group>, assetsByStatus: seq<Group>, ticketsByStatus: seq<Group>, ticketsByPriority: seq<Group>)

  datatype Alerts = Alerts(overdueTickets: nat, assetsNeedingMaintenance: nat, urgentTickets: nat)

  datatype Dashboard = Dashboard(summary: DashboardSummary, charts: Charts, alerts: Alerts)

  predicate IsOpen(t: ReportTicket) { t.status == "open" }
  predicate IsUrgent(t: ReportTicket) { t.priority == "urgent" }
  predicate IsActiveUser(u: Access.User) { u.active }

  /** `dashboardReport`: the counts never exceed their totals, active assets and assets
      needing maintenance are disjoint, and each chart is the groups of its rows by key,
      so it accounts for every row once. */
  function DashboardReport(assets: seq<ReportAsset>, tickets: seq<ReportTicket>, users: seq<Access.User>, now: int): (d: Dashboard)
    ensures d.summary.totalAssets == |assets| && d.summary.totalTickets == |tickets| && d.summary.totalUsers == |users|
    ensures d.summary.openTickets == Count(tickets, IsOpen) && d.alerts.urgentTickets == Count(tickets, IsUrgent)
    ensures d.summary.activeAssets + d.alerts.assetsNeedingMaintenance <= d.summary.totalAssets
    ensures d.summary.openTickets <= d.summary.totalTickets && d.alerts.urgentTickets <= d.summary.totalTickets
    ensures d.summary.activeUsers == Count(users, IsActiveUser) <= d.summary.totalUsers
    ensures d.charts.assetsByCategory == GroupsOf(assets, CategoryOf) && d.charts.assetsByStatus == GroupsOf(assets, StatusOf)
    ensures d.charts.ticketsByStatus == GroupsOf(tickets, TicketStatus) && d.charts.ticketsByPriority == GroupsOf(tickets, TicketPriority)
    ensures Total(d.charts.assetsByCategory) == |assets| && Total(d.charts.assetsByStatus) == |assets|
    ensures Total(d.charts.ticketsByStatus) == |tickets| && Total(d.charts.ticketsByPriority) == |tickets|
    ensures d.alerts.overdueTickets == TicketReport(tickets, now).overdue
    ensures d.alerts.assetsNeedingMaintenance == Count(assets, NeedsRepair)
    ensures d.summary.activeAssets == Count(assets, IsActive)
  {
    var either := (a: ReportAsset) => IsActive(a) || NeedsRepair(a);
    CountDisjoint(assets, IsActive, NeedsRepair, either);
    GroupsOfSpec(assets, CategoryOf);
    GroupsOfSpec(assets, StatusOf);
    GroupsOfSpec(tickets, TicketStatus);
    GroupsOfSpec(tickets, TicketPriority);
    Dashboard(
      DashboardSummary(|assets|, Count(assets, IsActive), |tickets|, Count(tickets, IsOpen), |users|, Count(users, IsActiveUser)),
      Charts(GroupsOf(assets, CategoryOf), GroupsOf(assets, StatusOf), GroupsOf(tickets, TicketStatus), GroupsOf(tickets, TicketPriority)),
      Alerts(Count(tickets, OverdueAt(now)), Count(assets, NeedsRepair), Count(tickets, IsUrgent)))
  }

  /** On the same rows, the dashboard's maintenance alert is the maintenance report's
      replacement count, and its active assets are the assets due for maintenance. */
  lemma DashboardAgreesWithMaintenance(assets: seq<ReportAsset>, tickets: seq<ReportTicket>, users: seq<Access.User>, now: int, cal: Calendar)
    requires MaintenanceReport(assets, cal).Some?
    ensures var m := MaintenanceReport(assets, cal).value;
      var d := DashboardReport(assets, tickets, users, now);
      d.alerts.assetsNeedingMaintenance == m.needingReplacement && d.summary.activeAssets == m.dueMaintenance
  {
  }

  // ---------------------------------------------------------------- export

  const ReportTypes: set<string> := {"assets", "tickets", "users"}

  const DownloadPrefix := "/api/reports/download/"

  datatype ExportResponse = Export(filename: string, url: string) | InvalidType {
    function Code(): int {
      if Export? then 200 else 400
    }
  }

  /** `$request->get('type', 'assets')`: the default only replaces a missing parameter;
      a null type matches no case of the switch. */
  function TypeOf(type_: Input<string>): (t: Option<string>)
    ensures t.Some? <==> type_.Absent? || (type_.Given? && type_.value in ReportTypes)
    ensures type_.Absent? ==> t == Some("assets")
    ensures t.Some? ==> t.value in ReportTypes
    ensures type_.Given? && t.Some? ==> t.value == type_.value
  {
    match type_
    case Absent => Some("assets")
    case Null => None
    case Given(v) => if v in ReportTypes then Some(v) else None
  }

  /** `$request->get('format', 'csv')` interpolated into a string: null prints as "". */
  function FormatOf(format: Input<string>): string {
    match format
    case Absent => "csv"
    case Null => ""
    case Given(f) => f
  }

  function DownloadUrl(t: string, f: string): string {
    DownloadPrefix + t + "?format=" + f
  }

  /** `exportReport`: 400 for a type other than assets, tickets or users; otherwise the
      file name `{type}_report_{stamp}.{format}` and its download address. */
  function ExportReport(type_: Input<string>, format: Input<string>, stamp: string): (r: ExportResponse)
    ensures r.Code() == 400 <==> TypeOf(type_).None?
    ensures r.Export? ==>
      var t := TypeOf(type_).value;
      && r.filename == t + "_report_" + stamp + "." + FormatOf(format)
      && ParseDownloadUrl(r.url) == Some((t, FormatOf(format)))
  {
    match TypeOf(type_)
    case None => InvalidType
    case Some(t) =>
      PlainTypeName(t);
      UrlRoundTrip(t, FormatOf(format));
      Export(t + "_report_" + stamp + "." + FormatOf(format), DownloadUrl(t, FormatOf(format)))
  }

  /** Leaving out both parameters asks for the assets report as CSV. */
  lemma ExportDefaults(stamp: string)
    ensures ExportReport(Absent, Absent, stamp) == ExportReport(Given("assets"), Given("csv"), stamp)
    ensures ExportReport(Absent, Absent, stamp).Export?
  {
  }

  /** No report type contains a '?'. */
  lemma PlainTypeName(t: string)
    requires t in ReportTypes
    ensures forall k | 0 <= k < |t| :: t[k] != '?'
  {
    if t == "assets" {
      assert t == ['a', 's', 's', 'e', 't', 's'];
    } else if t == "tickets" {
      assert t == ['t', 'i', 'c', 'k', 'e', 't', 's'];
    } else {
      assert t == ['u', 's', 'e', 'r', 's'];
    }
  }

  /** Position of the first `c` in `s`, or |s|. */
  function IndexOfChar(s: string, c: char): (i: nat)
    ensures i <= |s|
    ensures i < |s| ==> s[i] == c
    ensures forall j | 0 <= j < i :: s[j] != c
  {
    if s == [] then 0 else if s[0] == c then 0 else 1 + IndexOfChar(s[1..], c)
  }

  /** Read the report type and format back from a download address. */
  function ParseDownloadUrl(url: string): Option<(string, string)> {
    if !StartsWith(url, DownloadPrefix) then None
    else
      var rest := url[|DownloadPrefix|..];
      var i := IndexOfChar(rest, '?');
      if StartsWith(rest[i..], "?format=") then Some((rest[..i], rest[i + 8..])) else None
  }

  /** A download address gives back the type and the format it was made of, whenever the
      type has no '?' (none of the report types has one). */
  lemma UrlRoundTrip(t: string, f: string)
    requires forall k | 0 <= k < |t| :: t[k] != '?'
    ensures ParseDownloadUrl(DownloadUrl(t, f)) == Some((t, f))
  {
    var url := DownloadUrl(t, f);
    assert url[..|DownloadPrefix|] == DownloadPrefix;
    var rest := url[|DownloadPrefix|..];
    assert rest == t + "?format=" + f;
    var i := IndexOfChar(rest, '?');
    assert rest[|t|] == '?';
    assert i == |t|;
    assert rest[i..] == "?format=" + f;
    assert rest[..i] == t;
  }
}

=== FILE: sheet_import.dfy ===
/** The spreadsheet exchange of the asset-management web page: the column map, the
    export of assets as rows, the import of rows back into asset drafts with their
    errors and warnings, and the downloadable template.

    A sheet is the array of rows the spreadsheet reader hands over (`header: 1`): the
    first row holds the column headers and an empty cell is None. Only the rows are
    modelled; reading and writing the workbook file is not. */
module SheetImport {
  import opened Common

  type Cell = Option<string>
  type Row = seq<Cell>

  /** The asset fields the sheet carries, one per column. */
  datatype FieldName =
    | AssetCode | AssetType | SerialNumber | Hostname | NomorPo | LocationRegion | UserNow | OfficeNow
    | Status | Remark | IpLocation | UserBefore | DateDeliverToUser | TicketNumber | InstalledBy
    | ReplacedBy | DateReplacement | DoneBy

  /** The sheet header of each field: the column map read from value to key. */
  function Header(f: FieldName): string {
    match f
    case AssetCode => "Asset Code"
    case AssetType => "Asset Type"
    case SerialNumber => "Serial Number"
    case Hostname => "Hostname"
    case NomorPo => "PO Number"
    case LocationRegion => "Location/Region"
    case UserNow => "Current User"
    case OfficeNow => "Current Office"
    case Status => "Status"
    case Remark => "Remark"
    case IpLocation => "IP Address"
    case UserBefore => "Previous User"
    case DateDeliverToUser => "Date Delivered"
    case TicketNumber => "Ticket Number"
    case InstalledBy => "Installed By"
    case ReplacedBy => "Replaced By"
    case DateReplacement => "Replacement Date"
    case DoneBy => "Done By"
  }

  /** The column map, in the order of its keys, by the field each column feeds. */
  const AssetColumns: seq<FieldName> := [
    AssetCode, AssetType, SerialNumber, Hostname, NomorPo, LocationRegion, UserNow, OfficeNow,
    Status, Remark, IpLocation, UserBefore, DateDeliverToUser, TicketNumber, InstalledBy,
    ReplacedBy, DateReplacement, DoneBy
  ]

  /** Headers a sheet must carry before any row is looked at. */
  const RequiredColumns: seq<string> :=
    ["Asset Code", "Asset Type", "Serial Number", "Location/Region", "Status"]

  /** The fields whose text must be a YYYY-MM-DD date. */
  const DateFields: set<FieldName> := {DateDeliverToUser, DateReplacement}

  lemma FieldsDistinct()
    ensures forall i, j | 0 <= i < j < |AssetColumns| :: AssetColumns[i] != AssetColumns[j]
  {
  }

  /** The field a header names, read back through the column map. */
  function HeaderField(h: string): Option<FieldName> {
    match h
    case "Asset Code" => Some(AssetCode)
    case "Asset Type" => Some(AssetType)
    case "Serial Number" => Some(SerialNumber)
    case "Hostname" => Some(Hostname)
    case "PO Number" => Some(NomorPo)
    case "Location/Region" => Some(LocationRegion)
    case "Current User" => Some(UserNow)
    case "Current Office" => Some(OfficeNow)
    case "Status" => Some(Status)
    case "Remark" => Some(Remark)
    case "IP Address" => Some(IpLocation)
    case "Previous User" => Some(UserBefore)
    case "Date Delivered" => Some(DateDeliverToUser)
    case "Ticket Number" => Some(TicketNumber)
    case "Installed By" => Some(InstalledBy)
    case "Replaced By" => Some(ReplacedBy)
    case "Replacement Date" => Some(DateReplacement)
    case "Done By" => Some(DoneBy)
    case _ => None
  }

  lemma HeaderFieldInverse(f: FieldName)
    ensures HeaderField(Header(f)) == Some(f)
  {
  }

  /** The header row of an export and of the template: the column map's keys in order. */
  function HeaderRow(): (r: Row)
    ensures |r| == |AssetColumns|
    ensures forall k | 0 <= k < |r| :: r[k] == Some(Header(AssetColumns[k]))
  {
    seq(|AssetColumns|, k requires 0 <= k < |AssetColumns| => Some(Header(AssetColumns[k])))
  }

  /** The two columns that resolve a name against a catalog instead of copying the cell. */
  predicate IsLookup(f: FieldName) {
    f == AssetType || f == Status
  }

  /** No two fields share a header. */
  lemma HeaderInjective()
    ensures forall f, g | Header(f) == Header(g) :: f == g
  {
    forall f, g | Header(f) == Header(g)
      ensures f == g
    {
      HeaderFieldInverse(f);
      HeaderFieldInverse(g);
    }
  }

  /** The column map read as a dictionary: the field whose header is `h`, if there is one. */
  function ColumnField(h: Cell): (r: Option<FieldName>)
    ensures r.Some? ==> h == Some(Header(r.value))
    ensures r.None? ==> forall f :: h != Some(Header(f))
  {
    if exists f :: h == Some(Header(f)) then
      HeaderInjective();
      var f :| h == Some(Header(f));
      Some(f)
    else None
  }

  /** A row is shorter than the header row when its last cells are empty. */
  function CellAt(row: Row, c: nat): Cell {
    if c < |row| then row[c] else None
  }

  // ---------------------------------------------------------------- catalogs

  /** Position of the first entry whose name equals `v` ignoring case, or |entries|. */
  function MatchIndex(entries: seq<CatalogEntry>, v: string): (i: nat)
    ensures i <= |entries|
    ensures i < |entries| ==> Lower(entries[i].name) == Lower(v)
    ensures forall j | 0 <= j < i :: Lower(entries[j].name) != Lower(v)
  {
    if entries == [] then 0
    else if Lower(entries[0].name) == Lower(v) then 0
    else 1 + MatchIndex(entries[1..], v)
  }

  /** The entry a lookup cell names: the first whose name equals the cell ignoring case.
      An empty cell names nothing. */
  function FindByName(entries: seq<CatalogEntry>, value: Cell): Option<CatalogEntry> {
    if value.None? then None
    else
      var i := MatchIndex(entries, value.value);
      if i < |entries| then Some(entries[i]) else None
  }

  /** A lookup finds an entry exactly when some entry's name equals the cell ignoring
      case, and then it finds the first such entry. */
  lemma FindByNameSpec(entries: seq<CatalogEntry>, value: Cell)
    ensures var r := FindByName(entries, value);
      && (r.Some? <==> value.Some? && exists j | 0 <= j < |entries| :: Lower(entries[j].name) == Lower(value.value))
      && (r.Some? ==> exists j | 0 <= j < |entries| ::
           && entries[j] == r.value
           && Lower(entries[j].name) == Lower(value.value)
           && forall i | 0 <= i < j :: Lower(entries[i].name) != Lower(value.value))
  {
    if value.Some? {
      var i := MatchIndex(entries, value.value);
      if i == |entries| {
        assert forall j | 0 <= j < |entries| :: Lower(entries[j].name) != Lower(value.value);
      }
    }
  }

  /** Position of the first entry with id `id`, or |entries|. */
  function IdIndex(entries: seq<CatalogEntry>, id: int): (i: nat)
    ensures i <= |entries|
    ensures i < |entries| ==> entries[i].id == id
    ensures forall j | 0 <= j < i :: entries[j].id != id
  {
    if entries == [] then 0 else if entries[0].id == id then 0 else 1 + IdIndex(entries[1..], id)
  }

  /** The name an export writes for an id: that of the first entry with the id, or "". */
  function NameOf(entries: seq<CatalogEntry>, id: int): string {
    var i := IdIndex(entries, id);
    if i < |entries| then entries[i].name else ""
  }

  // ---------------------------------------------------------------- import

  /** The asset object an import row builds: the copied fields (an empty cell becomes
      null) and the ids the two lookup columns resolved to. */
  datatype Draft = Draft(fields: map<FieldName, Cell>, typeId: Option<int>, statusId: Option<int>)

  const EmptyDraft := Draft(map[], None, None)

  function Field(d: Draft, f: FieldName): Cell {
    if f in d.fields then d.fields[f] else None
  }

  /** A lookup id counts only when it is set and non-zero. */
  predicate Resolved(id: Option<int>) {
    id.Some? && id.value != 0
  }

  datatype Problem =
    | InvalidType(value: string)
    | InvalidStatus(value: string)
    | CodeRequired
    | SerialRequired
    | LocationRequired
    | TypeRequired
    | StatusRequired
    | BadIp(value: string)
    | BadDeliveredDate
    | BadReplacementDate
  {
    predicate IsLookupProblem() {
      InvalidType? || InvalidStatus?
    }
    predicate IsRequiredProblem() {
      CodeRequired? || SerialRequired? || LocationRequired? || TypeRequired? || StatusRequired?
    }
  }

  /** An import message: one of the two whole-sheet failures, or a problem of one row
      labelled with its spreadsheet row number. */
  datatype Message = TooFewRows | MissingColumns(columns: seq<string>) | AtRow(row: nat, problem: Problem)

  datatype ImportResult = ImportResult(
    success: bool,
    data: Option<seq<Draft>>,
    errors: Option<seq<Message>>,
    warnings: Option<seq<Message>>)

  /** The state of one row while its columns are visited. */
  datatype Scan = Scan(draft: Draft, errors: seq<Problem>)

  /** Visit one column: a lookup column sets its id or reports a non-empty name it cannot
      find; another asset column copies the cell (null when empty); any other header is
      ignored. Headers are distinct, so the header is "Asset Type" exactly when its
      field is the asset type, and likewise for "Status". */
  function ApplyColumn(s: Scan, h: Cell, value: Cell, cats: seq<CatalogEntry>, stats: seq<CatalogEntry>): (r: Scan)
    ensures s.errors <= r.errors && |r.errors| <= |s.errors| + 1
    ensures forall i | |s.errors| <= i < |r.errors| :: r.errors[i].IsLookupProblem()
  {
    match ColumnField(h)
    case None => s
    case Some(AssetType) =>
      (match FindByName(cats, value)
       case Some(c) => s.(draft := s.draft.(typeId := Some(c.id)))
       case None => if Truthy(value) then s.(errors := s.errors + [InvalidType(value.value)]) else s)
    case Some(Status) =>
      (match FindByName(stats, value)
       case Some(c) => s.(draft := s.draft.(statusId := Some(c.id)))
       case None => if Truthy(value) then s.(errors := s.errors + [InvalidStatus(value.value)]) else s)
    case Some(f) =>
      s.(draft := s.draft.(fields := s.draft.fields[f := if Truthy(value) then value else None]))
  }

  /** The row after its first `n` columns. Only lookup problems arise here, and each
      column adds at most one; problems are never withdrawn. */
  function ScanRow(headers: Row, row: Row, cats: seq<CatalogEntry>, stats: seq<CatalogEntry>, n: nat): (s: Scan)
    requires n <= |headers|
    ensures |s.errors| <= n
    ensures forall i | 0 <= i < |s.errors| :: s.errors[i].IsLookupProblem()
  {
    if n == 0 then Scan(EmptyDraft, [])
    else ApplyColumn(ScanRow(headers, row, cats, stats, n - 1), headers[n - 1], CellAt(row, n - 1), cats, stats)
  }

  /** The first required value a draft lacks, checked in a fixed order. */
  function MissingRequired(d: Draft): (r: Option<Problem>)
    ensures r.None? <==>
      && Truthy(Field(d, AssetCode)) && Truthy(Field(d, SerialNumber))
      && Truthy(Field(d, LocationRegion)) && Resolved(d.typeId) && Resolved(d.statusId)
    ensures r.Some? ==> r.value.IsRequiredProblem()
  {
    if !Truthy(Field(d, AssetCode)) then Some(CodeRequired)
    else if !Truthy(Field(d, SerialNumber)) then Some(SerialRequired)
    else if !Truthy(Field(d, LocationRegion)) then Some(LocationRequired)
    else if !Resolved(d.typeId) then Some(TypeRequired)
    else if !Resolved(d.statusId) then Some(StatusRequired)
    else None
  }

  /** The required values are checked in a fixed order: code, serial number, location,
      type, status; the problem reported is that of the first one missing. */
  lemma MissingRequiredOrder(d: Draft)
    ensures var r := MissingRequired(d);
      && (r == Some(CodeRequired) <==> !Truthy(Field(d, AssetCode)))
      && (r == Some(SerialRequired) <==> Truthy(Field(d, AssetCode)) && !Truthy(Field(d, SerialNumber)))
      && (r == Some(LocationRequired) <==>
           Truthy(Field(d, AssetCode)) && Truthy(Field(d, SerialNumber)) && !Truthy(Field(d, LocationRegion)))
      && (r == Some(TypeRequired) <==>
           && Truthy(Field(d, AssetCode)) && Truthy(Field(d, SerialNumber))
           && Truthy(Field(d, LocationRegion)) && !Resolved(d.typeId))
      && (r == Some(StatusRequired) <==>
           && Truthy(Field(d, AssetCode)) && Truthy(Field(d, SerialNumber))
           && Truthy(Field(d, LocationRegion)) && Resolved(d.typeId) && !Resolved(d.statusId))
  {
  }

  /** One octet of the address pattern: `25[0-5]`, `2[0-4][0-9]` or `[01]?[0-9][0-9]?`. */
  predicate OctetSyntax(s: string) {
    || (|s| == 3 && s[0] == '2' && s[1] == '5' && '0' <= s[2] <= '5')
    || (|s| == 3 && s[0] == '2' && '0' <= s[1] <= '4' && IsDigit(s[2]))
    || (|s| == 3 && (s[0] == '0' || s[0] == '1') && IsDigit(s[1]) && IsDigit(s[2]))
    || (|s| == 2 && IsDigit(s[0]) && IsDigit(s[1]))
    || (|s| == 1 && IsDigit(s[0]))
  }

  /** Dots at `i`, `j` and `k` cut `s` into four octets. */
  predicate DotsAt(s: string, i: int, j: int, k: int) {
    && 0 < i < j < k < |s|
    && s[i] == '.' && s[j] == '.' && s[k] == '.'
    && OctetSyntax(s[..i]) && OctetSyntax(s[i + 1..j]) && OctetSyntax(s[j + 1..k]) && OctetSyntax(s[k + 1..])
  }

  /** The anchored IPv4 pattern the import checks addresses against: four octets joined
      by dots. */
  predicate IsIpv4(s: string) {
    exists i, j, k | 0 <= i < |s| && 0 <= j < |s| && 0 <= k < |s| :: DotsAt(s, i, j, k)
  }

  /** The anchored pattern `\d{4}-\d{2}-\d{2}`. */
  predicate IsIsoDate(s: string) {
    |s| == 10 && s[4] == '-' && s[7] == '-' && forall i | 0 <= i < 10 && i != 4 && i != 7 :: IsDigit(s[i])
  }

  datatype Checked = Checked(draft: Draft, warnings: seq<Problem>)

  /** Format checks on a complete draft: a malformed address is reported and kept, a
      malformed date is reported and cleared. */
  function CheckFormats(d: Draft): (r: Checked)
    ensures r.draft.typeId == d.typeId && r.draft.statusId == d.statusId
    ensures forall f | f !in DateFields :: Field(r.draft, f) == Field(d, f)
    ensures forall f | f in DateFields :: Truthy(Field(r.draft, f)) ==> IsIsoDate(Field(r.draft, f).value)
  {
    var ip := Field(d, IpLocation);
    var w1 := if Truthy(ip) && !IsIpv4(ip.value) then [BadIp(ip.value)] else [];
    var delivered := Field(d, DateDeliverToUser);
    var badDelivered := Truthy(delivered) && !IsIsoDate(delivered.value);
    var d1 := if badDelivered then d.(fields := d.fields[DateDeliverToUser := None]) else d;
    var w2 := w1 + if badDelivered then [BadDeliveredDate] else [];
    var replaced := Field(d1, DateReplacement);
    var badReplaced := Truthy(replaced) && !IsIsoDate(replaced.value);
    var d2 := if badReplaced then d1.(fields := d1.fields[DateReplacement := None]) else d1;
    Checked(d2, w2 + if badReplaced then [BadReplacementDate] else [])
  }

  /** A malformed date is cleared and every other date kept; the same fields are set
      before and after. */
  lemma CheckFormatsDates(d: Draft)
    ensures var r := CheckFormats(d);
      && (forall f | f in DateFields ::
           Field(r.draft, f) == if Truthy(Field(d, f)) && !IsIsoDate(Field(d, f).value) then None else Field(d, f))
      && r.draft.fields.Keys == d.fields.Keys
  {
  }

  /** One warning per malformed value, the address first; none exactly when the
      address and both dates are empty or well formed. */
  lemma CheckFormatsWarnings(d: Draft)
    ensures var r := CheckFormats(d);
      && |r.warnings| <= 3
      && ((|r.warnings| > 0 && r.warnings[0].BadIp?) <==>
           Truthy(Field(d, IpLocation)) && !IsIpv4(Field(d, IpLocation).value))
      && (forall i | 1 <= i < |r.warnings| :: !r.warnings[i].BadIp?)
      && (r.warnings == [] <==>
           && (Truthy(Field(d, IpLocation)) ==> IsIpv4(Field(d, IpLocation).value))
           && forall f | f in DateFields :: Truthy(Field(d, f)) ==> IsIsoDate(Field(d, f).value))
  {
  }

  /** Every cell of the row is empty. */
  predicate BlankRow(row: Row) {
    forall i | 0 <= i < |row| :: !Truthy(row[i])
  }

  /** What an accepted row guarantees: the three required texts, both ids, and dates
      that are either null or YYYY-MM-DD. */
  predicate Complete(d: Draft) {
    && Truthy(Field(d, AssetCode)) && Truthy(Field(d, SerialNumber)) && Truthy(Field(d, LocationRegion))
    && Resolved(d.typeId) && Resolved(d.statusId)
    && forall f | f in DateFields :: Truthy(Field(d, f)) ==> IsIsoDate(Field(d, f).value)
  }

  datatype RowOutcome = RowOutcome(errors: seq<Problem>, warnings: seq<Problem>, asset: Option<Draft>)

  /** One data row: skipped when blank; otherwise its columns are visited, then the first
      missing required value rejects it, else its formats are checked and it is kept.
      A row that reported a lookup problem but still has both ids is kept as well. */
  function ProcessRow(headers: Row, row: Row, cats: seq<CatalogEntry>, stats: seq<CatalogEntry>): (o: RowOutcome)
    ensures BlankRow(row) ==> o == RowOutcome([], [], None)
    ensures o.asset.Some? ==> Complete(o.asset.value)
    ensures !BlankRow(row) && o.asset.None? ==> o.errors != []
    ensures o.asset.None? ==> o.warnings == []
  {
    if BlankRow(row) then RowOutcome([], [], None)
    else
      var s := ScanRow(headers, row, cats, stats, |headers|);
      match MissingRequired(s.draft)
      case Some(p) => RowOutcome(s.errors + [p], [], None)
      case None =>
        var c := CheckFormats(s.draft);
        RowOutcome(s.errors, c.warnings, Some(c.draft))
  }

  /** A row reports at most one missing required value, and only as its last error. */
  lemma OneRequiredProblem(headers: Row, row: Row, cats: seq<CatalogEntry>, stats: seq<CatalogEntry>)
    ensures var o := ProcessRow(headers, row, cats, stats);
      forall i | 0 <= i < |o.errors| - 1 :: !o.errors[i].IsRequiredProblem()
  {
  }

  /** Warnings are format problems only, and a rejected row carries none. */
  lemma WarningsAreFormatProblems(headers: Row, row: Row, cats: seq<CatalogEntry>, stats: seq<CatalogEntry>)
    ensures var o := ProcessRow(headers, row, cats, stats);
      forall i | 0 <= i < |o.warnings| :: o.warnings[i].BadIp? || o.warnings[i].BadDeliveredDate? || o.warnings[i].BadReplacementDate?
  {
  }

  /** Label each problem with the spreadsheet row number `n`. */
  function Label(n: nat, ps: seq<Problem>): (ms: seq<Message>)
    ensures |ms| == |ps|
    ensures forall i | 0 <= i < |ms| :: ms[i] == AtRow(n, ps[i])
  {
    seq(|ps|, i requires 0 <= i < |ps| => AtRow(n, ps[i]))
  }

  /** Number of rows that are not blank. */
  function NonBlank(rows: seq<Row>): nat {
    if rows == [] then 0 else NonBlank(rows[..|rows| - 1]) + if BlankRow(rows[|rows| - 1]) then 0 else 1
  }

  datatype Batch = Batch(errors: seq<Message>, warnings: seq<Message>, assets: seq<Draft>)

  /** Every message is labelled with the spreadsheet row number of a non-blank row of `rows`. */
  predicate LabelsWithin(ms: seq<Message>, rows: seq<Row>) {
    forall i | 0 <= i < |ms| :: ms[i].AtRow? && 2 <= ms[i].row <= |rows| + 1 && !BlankRow(rows[ms[i].row - 2])
  }

  predicate AllComplete(ds: seq<Draft>) {
    forall i | 0 <= i < |ds| :: Complete(ds[i])
  }

  /** The outcome of each data row, in sheet order. */
  function Outcomes(headers: Row, rows: seq<Row>, cats: seq<CatalogEntry>, stats: seq<CatalogEntry>): (os: seq<RowOutcome>)
    ensures |os| == |rows|
    ensures forall j | 0 <= j < |rows| :: os[j] == ProcessRow(headers, rows[j], cats, stats)
  {
    seq(|rows|, j requires 0 <= j < |rows| => ProcessRow(headers, rows[j], cats, stats))
  }

  /** The messages and kept drafts of a run of row outcomes, where outcome j belongs to
      spreadsheet row j + 2: each row's errors and warnings labelled with its number,
      and its draft when it was kept. */
  function Collect(os: seq<RowOutcome>): Batch
    decreases |os|
  {
    if os == [] then Batch([], [], [])
    else
      var b := Collect(os[..|os| - 1]);
      var o := os[|os| - 1];
      Batch(b.errors + Label(|os| + 1, o.errors), b.warnings + Label(|os| + 1, o.warnings),
            b.assets + if o.asset.Some? then [o.asset.value] else [])
  }

  /** All data rows in order; the row at index i is spreadsheet row i + 2. */
  function ProcessRows(headers: Row, rows: seq<Row>, cats: seq<CatalogEntry>, stats: seq<CatalogEntry>): Batch {
    Collect(Outcomes(headers, rows, cats, stats))
  }

  /** What the row pass guarantees of one row's outcome. */
  predicate Fits(o: RowOutcome, row: Row) {
    && (BlankRow(row) ==> o == RowOutcome([], [], None))
    && (o.asset.Some? ==> Complete(o.asset.value))
    && (!BlankRow(row) && o.asset.None? ==> o.errors != [])
  }

  /** Every message names a non-blank row of the sheet, every kept draft is complete, and
      a batch without errors keeps one draft per non-blank row. */
  lemma ProcessRowsSpec(headers: Row, rows: seq<Row>, cats: seq<CatalogEntry>, stats: seq<CatalogEntry>)
    ensures var b := ProcessRows(headers, rows, cats, stats);
      && LabelsWithin(b.errors, rows) && LabelsWithin(b.warnings, rows)
      && AllComplete(b.assets)
      && |b.assets| <= NonBlank(rows)
      && (b.errors == [] ==> |b.assets| == NonBlank(rows))
  {
    CollectSpec(Outcomes(headers, rows, cats, stats), rows);
  }

  lemma {:induction false} CollectSpec(os: seq<RowOutcome>, rows: seq<Row>)
    requires |os| == |rows|
    requires forall j | 0 <= j < |rows| :: Fits(os[j], rows[j])
    ensures var b := Collect(os);
      && LabelsWithin(b.errors, rows) && LabelsWithin(b.warnings, rows)
      && AllComplete(b.assets)
      && |b.assets| <= NonBlank(rows)
      && (b.errors == [] ==> |b.assets| == NonBlank(rows))
    decreases |rows|
  {
    if rows != [] {
      var n := |rows|;
      CollectSpec(os[..n - 1], rows[..n - 1]);
      BatchStep(Collect(os[..n - 1]), os[n - 1], rows[..n - 1], rows);
    }
  }

  /** A problem of outcome j is reported as an error of spreadsheet row j + 2. */
  lemma {:induction false} CollectReports(os: seq<RowOutcome>, j: nat, p: Problem)
    requires j < |os| && p in os[j].errors
    ensures AtRow(j + 2, p) in Collect(os).errors
    decreases |os|
  {
    var n := |os|;
    var o := os[n - 1];
    var es := Collect(os[..n - 1]).errors;
    var more := Label(n + 1, o.errors);
    assert Collect(os).errors == es + more;
    if j < n - 1 {
      CollectReports(os[..n - 1], j, p);
      InAppend(es, more, AtRow(j + 2, p));
    } else {
      var k :| 0 <= k < |o.errors| && o.errors[k] == p;
      assert more[k] == AtRow(j + 2, p);
      InAppend(more, es, AtRow(j + 2, p));
    }
  }

  lemma InAppend<T>(a: seq<T>, b: seq<T>, x: T)
    requires x in a
    ensures x in a + b && x in b + a
  {
  }

  /** Outcomes that all keep their row without an error give no error and exactly their drafts. */
  lemma {:induction false} CollectAccepted(os: seq<RowOutcome>)
    requires forall j | 0 <= j < |os| :: os[j].errors == [] && os[j].asset.Some?
    ensures var b := Collect(os);
      && b.errors == [] && |b.assets| == |os|
      && forall j | 0 <= j < |os| :: b.assets[j] == os[j].asset.value
    decreases |os|
  {
    if os != [] {
      var n := |os|;
      CollectAccepted(os[..n - 1]);
      var b0 := Collect(os[..n - 1]);
      assert Collect(os).assets == b0.assets + [os[n - 1].asset.value];
    }
  }

  /** Outcomes without warnings give no warning. */
  lemma {:induction false} CollectQuiet(os: seq<RowOutcome>)
    requires forall j | 0 <= j < |os| :: os[j].warnings == []
    ensures Collect(os).warnings == []
    decreases |os|
  {
    if os != [] {
      CollectQuiet(os[..|os| - 1]);
    }
  }

  /** Appending the outcome of the last row keeps the batch invariant. */
  lemma BatchStep(b: Batch, o: RowOutcome, prev: seq<Row>, rows: seq<Row>)
    requires rows != [] && prev == rows[..|rows| - 1]
    requires LabelsWithin(b.errors, prev) && LabelsWithin(b.warnings, prev)
    requires AllComplete(b.assets)
    requires |b.assets| <= NonBlank(prev)
    requires b.errors == [] ==> |b.assets| == NonBlank(prev)
    requires BlankRow(rows[|rows| - 1]) ==> o == RowOutcome([], [], None)
    requires o.asset.Some? ==> Complete(o.asset.value)
    requires !BlankRow(rows[|rows| - 1]) && o.asset.None? ==> o.errors != []
    ensures var n := |rows| + 1;
      var r := Batch(b.errors + Label(n, o.errors), b.warnings + Label(n, o.warnings),
                     b.assets + if o.asset.Some? then [o.asset.value] else []);
      && LabelsWithin(r.errors, rows) && LabelsWithin(r.warnings, rows)
      && AllComplete(r.assets)
      && |r.assets| <= NonBlank(rows)
      && (r.errors == [] ==> |r.assets| == NonBlank(rows))
  {
    var n := |rows| + 1;
    LabelsExtend(b.errors, prev, rows);
    LabelsExtend(b.warnings, prev, rows);
    LabelsAppend(b.errors, Label(n, o.errors), rows);
    LabelsAppend(b.warnings, Label(n, o.warnings), rows);
  }

  lemma LabelsExtend(ms: seq<Message>, prev: seq<Row>, rows: seq<Row>)
    requires prev <= rows
    requires LabelsWithin(ms, prev)
    ensures LabelsWithin(ms, rows)
  {
    forall i | 0 <= i < |ms|
      ensures ms[i].AtRow? && 2 <= ms[i].row <= |rows| + 1 && !BlankRow(rows[ms[i].row - 2])
    {
      assert rows[ms[i].row - 2] == prev[ms[i].row - 2];
    }
  }

  lemma LabelsAppend(ms: seq<Message>, more: seq<Message>, rows: seq<Row>)
    requires LabelsWithin(ms, rows)
    requires more == [] || LabelsWithin(more, rows)
    ensures LabelsWithin(ms + more, rows)
  {
    forall i | 0 <= i < |ms + more|
      ensures (ms + more)[i].AtRow?
    {
      if i >= |ms| {
        assert (ms + more)[i] == more[i - |ms|];
      }
    }
  }

  /** The required headers the header row lacks, in their fixed order. */
  function MissingHeaders(headers: Row): seq<string> {
    MissingFrom(RequiredColumns, headers)
  }

  /** `headers` holds the header `h`. */
  predicate HasHeader(headers: Row, h: string) {
    headers != [] && (headers[0] == Some(h) || HasHeader(headers[1..], h))
  }

  function MissingFrom(required: seq<string>, headers: Row): seq<string> {
    if required == [] then []
    else (if HasHeader(headers, required[0]) then [] else [required[0]]) + MissingFrom(required[1..], headers)
  }

  lemma {:induction false} HasHeaderIn(headers: Row, h: string)
    ensures HasHeader(headers, h) <==> Some(h) in headers
  {
    if headers != [] {
      HasHeaderIn(headers[1..], h);
      assert headers == [headers[0]] + headers[1..];
    }
  }

  lemma {:induction false} MissingFromSpec(required: seq<string>, headers: Row)
    ensures forall c :: c in MissingFrom(required, headers) <==> c in required && Some(c) !in headers
  {
    if required != [] {
      HasHeaderIn(headers, required[0]);
      MissingFromSpec(required[1..], headers);
      assert required == [required[0]] + required[1..];
    }
  }

  /** The missing headers are exactly the required ones the header row lacks. */
  lemma MissingHeadersSpec(headers: Row)
    ensures forall c :: c in MissingHeaders(headers) <==> c in RequiredColumns && Some(c) !in headers
  {
    MissingFromSpec(RequiredColumns, headers);
  }

  lemma {:induction false} NoneMissing(required: seq<string>, headers: Row)
    requires forall i | 0 <= i < |required| :: Some(required[i]) in headers
    ensures MissingFrom(required, headers) == []
  {
    if required != [] {
      HasHeaderIn(headers, required[0]);
      NoneMissing(required[1..], headers);
    }
  }

  /** The whole import. A sheet without a data row, or whose header row lacks a required
      header, fails with that single message. Otherwise every row is processed; any row
      error fails the import (returning the errors and the warnings), else it succeeds
      with the kept assets, and with the warnings only when there are some. */
  function Import(sheet: seq<Row>, cats: seq<CatalogEntry>, stats: seq<CatalogEntry>): ImportResult {
    if |sheet| < 2 then ImportResult(false, None, Some([TooFewRows]), None)
    else
      var missing := MissingHeaders(sheet[0]);
      if missing != [] then ImportResult(false, None, Some([MissingColumns(missing)]), None)
      else
        var rows := sheet[1..];
        var b := ProcessRows(sheet[0], rows, cats, stats);
        if b.errors != [] then ImportResult(false, None, Some(b.errors), Some(b.warnings))
        else ImportResult(true, Some(b.assets), None, if b.warnings == [] then None else Some(b.warnings))
  }

  /** What an import reports. A sheet without a data row, or whose header row lacks a
      required header, fails with that single message. Otherwise it succeeds exactly
      when no row raised an error, and then holds one complete draft per non-blank row;
      errors, when reported, are never empty, nor are the warnings of a success; every
      row message names a non-blank data row. */
  lemma ImportOutcome(sheet: seq<Row>, cats: seq<CatalogEntry>, stats: seq<CatalogEntry>)
    ensures var r := Import(sheet, cats, stats);
      && (|sheet| < 2 ==> r == ImportResult(false, None, Some([TooFewRows]), None))
      && (|sheet| >= 2 && MissingHeaders(sheet[0]) != [] ==>
           r == ImportResult(false, None, Some([MissingColumns(MissingHeaders(sheet[0]))]), None))
      && (r.success <==> r.errors.None?)
      && (r.success <==> r.data.Some?)
      && (r.errors.Some? ==> r.errors.value != [])
      && (r.success ==> |r.data.value| == NonBlank(sheet[1..]) && AllComplete(r.data.value))
      && (r.success && r.warnings.Some? ==> r.warnings.value != [])
      && (r.errors.Some? && r.errors.value[0].AtRow? ==> LabelsWithin(r.errors.value, sheet[1..]))
      && (r.warnings.Some? ==> LabelsWithin(r.warnings.value, sheet[1..]))
  {
    if |sheet| >= 2 {
      ProcessRowsSpec(sheet[0], sheet[1..], cats, stats);
    }
  }

  // ---------------------------------------------------------------- export

  /** An asset as the page lists it: its category and status ids and the text of each
      field ("" when the field is missing or null). */
  datatype SheetAsset = SheetAsset(typeId: int, statusId: int, text: FieldName -> string)

  function TextOf(a: SheetAsset, f: FieldName): string {
    a.text(f)
  }

  /** The cell an export writes for field `f`: a catalog name for the lookup columns,
      the field's text otherwise. */
  function ExportCell(a: SheetAsset, f: FieldName, cats: seq<CatalogEntry>, stats: seq<CatalogEntry>): string {
    if f == AssetType then NameOf(cats, a.typeId)
    else if f == Status then NameOf(stats, a.statusId)
    else TextOf(a, f)
  }

  function ExportRow(a: SheetAsset, cats: seq<CatalogEntry>, stats: seq<CatalogEntry>): (r: Row)
    ensures |r| == |AssetColumns|
    ensures forall k | 0 <= k < |r| :: r[k] == Some(ExportCell(a, AssetColumns[k], cats, stats))
  {
    seq(|AssetColumns|, k requires 0 <= k < |AssetColumns| => Some(ExportCell(a, AssetColumns[k], cats, stats)))
  }

  function ExportRows(assets: seq<SheetAsset>, cats: seq<CatalogEntry>, stats: seq<CatalogEntry>): (rows: seq<Row>)
    ensures |rows| == |assets|
    ensures forall i | 0 <= i < |assets| :: rows[i] == ExportRow(assets[i], cats, stats)
  {
    seq(|assets|, i requires 0 <= i < |assets| => ExportRow(assets[i], cats, stats))
  }

  /** The sheet an export writes: nothing at all for no assets, otherwise the header row
      followed by one row per asset. */
  function ExportSheet(assets: seq<SheetAsset>, cats: seq<CatalogEntry>, stats: seq<CatalogEntry>): seq<Row> {
    if assets == [] then [] else [HeaderRow()] + ExportRows(assets, cats, stats)
  }

  /** The header row an export writes carries every required header. */
  lemma ExportHeaderComplete()
    ensures MissingHeaders(HeaderRow()) == []
  {
    var h := HeaderRow();
    assert h[0] == Some("Asset Code") && h[1] == Some("Asset Type") && h[2] == Some("Serial Number");
    assert h[5] == Some("Location/Region") && h[8] == Some("Status");
    NoneMissing(RequiredColumns, h);
  }

  /** An id survives a round trip through its name: it is non-zero, the export writes a
      non-empty name for it, and looking that name up finds an entry with the same id. */
  predicate Resolves(entries: seq<CatalogEntry>, id: int) {
    var n := NameOf(entries, id);
    id != 0 && n != "" && FindByName(entries, Some(n)).Some? && FindByName(entries, Some(n)).value.id == id
  }

  /** Names that differ ignoring case, all non-empty: then every listed non-zero id resolves. */
  lemma DistinctNamesResolve(entries: seq<CatalogEntry>, id: int)
    requires forall i, j | 0 <= i < j < |entries| :: Lower(entries[i].name) != Lower(entries[j].name)
    requires forall i | 0 <= i < |entries| :: entries[i].name != ""
    requires id != 0 && exists j | 0 <= j < |entries| :: entries[j].id == id
    ensures Resolves(entries, id)
  {
    var k := IdIndex(entries, id);
    var n := entries[k].name;
    var m := MatchIndex(entries, n);
    assert m <= k;
    assert Lower(entries[m].name) == Lower(entries[k].name);
    assert m == k;
  }

  /** An asset the import reads back as it was exported: its three required texts are
      non-empty and both ids resolve. */
  predicate Exportable(a: SheetAsset, cats: seq<CatalogEntry>, stats: seq<CatalogEntry>) {
    && TextOf(a, AssetCode) != "" && TextOf(a, SerialNumber) != "" && TextOf(a, LocationRegion) != ""
    && Resolves(cats, a.typeId) && Resolves(stats, a.statusId)
  }

  /** Its address is empty or well formed and its dates are empty or YYYY-MM-DD. */
  predicate CleanFormats(a: SheetAsset) {
    && (TextOf(a, IpLocation) == "" || IsIpv4(TextOf(a, IpLocation)))
    && forall f | f in DateFields :: TextOf(a, f) == "" || IsIsoDate(TextOf(a, f))
  }

  /** What the import keeps of field `f`: nothing for a lookup column (its id is kept
      instead); otherwise the text when it is non-empty and, for a date, well formed. */
  function Restored(a: SheetAsset, f: FieldName): Cell {
    if IsLookup(f) || TextOf(a, f) == "" || (f in DateFields && !IsIsoDate(TextOf(a, f))) then None
    else Some(TextOf(a, f))
  }

  /** Draft `d` is asset `a` read back: the same ids, and every field as restored. */
  predicate ReadBack(d: Draft, a: SheetAsset) {
    && d.typeId == Some(a.typeId) && d.statusId == Some(a.statusId)
    && forall f :: Field(d, f) == Restored(a, f)
  }

  /** The position of a field's column in the column map. */
  function ColumnIndex(f: FieldName): (k: nat)
    ensures k < |AssetColumns| && AssetColumns[k] == f
  {
    match f
    case AssetCode => 0
    case AssetType => 1
    case SerialNumber => 2
    case Hostname => 3
    case NomorPo => 4
    case LocationRegion => 5
    case UserNow => 6
    case OfficeNow => 7
    case Status => 8
    case Remark => 9
    case IpLocation => 10
    case UserBefore => 11
    case DateDeliverToUser => 12
    case TicketNumber => 13
    case InstalledBy => 14
    case ReplacedBy => 15
    case DateReplacement => 16
    case DoneBy => 17
  }

  lemma ColumnIndexOf(k: nat)
    requires k < |AssetColumns|
    ensures ColumnIndex(AssetColumns[k]) == k
  {
    FieldsDistinct();
  }

  /** The scan of an exported row after its first `n` columns: no error, the ids of the
      lookup columns already passed, and the non-empty texts of the copy columns passed. */
  predicate ScannedUpTo(s: Scan, a: SheetAsset, n: nat) {
    && s.errors == []
    && s.draft.typeId == (if n > 1 then Some(a.typeId) else None)
    && s.draft.statusId == (if n > 8 then Some(a.statusId) else None)
    && forall f :: Field(s.draft, f) ==
         if ColumnIndex(f) < n && !IsLookup(f) && TextOf(a, f) != "" then Some(TextOf(a, f)) else None
  }

  /** Each header of the column map finds its own field. */
  lemma ColumnFieldAt(k: nat)
    requires k < |AssetColumns|
    ensures ColumnField(Some(Header(AssetColumns[k]))) == Some(AssetColumns[k])
  {
    HeaderInjective();
  }

  lemma {:induction false} ScanExportRow(a: SheetAsset, cats: seq<CatalogEntry>, stats: seq<CatalogEntry>, n: nat)
    requires Exportable(a, cats, stats)
    requires n <= |AssetColumns|
    ensures ScannedUpTo(ScanRow(HeaderRow(), ExportRow(a, cats, stats), cats, stats, n), a, n)
  {
    if n > 0 {
      ScanExportRow(a, cats, stats, n - 1);
      var row := ExportRow(a, cats, stats);
      assert CellAt(row, n - 1) == Some(ExportCell(a, AssetColumns[n - 1], cats, stats));
      assert HeaderRow()[n - 1] == Some(Header(AssetColumns[n - 1]));
      ScanExportColumn(ScanRow(HeaderRow(), row, cats, stats, n - 1), a, cats, stats, n - 1);
    }
  }

  /** Visiting column `k` of an exported row extends the scan by that column. */
  lemma ScanExportColumn(s: Scan, a: SheetAsset, cats: seq<CatalogEntry>, stats: seq<CatalogEntry>, k: nat)
    requires Exportable(a, cats, stats)
    requires k < |AssetColumns| && ScannedUpTo(s, a, k)
    ensures ScannedUpTo(ApplyColumn(s, Some(Header(AssetColumns[k])), Some(ExportCell(a, AssetColumns[k], cats, stats)), cats, stats), a, k + 1)
  {
    if k == 1 {
      ScanTypeColumn(s, a, cats, stats);
    } else if k == 8 {
      ScanStatusColumn(s, a, cats, stats);
    } else {
      ScanCopyColumn(s, a, cats, stats, k);
    }
  }

  lemma ScanTypeColumn(s: Scan, a: SheetAsset, cats: seq<CatalogEntry>, stats: seq<CatalogEntry>)
    requires Exportable(a, cats, stats) && ScannedUpTo(s, a, 1)
    ensures ScannedUpTo(ApplyColumn(s, Some(Header(AssetColumns[1])), Some(ExportCell(a, AssetColumns[1], cats, stats)), cats, stats), a, 2)
  {
    ColumnFieldAt(1);
    LookupStep(s, a, 1, AssetType);
  }

  lemma ScanStatusColumn(s: Scan, a: SheetAsset, cats: seq<CatalogEntry>, stats: seq<CatalogEntry>)
    requires Exportable(a, cats, stats) && ScannedUpTo(s, a, 8)
    ensures ScannedUpTo(ApplyColumn(s, Some(Header(AssetColumns[8])), Some(ExportCell(a, AssetColumns[8], cats, stats)), cats, stats), a, 9)
  {
    ColumnFieldAt(8);
    LookupStep(s, a, 8, Status);
  }

  lemma ScanCopyColumn(s: Scan, a: SheetAsset, cats: seq<CatalogEntry>, stats: seq<CatalogEntry>, k: nat)
    requires k < |AssetColumns| && k != 1 && k != 8 && ScannedUpTo(s, a, k)
    ensures ScannedUpTo(ApplyColumn(s, Some(Header(AssetColumns[k])), Some(ExportCell(a, AssetColumns[k], cats, stats)), cats, stats), a, k + 1)
  {
    ColumnFieldAt(k);
    ColumnIndexOf(k);
    var f := AssetColumns[k];
    assert !IsLookup(f);
    assert ExportCell(a, f, cats, stats) == TextOf(a, f);
    CopyStep(s, a, k, f);
  }

  /** Copying the text of column `k` extends the scan by that column. */
  lemma CopyStep(s: Scan, a: SheetAsset, k: nat, f: FieldName)
    requires ColumnIndex(f) == k && !IsLookup(f) && ScannedUpTo(s, a, k)
    ensures var v := Some(TextOf(a, f));
      ScannedUpTo(s.(draft := s.draft.(fields := s.draft.fields[f := if Truthy(v) then v else None])), a, k + 1)
  {
    var v := Some(TextOf(a, f));
    var r := s.(draft := s.draft.(fields := s.draft.fields[f := if Truthy(v) then v else None]));
    forall g
      ensures Field(r.draft, g) ==
        if ColumnIndex(g) < k + 1 && !IsLookup(g) && TextOf(a, g) != "" then Some(TextOf(a, g)) else None
    {
      if g != f {
        assert AssetColumns[ColumnIndex(g)] == g && AssetColumns[k] == f;
      }
    }
  }

  /** A lookup column passed leaves the copied fields as they were. */
  lemma LookupStep(s: Scan, a: SheetAsset, k: nat, f: FieldName)
    requires ColumnIndex(f) == k && IsLookup(f) && ScannedUpTo(s, a, k)
    ensures forall g ::
      Field(s.draft, g) == if ColumnIndex(g) < k + 1 && !IsLookup(g) && TextOf(a, g) != "" then Some(TextOf(a, g)) else None
  {
    forall g
      ensures Field(s.draft, g) ==
        if ColumnIndex(g) < k + 1 && !IsLookup(g) && TextOf(a, g) != "" then Some(TextOf(a, g)) else None
    {
      if g != f {
        assert AssetColumns[ColumnIndex(g)] == g && AssetColumns[k] == f;
      }
    }
  }

  /** One exported row is read back as its asset, with no error, and with no warning
      when its formats are clean. */
  lemma ImportExportedRow(a: SheetAsset, cats: seq<CatalogEntry>, stats: seq<CatalogEntry>)
    requires Exportable(a, cats, stats)
    ensures var o := ProcessRow(HeaderRow(), ExportRow(a, cats, stats), cats, stats);
      && o.errors == [] && o.asset.Some? && ReadBack(o.asset.value, a)
      && (CleanFormats(a) ==> o.warnings == [])
  {
    var row := ExportRow(a, cats, stats);
    assert row[0] == Some(TextOf(a, AssetCode));
    ScanExportRow(a, cats, stats, |AssetColumns|);
    var d := ScanRow(HeaderRow(), row, cats, stats, |AssetColumns|).draft;
    ScannedFields(a, d);
    ExportedRequired(a, cats, stats, d);
    KeptRow(HeaderRow(), row, cats, stats);
    CheckExported(a, d);
  }

  /** A row that is not blank and lacks no required value is kept, with its formats checked. */
  lemma KeptRow(headers: Row, row: Row, cats: seq<CatalogEntry>, stats: seq<CatalogEntry>)
    requires |row| > 0 && Truthy(row[0])
    requires MissingRequired(ScanRow(headers, row, cats, stats, |headers|).draft).None?
    ensures var s := ScanRow(headers, row, cats, stats, |headers|);
      var o := ProcessRow(headers, row, cats, stats);
      && o.errors == s.errors
      && o.warnings == CheckFormats(s.draft).warnings
      && o.asset == Some(CheckFormats(s.draft).draft)
  {
  }

  /** The draft scanned from an exported row lacks no required value. */
  lemma ExportedRequired(a: SheetAsset, cats: seq<CatalogEntry>, stats: seq<CatalogEntry>, d: Draft)
    requires Exportable(a, cats, stats)
    requires d.typeId == Some(a.typeId) && d.statusId == Some(a.statusId)
    requires forall f :: Field(d, f) == if !IsLookup(f) && TextOf(a, f) != "" then Some(TextOf(a, f)) else None
    ensures MissingRequired(d).None?
  {
    assert Field(d, AssetCode) == Some(TextOf(a, AssetCode));
    assert Field(d, SerialNumber) == Some(TextOf(a, SerialNumber));
    assert Field(d, LocationRegion) == Some(TextOf(a, LocationRegion));
  }

  /** After the last column every copied field holds its non-empty text. */
  lemma ScannedFields(a: SheetAsset, d: Draft)
    requires ScannedUpTo(Scan(d, []), a, |AssetColumns|)
    ensures forall f :: Field(d, f) == if !IsLookup(f) && TextOf(a, f) != "" then Some(TextOf(a, f)) else None
  {
  }

  lemma CheckExported(a: SheetAsset, d: Draft)
    requires d.typeId == Some(a.typeId) && d.statusId == Some(a.statusId)
    requires forall f :: Field(d, f) == if !IsLookup(f) && TextOf(a, f) != "" then Some(TextOf(a, f)) else None
    ensures ReadBack(CheckFormats(d).draft, a)
    ensures CleanFormats(a) ==> CheckFormats(d).warnings == []
  {
    var c := CheckFormats(d).draft;
    CheckFormatsDates(d);
    forall f
      ensures Field(c, f) == Restored(a, f)
    {
      assert Field(d, f) == if !IsLookup(f) && TextOf(a, f) != "" then Some(TextOf(a, f)) else None;
    }
    if CleanFormats(a) {
      assert Field(d, IpLocation) == if TextOf(a, IpLocation) != "" then Some(TextOf(a, IpLocation)) else None;
      forall f | f in DateFields
        ensures Truthy(Field(d, f)) ==> IsIsoDate(Field(d, f).value)
      {
        assert Field(d, f) == if TextOf(a, f) != "" then Some(TextOf(a, f)) else None;
      }
    }
  }

  lemma ImportExportedRows(assets: seq<SheetAsset>, cats: seq<CatalogEntry>, stats: seq<CatalogEntry>)
    requires forall i | 0 <= i < |assets| :: Exportable(assets[i], cats, stats)
    ensures var b := ProcessRows(HeaderRow(), ExportRows(assets, cats, stats), cats, stats);
      && b.errors == []
      && |b.assets| == |assets|
      && (forall i | 0 <= i < |assets| :: ReadBack(b.assets[i], assets[i]))
  {
    var os := Outcomes(HeaderRow(), ExportRows(assets, cats, stats), cats, stats);
    forall j | 0 <= j < |assets|
      ensures os[j].errors == [] && os[j].asset.Some? && ReadBack(os[j].asset.value, assets[j])
    {
      ImportExportedRow(assets[j], cats, stats);
    }
    CollectAccepted(os);
  }

  /** Exported rows with clean addresses and dates give no warning. */
  lemma ExportedRowsClean(assets: seq<SheetAsset>, cats: seq<CatalogEntry>, stats: seq<CatalogEntry>)
    requires forall i | 0 <= i < |assets| :: Exportable(assets[i], cats, stats) && CleanFormats(assets[i])
    ensures ProcessRows(HeaderRow(), ExportRows(assets, cats, stats), cats, stats).warnings == []
  {
    var os := Outcomes(HeaderRow(), ExportRows(assets, cats, stats), cats, stats);
    forall j | 0 <= j < |assets|
      ensures os[j].warnings == []
    {
      ImportExportedRow(assets[j], cats, stats);
    }
    CollectQuiet(os);
  }

  /** Export then import gives back every asset: the import succeeds with one draft per
      asset, holding its ids and its non-empty texts (dates only when well formed), and
      without warnings when the addresses and dates were clean. */
  lemma ExportImportRoundTrip(assets: seq<SheetAsset>, cats: seq<CatalogEntry>, stats: seq<CatalogEntry>)
    requires assets != []
    requires forall i | 0 <= i < |assets| :: Exportable(assets[i], cats, stats)
    ensures var r := Import(ExportSheet(assets, cats, stats), cats, stats);
      && r.success && r.errors.None?
      && r.data.Some? && |r.data.value| == |assets|
      && (forall i | 0 <= i < |assets| :: ReadBack(r.data.value[i], assets[i]))
      && ((forall i | 0 <= i < |assets| :: CleanFormats(assets[i])) ==> r.warnings.None?)
  {
    var sheet := ExportSheet(assets, cats, stats);
    ExportHeaderComplete();
    assert sheet[0] == HeaderRow();
    assert sheet[1..] == ExportRows(assets, cats, stats);
    ImportExportedRows(assets, cats, stats);
    ImportAccepts(sheet, cats, stats);
    var b := ProcessRows(HeaderRow(), ExportRows(assets, cats, stats), cats, stats);
    assert Import(sheet, cats, stats).data.value == b.assets;
    if forall i | 0 <= i < |assets| :: CleanFormats(assets[i]) {
      ExportedRowsClean(assets, cats, stats);
    }
  }

  /** A sheet whose rows raise no error is accepted with the rows' assets, and with no
      warnings when the rows raised none. */
  lemma ImportAccepts(sheet: seq<Row>, cats: seq<CatalogEntry>, stats: seq<CatalogEntry>)
    requires |sheet| >= 2 && MissingHeaders(sheet[0]) == []
    requires ProcessRows(sheet[0], sheet[1..], cats, stats).errors == []
    ensures var r := Import(sheet, cats, stats);
      var b := ProcessRows(sheet[0], sheet[1..], cats, stats);
      && r.success && r.errors.None? && r.data == Some(b.assets)
      && (b.warnings == [] ==> r.warnings.None?)
  {
  }

  // ---------------------------------------------------------------- lookups

  /** Later columns never withdraw a problem an earlier column reported. */
  lemma ScanErrorsGrow(headers: Row, row: Row, cats: seq<CatalogEntry>, stats: seq<CatalogEntry>, m: nat, n: nat)
    requires m <= n <= |headers|
    ensures ScanRow(headers, row, cats, stats, m).errors <= ScanRow(headers, row, cats, stats, n).errors
  {
    var es := ScanTrace(headers, row, cats, stats, |headers|);
    forall k | 0 < k < |es|
      ensures es[k - 1] <= es[k]
    {
      ScanStep(headers, row, cats, stats, k);
    }
    ChainPrefix(es, m, n);
  }

  /** The problems after each of the first `n` + 1 column counts. */
  function ScanTrace(headers: Row, row: Row, cats: seq<CatalogEntry>, stats: seq<CatalogEntry>, n: nat): (es: seq<seq<Problem>>)
    requires n <= |headers|
    ensures |es| == n + 1
    ensures forall k | 0 <= k <= n :: es[k] == ScanRow(headers, row, cats, stats, k).errors
  {
    if n == 0 then [[]] else ScanTrace(headers, row, cats, stats, n - 1) + [ScanRow(headers, row, cats, stats, n).errors]
  }

  lemma {:induction false} ChainPrefix<T>(es: seq<seq<T>>, m: nat, n: nat)
    requires m <= n < |es|
    requires forall k | 0 < k < |es| :: es[k - 1] <= es[k]
    ensures es[m] <= es[n]
    decreases n
  {
    if m < n {
      ChainPrefix(es, m, n - 1);
      PrefixTrans(es[m], es[n - 1], es[n]);
    }
  }

  /** One more column never withdraws a problem. */
  lemma ScanStep(headers: Row, row: Row, cats: seq<CatalogEntry>, stats: seq<CatalogEntry>, n: nat)
    requires 0 < n <= |headers|
    ensures ScanRow(headers, row, cats, stats, n - 1).errors <= ScanRow(headers, row, cats, stats, n).errors
  {
    var prev := ScanRow(headers, row, cats, stats, n - 1);
    assert ScanRow(headers, row, cats, stats, n) == ApplyColumn(prev, headers[n - 1], CellAt(row, n - 1), cats, stats);
  }

  lemma PrefixTrans<T>(a: seq<T>, b: seq<T>, c: seq<T>)
    requires a <= b && b <= c
    ensures a <= c
  {
    assert c[..|b|][..|a|] == c[..|a|];
  }

  lemma ProcessRowKeepsScanErrors(headers: Row, row: Row, cats: seq<CatalogEntry>, stats: seq<CatalogEntry>)
    requires !BlankRow(row)
    ensures ScanRow(headers, row, cats, stats, |headers|).errors <= ProcessRow(headers, row, cats, stats).errors
  {
  }

  lemma BatchReportsRow(headers: Row, rows: seq<Row>, cats: seq<CatalogEntry>, stats: seq<CatalogEntry>, j: nat, row: Row, p: Problem)
    requires j < |rows| && rows[j] == row
    requires p in ProcessRow(headers, row, cats, stats).errors
    ensures AtRow(j + 2, p) in ProcessRows(headers, rows, cats, stats).errors
  {
    CollectReports(Outcomes(headers, rows, cats, stats), j, p);
  }

  lemma ScanReportsLookup(headers: Row, row: Row, cats: seq<CatalogEntry>, stats: seq<CatalogEntry>, c: nat)
    requires c < |headers|
    requires headers[c] == Some("Asset Type") || headers[c] == Some("Status")
    requires Truthy(CellAt(row, c))
    requires FindByName(if headers[c] == Some("Asset Type") then cats else stats, CellAt(row, c)).None?
    ensures var v := CellAt(row, c).value;
      (if headers[c] == Some("Asset Type") then InvalidType(v) else InvalidStatus(v))
        in ScanRow(headers, row, cats, stats, c + 1).errors
  {
    if headers[c] == Some("Asset Type") {
      ScanReportsType(headers, row, cats, stats, c);
    } else {
      ScanReportsStatus(headers, row, cats, stats, c);
    }
  }

  lemma ScanReportsType(headers: Row, row: Row, cats: seq<CatalogEntry>, stats: seq<CatalogEntry>, c: nat)
    requires c < |headers| && headers[c] == Some("Asset Type")
    requires Truthy(CellAt(row, c)) && FindByName(cats, CellAt(row, c)).None?
    ensures InvalidType(CellAt(row, c).value) in ScanRow(headers, row, cats, stats, c + 1).errors
  {
    ColumnFieldOf(AssetType);
    var prev := ScanRow(headers, row, cats, stats, c);
    assert ScanRow(headers, row, cats, stats, c + 1) == ApplyColumn(prev, headers[c], CellAt(row, c), cats, stats);
  }

  lemma ScanReportsStatus(headers: Row, row: Row, cats: seq<CatalogEntry>, stats: seq<CatalogEntry>, c: nat)
    requires c < |headers| && headers[c] == Some("Status")
    requires Truthy(CellAt(row, c)) && FindByName(stats, CellAt(row, c)).None?
    ensures InvalidStatus(CellAt(row, c).value) in ScanRow(headers, row, cats, stats, c + 1).errors
  {
    ColumnFieldOf(Status);
    var prev := ScanRow(headers, row, cats, stats, c);
    assert ScanRow(headers, row, cats, stats, c + 1) == ApplyColumn(prev, headers[c], CellAt(row, c), cats, stats);
  }

  /** Each header finds its own field. */
  lemma ColumnFieldOf(f: FieldName)
    ensures ColumnField(Some(Header(f))) == Some(f)
  {
    HeaderInjective();
  }

  /** Past the two whole-sheet checks, the import reports exactly what the row pass found. */
  lemma ImportOfRows(sheet: seq<Row>, cats: seq<CatalogEntry>, stats: seq<CatalogEntry>)
    requires |sheet| >= 2 && MissingHeaders(sheet[0]) == []
    ensures var b := ProcessRows(sheet[0], sheet[1..], cats, stats);
      Import(sheet, cats, stats) ==
        if b.errors != [] then ImportResult(false, None, Some(b.errors), Some(b.warnings))
        else ImportResult(true, Some(b.assets), None, if b.warnings == [] then None else Some(b.warnings))
  {
  }

  /** A non-empty lookup cell that names no catalog entry fails the whole import, with
      an error for that row, whatever the other cells hold. */
  lemma UnknownLookupRejects(sheet: seq<Row>, cats: seq<CatalogEntry>, stats: seq<CatalogEntry>, i: nat, c: nat)
    requires |sheet| >= 2 && MissingHeaders(sheet[0]) == []
    requires 1 <= i < |sheet| && c < |sheet[0]|
    requires sheet[0][c] == Some("Asset Type") || sheet[0][c] == Some("Status")
    requires Truthy(CellAt(sheet[i], c))
    requires FindByName(if sheet[0][c] == Some("Asset Type") then cats else stats, CellAt(sheet[i], c)).None?
    ensures var r := Import(sheet, cats, stats);
      var v := CellAt(sheet[i], c).value;
      && !r.success
      && AtRow(i + 1, if sheet[0][c] == Some("Asset Type") then InvalidType(v) else InvalidStatus(v)) in r.errors.value
  {
    var headers := sheet[0];
    var v := CellAt(sheet[i], c).value;
    var p := if headers[c] == Some("Asset Type") then InvalidType(v) else InvalidStatus(v);
    RowReportsLookup(headers, sheet[i], cats, stats, c);
    SheetReportsRow(sheet, cats, stats, i, p);
  }

  /** An error of a data row fails the import and is reported with that row's number. */
  lemma SheetReportsRow(sheet: seq<Row>, cats: seq<CatalogEntry>, stats: seq<CatalogEntry>, i: nat, p: Problem)
    requires |sheet| >= 2 && MissingHeaders(sheet[0]) == []
    requires 1 <= i < |sheet|
    requires p in ProcessRow(sheet[0], sheet[i], cats, stats).errors
    ensures var r := Import(sheet, cats, stats);
      !r.success && r.errors.Some? && AtRow(i + 1, p) in r.errors.value
  {
    SheetRowInBatch(sheet, cats, stats, i, p);
    ImportReportsBatch(sheet, cats, stats, AtRow(i + 1, p));
  }

  lemma SheetRowInBatch(sheet: seq<Row>, cats: seq<CatalogEntry>, stats: seq<CatalogEntry>, i: nat, p: Problem)
    requires 1 <= i < |sheet|
    requires p in ProcessRow(sheet[0], sheet[i], cats, stats).errors
    ensures AtRow(i + 1, p) in ProcessRows(sheet[0], sheet[1..], cats, stats).errors
  {
    assert sheet[1..][i - 1] == sheet[i];
    BatchReportsRow(sheet[0], sheet[1..], cats, stats, i - 1, sheet[i], p);
  }

  /** Past the whole-sheet checks, an error of the row pass fails the import and is reported. */
  lemma ImportReportsBatch(sheet: seq<Row>, cats: seq<CatalogEntry>, stats: seq<CatalogEntry>, m: Message)
    requires |sheet| >= 2 && MissingHeaders(sheet[0]) == []
    requires m in ProcessRows(sheet[0], sheet[1..], cats, stats).errors
    ensures var r := Import(sheet, cats, stats);
      !r.success && r.errors.Some? && m in r.errors.value
  {
  }

  /** A non-empty lookup cell that names no catalog entry is an error of its row. */
  lemma RowReportsLookup(headers: Row, row: Row, cats: seq<CatalogEntry>, stats: seq<CatalogEntry>, c: nat)
    requires c < |headers|
    requires headers[c] == Some("Asset Type") || headers[c] == Some("Status")
    requires Truthy(CellAt(row, c))
    requires FindByName(if headers[c] == Some("Asset Type") then cats else stats, CellAt(row, c)).None?
    ensures var v := CellAt(row, c).value;
      (if headers[c] == Some("Asset Type") then InvalidType(v) else InvalidStatus(v))
        in ProcessRow(headers, row, cats, stats).errors
  {
    ScanReportsLookup(headers, row, cats, stats, c);
    ScanErrorsGrow(headers, row, cats, stats, c + 1, |headers|);
    assert row[c] == CellAt(row, c);
    ProcessRowKeepsScanErrors(headers, row, cats, stats);
  }

  // ---------------------------------------------------------------- formats and messages

  /** The octet pattern accepts exactly the one to three digit strings whose value is
      at most 255 (leading zeros allowed). */
  lemma OctetIsByte(s: string)
    ensures OctetSyntax(s) <==> 1 <= |s| <= 3 && AllDigits(s) && Value(s) <= 255
  {
    if 1 <= |s| <= 3 && AllDigits(s) {
      var d0 := s[0] as int - '0' as int;
      if |s| == 1 {
        assert s[..0] == [];
        assert Value(s) == d0;
      } else if |s| == 2 {
        var d1 := s[1] as int - '0' as int;
        assert s[..1][..0] == [];
        assert Value(s[..1]) == d0;
        assert Value(s) == 10 * d0 + d1;
      } else {
        var d1 := s[1] as int - '0' as int;
        var d2 := s[2] as int - '0' as int;
        assert s[..2][..1] == s[..1];
        assert s[..1][..0] == [];
        assert Value(s[..1]) == d0;
        assert Value(s[..2]) == 10 * d0 + d1;
        assert Value(s) == 100 * d0 + 10 * d1 + d2;
      }
    }
  }

  function ProblemText(p: Problem): string {
    match p
    case InvalidType(v) => "Invalid asset type \"" + v + "\""
    case InvalidStatus(v) => "Invalid status \"" + v + "\""
    case CodeRequired => "Asset Code is required"
    case SerialRequired => "Serial Number is required"
    case LocationRequired => "Location/Region is required"
    case TypeRequired => "Valid Asset Type is required"
    case StatusRequired => "Valid Status is required"
    case BadIp(v) => "Invalid IP address format \"" + v + "\""
    case BadDeliveredDate => "Invalid date format for \"Date Delivered\". Use YYYY-MM-DD format."
    case BadReplacementDate => "Invalid date format for \"Replacement Date\". Use YYYY-MM-DD format."
  }

  /** The text shown for a message. */
  function Text(m: Message): string {
    match m
    case TooFewRows => "Excel file must contain " + "at least a header row and one data row"
    case MissingColumns(cs) => "Missing required columns: " + Join(cs, ", ")
    case AtRow(n, p) => "Row " + Digits(n) + ": " + ProblemText(p)
  }

  /** The longest prefix of decimal digits. */
  function LeadingDigits(s: string): (d: string)
    ensures AllDigits(d) && d <= s
  {
    if s != [] && IsDigit(s[0]) then [s[0]] + LeadingDigits(s[1..]) else []
  }

  /** The row number a message text starts with, if it starts with one. */
  function RowLabel(t: string): Option<nat> {
    if StartsWith(t, "Row ") && LeadingDigits(t[4..]) != [] then Some(Value(LeadingDigits(t[4..]))) else None
  }

  lemma {:induction false} LeadingDigitsOf(ds: string, rest: string)
    requires AllDigits(ds)
    requires rest == [] || !IsDigit(rest[0])
    ensures LeadingDigits(ds + rest) == ds
  {
    if ds != [] {
      assert (ds + rest)[1..] == ds[1..] + rest;
      LeadingDigitsOf(ds[1..], rest);
    } else {
      assert ds + rest == rest;
    }
  }

  lemma NotRowLabelled(t: string)
    requires |t| >= 4 && t[0] != 'R'
    ensures RowLabel(t) == None
  {
    assert t[..4][0] != "Row "[0];
  }

  /** Exactly the row messages carry a row label, and it reads back as their row number. */
  lemma RowLabelRoundTrip(m: Message)
    ensures RowLabel(Text(m)) == if m.AtRow? then Some(m.row) else None
  {
    match m
    case TooFewRows =>
      var t := "Excel file must contain " + "at least a header row and one data row";
      assert t[0] == 'E';
      NotRowLabelled(t);
    case MissingColumns(cs) =>
      var t := "Missing required columns: " + Join(cs, ", ");
      assert t[0] == 'M';
      NotRowLabelled(t);
    case AtRow(n, p) =>
      AtRowLabel(n, ProblemText(p));
  }

  lemma AtRowLabel(n: nat, text: string)
    ensures RowLabel("Row " + Digits(n) + ": " + text) == Some(n)
  {
    var ds := Digits(n);
    var rest := ": " + text;
    var t := "Row " + Digits(n) + ": " + text;
    assert t == "Row " + (ds + rest);
    assert t[..4] == "Row ";
    assert t[4..] == ds + rest;
    LeadingDigitsOf(ds, rest);
    ValueOfDigits(n);
  }
}

=== FILE: sheet_template.dfy ===
/** The downloadable import template of the asset-management web page: the header
    row and one sample row, which a user fills in and imports. */
module SheetTemplate {
  import opened Common
  import opened SheetImport

  /** The import template: the header row and one sample row naming the first category
      and status (or "Laptop" and "Active" when there is none). */
  function TemplateSheet(cats: seq<CatalogEntry>, stats: seq<CatalogEntry>): seq<Row> {
    var category := if |cats| > 0 && cats[0].name != "" then cats[0].name else "Laptop";
    var status := if |stats| > 0 && stats[0].name != "" then stats[0].name else "Active";
    [HeaderRow(), SampleRow(category, status)]
  }

  /** The template's sample row, with the given category and status names. */
  function SampleRow(category: string, status: string): Row {
    [Some("LAP-001"), Some(category), Some("SN123456789"), Some("HOSTNAME-001"), Some("PO-2024-001"),
     Some("Jakarta"), Some("John Doe"), Some("IT Department"), Some(status), Some("Sample remark"),
     Some("192.168.1.100"), Some(""), Some("2024-01-15"), Some("TKT-001"), Some("Tech John"),
     Some(""), Some(""), Some("Tech John")]
  }

  /** The texts of the template's sample row. */
  function SampleText(f: FieldName): string {
    match f
    case AssetCode => "LAP-001"
    case SerialNumber => "SN123456789"
    case Hostname => "HOSTNAME-001"
    case NomorPo => "PO-2024-001"
    case LocationRegion => "Jakarta"
    case UserNow => "John Doe"
    case OfficeNow => "IT Department"
    case Remark => "Sample remark"
    case IpLocation => "192.168.1.100"
    case DateDeliverToUser => "2024-01-15"
    case TicketNumber => "TKT-001"
    case InstalledBy => "Tech John"
    case DoneBy => "Tech John"
    case _ => ""
  }

  /** The asset the template's sample row describes. */
  function SampleAsset(typeId: int, statusId: int): SheetAsset {
    SheetAsset(typeId, statusId, SampleText)
  }

  lemma SampleAddressValid()
    ensures IsIpv4(SampleText(IpLocation))
  {
    assert DotsAt("192.168.1.100", 3, 7, 9);
  }

  lemma SampleDateValid()
    ensures IsIsoDate(SampleText(DateDeliverToUser))
  {
  }

  lemma SampleAddressClean(typeId: int, statusId: int)
    ensures IsIpv4(TextOf(SampleAsset(typeId, statusId), IpLocation))
  {
    assert TextOf(SampleAsset(typeId, statusId), IpLocation) == SampleText(IpLocation);
    SampleAddressValid();
  }

  lemma SampleDatesClean(typeId: int, statusId: int)
    ensures forall f | f in DateFields ::
      TextOf(SampleAsset(typeId, statusId), f) == "" || IsIsoDate(TextOf(SampleAsset(typeId, statusId), f))
  {
    SampleDateValid();
    assert SampleText(DateReplacement) == "";
  }

  lemma SampleIsClean(typeId: int, statusId: int)
    ensures CleanFormats(SampleAsset(typeId, statusId))
  {
    SampleAddressClean(typeId, statusId);
    SampleDatesClean(typeId, statusId);
  }

  /** A first entry with a non-empty name and a non-zero id resolves. */
  lemma FirstEntryResolves(entries: seq<CatalogEntry>)
    requires |entries| > 0 && entries[0].name != "" && entries[0].id != 0
    ensures NameOf(entries, entries[0].id) == entries[0].name
    ensures Resolves(entries, entries[0].id)
  {
  }

  lemma TemplateIsExport(cats: seq<CatalogEntry>, stats: seq<CatalogEntry>)
    requires |cats| > 0 && cats[0].name != "" && cats[0].id != 0
    requires |stats| > 0 && stats[0].name != "" && stats[0].id != 0
    ensures TemplateSheet(cats, stats) == ExportSheet([SampleAsset(cats[0].id, stats[0].id)], cats, stats)
  {
    var a := SampleAsset(cats[0].id, stats[0].id);
    FirstEntryResolves(cats);
    FirstEntryResolves(stats);
    SampleRowIsExport(cats, stats, cats[0].id, stats[0].id);
    assert ExportRows([a], cats, stats) == [ExportRow(a, cats, stats)];
  }

  /** The sample row is the row an export writes for the sample asset. */
  lemma SampleRowIsExport(cats: seq<CatalogEntry>, stats: seq<CatalogEntry>, typeId: int, statusId: int)
    ensures SampleRow(NameOf(cats, typeId), NameOf(stats, statusId)) == ExportRow(SampleAsset(typeId, statusId), cats, stats)
  {
    SampleCellsFront(cats, stats, typeId, statusId);
    SampleCellsBack(cats, stats, typeId, statusId);
  }

  lemma SampleCellsFront(cats: seq<CatalogEntry>, stats: seq<CatalogEntry>, typeId: int, statusId: int)
    ensures var r := SampleRow(NameOf(cats, typeId), NameOf(stats, statusId));
      var e := ExportRow(SampleAsset(typeId, statusId), cats, stats);
      forall k | 0 <= k < 9 :: r[k] == e[k]
  {
  }

  lemma SampleCellsBack(cats: seq<CatalogEntry>, stats: seq<CatalogEntry>, typeId: int, statusId: int)
    ensures var r := SampleRow(NameOf(cats, typeId), NameOf(stats, statusId));
      var e := ExportRow(SampleAsset(typeId, statusId), cats, stats);
      forall k | 9 <= k < 18 :: r[k] == e[k]
  {
  }

  lemma SampleExportable(cats: seq<CatalogEntry>, stats: seq<CatalogEntry>)
    requires |cats| > 0 && cats[0].name != "" && cats[0].id != 0
    requires |stats| > 0 && stats[0].name != "" && stats[0].id != 0
    ensures Exportable(SampleAsset(cats[0].id, stats[0].id), cats, stats)
  {
    FirstEntryResolves(cats);
    FirstEntryResolves(stats);
  }

  /** The template, filled in with a catalog whose first category and status have names
      and ids, imports cleanly: one asset, no errors, no warnings. */
  lemma TemplateImports(cats: seq<CatalogEntry>, stats: seq<CatalogEntry>)
    requires |cats| > 0 && cats[0].name != "" && cats[0].id != 0
    requires |stats| > 0 && stats[0].name != "" && stats[0].id != 0
    ensures var r := Import(TemplateSheet(cats, stats), cats, stats);
      && r.success && r.errors.None? && r.warnings.None?
      && r.data.Some? && |r.data.value| == 1 && ReadBack(r.data.value[0], SampleAsset(cats[0].id, stats[0].id))
  {
    TemplateIsExport(cats, stats);
    ExportedSampleImports(cats, stats);
  }

  /** The export of the sample asset alone imports back as that asset. */
  lemma ExportedSampleImports(cats: seq<CatalogEntry>, stats: seq<CatalogEntry>)
    requires |cats| > 0 && cats[0].name != "" && cats[0].id != 0
    requires |stats| > 0 && stats[0].name != "" && stats[0].id != 0
    ensures var a := SampleAsset(cats[0].id, stats[0].id);
      var r := Import(ExportSheet([a], cats, stats), cats, stats);
      && r.success && r.errors.None? && r.warnings.None?
      && r.data.Some? && |r.data.value| == 1 && ReadBack(r.data.value[0], a)
  {
    var a := SampleAsset(cats[0].id, stats[0].id);
    SampleExportable(cats, stats);
    SampleIsClean(cats[0].id, stats[0].id);
    ExportImportRoundTrip([a], cats, stats);
  }

  lemma TemplateShape(cats: seq<CatalogEntry>, stats: seq<CatalogEntry>)
    ensures var t := TemplateSheet(cats, stats);
      && |t| == 2 && t[0] == HeaderRow() && |t[0]| == |AssetColumns| && t[0][1] == Some("Asset Type")
      && CellAt(t[1], 1) == Some(if |cats| > 0 && cats[0].name != "" then cats[0].name else "Laptop")
  {
  }

  /** With no category at all, the template's own sample row is rejected. */
  lemma TemplateNeedsCategories(stats: seq<CatalogEntry>)
    ensures var r := Import(TemplateSheet([], stats), [], stats);
      !r.success && AtRow(2, InvalidType("Laptop")) in r.errors.value
  {
    TemplateShape([], stats);
    ExportHeaderComplete();
    UnknownLookupRejects(TemplateSheet([], stats), [], stats, 1, 1);
  }
}

=== FILE: tickets.dfy ===
/** Help-desk tickets of the backend API: creation with a numbered ticket, validated
    updates that stamp the completion time, deletion, comments, attachments, and the
    dashboard counters. Times are Unix seconds. */
module Tickets {
  import opened Common

  const Priorities: set<string> := {"low", "medium", "high", "urgent"}
  const Statuses: set<string> := {"open", "in_progress", "completed", "cancelled", "on_hold"}

  /** A ticket row. The due date is kept as sent: an instant, or text the `date` rule let
      through because it was blank. */
  datatype Ticket = Ticket(
    id: nat, number: string, assetId: int, title: string, description: string,
    status: string, priority: string, assignedTechnician: Option<int>, createdBy: int,
    dueDate: Option<DateText>, category: Option<string>, notes: Option<string>,
    completedAt: Option<int>)

  datatype Comment = Comment(ticketId: nat, userId: int, text: string, isInternal: bool)

  datatype Attachment = Attachment(ticketId: nat, userId: int, filename: string, originalFilename: string, size: nat)

  /** The tables the controller touches, the ids the `exists` rules look up, and the
      ticket id counter. */
  datatype Desk = Desk(
    tickets: seq<Ticket>, comments: seq<Comment>, attachments: seq<Attachment>,
    assetIds: set<int>, userIds: set<int>, nextId: nat)

  datatype StoreRequest = StoreRequest(
    assetId: Input<int>, title: Input<string>, description: Input<string>, priority: Input<string>,
    assignedTechnician: Input<int>, dueDate: Input<DateText>, category: Input<string>, notes: Input<string>)

  /** The fields `update` mass-assigns: the validated ones, and the unvalidated asset,
      ticket number and completion time a client may also send. */
  datatype UpdateRequest = UpdateRequest(
    title: Input<string>, description: Input<string>, status: Input<string>, priority: Input<string>,
    assignedTechnician: Input<int>, dueDate: Input<DateText>, category: Input<string>, notes: Input<string>,
    assetId: Input<int>, number: Input<string>, completedAt: Input<int>)

  /** An uploaded file: the client's file name and the size in bytes. */
  datatype Upload = Upload(name: string, size: nat)

  datatype Response =
    | Created(ticket: Ticket)
    | Shown(ticket: Ticket)
    | Updated(ticket: Ticket)
    | Deleted
    | CommentAdded(comment: Comment)
    | AttachmentAdded(attachment: Attachment)
    | NotFound
    | Invalid
  {
    function Code(): int {
      match this
      case Created(_) => 201
      case NotFound => 404
      case Invalid => 422
      case _ => 200
    }
  }

  datatype Result = Result(response: Response, desk: Desk)

  // ---------------------------------------------------------------- validation

  /** `required|string|max:200`. */
  predicate TitleOk(t: Input<string>) {
    Filled(t) && |t.value| <= 200
  }

  /** `nullable|exists:users,id`. */
  predicate TechnicianOk(desk: Desk, a: Input<int>) {
    a.Given? ==> a.value in desk.userIds
  }

  predicate StoreValid(desk: Desk, req: StoreRequest) {
    && req.assetId.Given? && req.assetId.value in desk.assetIds
    && TitleOk(req.title)
    && Filled(req.description)
    && req.priority.Given? && req.priority.value in Priorities
    && TechnicianOk(desk, req.assignedTechnician)
    && NullableDate(req.dueDate)
  }

  /** `sometimes|required|…`: not sent, or sent and passing the rule. */
  predicate Sometimes(f: Input<string>, ok: string -> bool) {
    f.Absent? || (Filled(f) && ok(f.value))
  }

  predicate UpdateValid(desk: Desk, req: UpdateRequest) {
    && Sometimes(req.title, t => |t| <= 200)
    && Sometimes(req.description, _ => true)
    && Sometimes(req.status, s => s in Statuses)
    && Sometimes(req.priority, p => p in Priorities)
    && TechnicianOk(desk, req.assignedTechnician)
    && NullableDate(req.dueDate)
  }

  // ---------------------------------------------------------------- numbering

  /** `'TKT-' . date('Y') . '-' . str_pad(count + 1, 4, '0', STR_PAD_LEFT)`. */
  function TicketNumber(count: nat, year: nat): string {
    "TKT-" + Digits(year) + "-" + PadLeft(Digits(count + 1), 4, '0')
  }

  /** Reads the sequence number back out of a ticket number of the given year. */
  function SequenceOf(number: string, year: nat): Option<nat> {
    var prefix := "TKT-" + Digits(year) + "-";
    if StartsWith(number, prefix) && AllDigits(number[|prefix|..]) then Some(Value(number[|prefix|..]))
    else None
  }

  /** The number of a new ticket carries the year, at least four digits, and one more
      than the number of tickets already stored. */
  lemma TicketNumberRoundTrip(count: nat, year: nat)
    ensures SequenceOf(TicketNumber(count, year), year) == Some(count + 1)
    ensures |TicketNumber(count, year)| >= 4 + |Digits(year)| + 1 + 4
  {
    var prefix := "TKT-" + Digits(year) + "-";
    var tail := PadLeft(Digits(count + 1), 4, '0');
    var n := TicketNumber(count, year);
    assert n == prefix + tail;
    assert n[..|prefix|] == prefix;
    assert n[|prefix|..] == tail;
    ValueIgnoresZeroPadding(Digits(count + 1), 4);
    ValueOfDigits(count + 1);
  }

  // ---------------------------------------------------------------- actions

  function IndexOf(desk: Desk, id: int): (r: Option<nat>)
    ensures r.Some? ==> r.value < |desk.tickets| && desk.tickets[r.value].id == id
    ensures r.None? <==> forall j | 0 <= j < |desk.tickets| :: desk.tickets[j].id != id
  {
    FindFirst(desk.tickets, (t: Ticket) => t.id == id)
  }

  /** POST /tickets, in the calendar year `year`; `authId` is the authenticated user, if
      any. The sequence number counts the tickets already stored. */
  function Store(desk: Desk, req: StoreRequest, year: nat, authId: Option<int>): (r: Result)
    ensures r.response.Created? <==> StoreValid(desk, req)
    ensures !r.response.Created? ==> r == Result(Invalid, desk)
    ensures r.response.Created? ==>
      var t := r.response.ticket;
      && t.id == desk.nextId
      && t.number == TicketNumber(|desk.tickets|, year)
      && t.status == "open" && t.completedAt.None?
      && t.createdBy == (if authId.Some? then authId.value else 1)
      && t.assetId == req.assetId.value && t.priority in Priorities
      && t.title == req.title.value && |t.title| <= 200 && t.description == req.description.value
      && t.priority == req.priority.value
      && t.assignedTechnician == req.assignedTechnician.ToOption()
      && (t.assignedTechnician.Some? ==> t.assignedTechnician.value in desk.userIds)
      && t.dueDate == req.dueDate.ToOption() && t.category == req.category.ToOption()
      && t.notes == req.notes.ToOption()
      && r.desk == desk.(tickets := desk.tickets + [t], nextId := desk.nextId + 1)
  {
    if !StoreValid(desk, req) then Result(Invalid, desk)
    else
      var t := Ticket(
        desk.nextId, TicketNumber(|desk.tickets|, year), req.assetId.value, req.title.value,
        req.description.value, "open", req.priority.value, req.assignedTechnician.ToOption(),
        authId.GetOr(1), req.dueDate.ToOption(), req.category.ToOption(), req.notes.ToOption(), None);
      Result(Created(t), desk.(tickets := desk.tickets + [t], nextId := desk.nextId + 1))
  }

  function Show(desk: Desk, id: int): (r: Response)
    ensures r.NotFound? <==> IndexOf(desk, id).None?
    ensures r.Shown? ==> r.ticket in desk.tickets && r.ticket.id == id
  {
    match IndexOf(desk, id)
    case None => NotFound
    case Some(i) => Shown(desk.tickets[i])
  }

  /** The request moves the ticket into 'completed' from another status. */
  predicate Completes(t: Ticket, req: UpdateRequest) {
    req.status == Given("completed") && t.status != "completed"
  }

  /** The ticket after mass-assigning a validated update request at time `now`. A
      completion overrides any completion time the request sent. */
  function Apply(t: Ticket, req: UpdateRequest, now: int): Ticket {
    t.(number := req.number.Coalesce(t.number),
       assetId := req.assetId.Coalesce(t.assetId),
       title := req.title.Coalesce(t.title),
       description := req.description.Coalesce(t.description),
       status := req.status.Coalesce(t.status),
       priority := req.priority.Coalesce(t.priority),
       assignedTechnician := req.assignedTechnician.Merge(t.assignedTechnician),
       dueDate := req.dueDate.Merge(t.dueDate),
       category := req.category.Merge(t.category),
       notes := req.notes.Merge(t.notes),
       completedAt := if Completes(t, req) then Some(now) else req.completedAt.Merge(t.completedAt))
  }

  /** PUT /tickets/{id}. */
  function Update(desk: Desk, id: int, req: UpdateRequest, now: int): (r: Result)
    ensures r.response.NotFound? <==> IndexOf(desk, id).None?
    ensures r.response.Invalid? <==> IndexOf(desk, id).Some? && !UpdateValid(desk, req)
    ensures !r.response.Updated? ==> r.desk == desk
    ensures r.response.Updated? ==>
      var i := IndexOf(desk, id).value;
      && r.response.ticket == Apply(desk.tickets[i], req, now)
      && r.desk == desk.(tickets := desk.tickets[i := r.response.ticket])
  {
    match IndexOf(desk, id)
    case None => Result(NotFound, desk)
    case Some(i) =>
      if !UpdateValid(desk, req) then Result(Invalid, desk)
      else
        var t := Apply(desk.tickets[i], req, now);
        Result(Updated(t), desk.(tickets := desk.tickets[i := t]))
  }

  /** DELETE /tickets/{id}. */
  function Destroy(desk: Desk, id: int): (r: Result)
    ensures r.response.NotFound? <==> IndexOf(desk, id).None?
    ensures r.response.NotFound? ==> r.desk == desk
    ensures r.response.Deleted? ==>
      var i := IndexOf(desk, id).value;
      && |r.desk.tickets| == |desk.tickets| - 1
      && r.desk == desk.(tickets := desk.tickets[..i] + desk.tickets[i + 1..])
  {
    match IndexOf(desk, id)
    case None => Result(NotFound, desk)
    case Some(i) => Result(Deleted, desk.(tickets := desk.tickets[..i] + desk.tickets[i + 1..]))
  }

  /** POST /tickets/{id}/comments: `comment` is required; `is_internal`, when sent,
      must be a boolean (null fails the `boolean` rule) and otherwise defaults to false. */
  function AddComment(desk: Desk, id: int, text: Input<string>, isInternal: Input<bool>, authId: Option<int>): (r: Result)
    ensures r.response.NotFound? <==> IndexOf(desk, id).None?
    ensures r.response.Invalid? <==> IndexOf(desk, id).Some? && (!Filled(text) || isInternal.Null?)
    ensures !r.response.CommentAdded? ==> r.desk == desk
    ensures r.response.CommentAdded? ==>
      && r.response.comment.ticketId == id && r.response.comment.text == text.value
      && r.response.comment.isInternal == (isInternal == Given(true))
      && r.desk == desk.(comments := desk.comments + [r.response.comment])
  {
    match IndexOf(desk, id)
    case None => Result(NotFound, desk)
    case Some(i) =>
      if !Filled(text) || isInternal.Null? then Result(Invalid, desk)
      else
        var c := Comment(desk.tickets[i].id, authId.GetOr(1), text.value, isInternal.Coalesce(false));
        Result(CommentAdded(c), desk.(comments := desk.comments + [c]))
  }

  /** The largest upload `max:10240` admits: 10240 kilobytes. */
  const MaxUploadBytes: nat := 10240 * 1024

  /** POST /tickets/{id}/attachments: the stored name is the upload time, an
      underscore, and the client's file name. */
  function UploadAttachment(desk: Desk, id: int, file: Option<Upload>, authId: Option<int>, now: nat): (r: Result)
    ensures r.response.NotFound? <==> IndexOf(desk, id).None?
    ensures r.response.Invalid? <==> IndexOf(desk, id).Some? && (file.None? || file.value.size > MaxUploadBytes)
    ensures !r.response.AttachmentAdded? ==> r.desk == desk
    ensures r.response.AttachmentAdded? ==>
      var a := r.response.attachment;
      && a.ticketId == id && a.originalFilename == file.value.name && a.size <= MaxUploadBytes
      && a.filename == Digits(now) + "_" + file.value.name
      && r.desk == desk.(attachments := desk.attachments + [a])
  {
    match IndexOf(desk, id)
    case None => Result(NotFound, desk)
    case Some(i) =>
      if file.None? || file.value.size > MaxUploadBytes then Result(Invalid, desk)
      else
        var f := file.value;
        var a := Attachment(desk.tickets[i].id, authId.GetOr(1), Digits(now) + "_" + f.name, f.name, f.size);
        Result(AttachmentAdded(a), desk.(attachments := desk.attachments + [a]))
  }

  // ---------------------------------------------------------------- lifecycle

  /** Moving a ticket into 'completed' stamps it with the request time, whatever
      completion time the request sent; a ticket already completed takes the completion
      time from the request alone. */
  lemma CompletionStamped(desk: Desk, id: int, req: UpdateRequest, now: int)
    requires Update(desk, id, req, now).response.Updated?
    requires req.status == Given("completed")
    ensures var before := desk.tickets[IndexOf(desk, id).value];
      var after := Update(desk, id, req, now).response.ticket;
      && after.status == "completed"
      && (before.status != "completed" ==> after.completedAt == Some(now))
      && (before.status == "completed" ==> after.completedAt == req.completedAt.Merge(before.completedAt))
  {
  }

  /** An update that does not set the status to 'completed' never stamps the ticket: the
      completion time comes from the request alone, and is kept when the request has none. */
  lemma StampOnlyOnCompletion(desk: Desk, id: int, req: UpdateRequest, now: int)
    requires Update(desk, id, req, now).response.Updated?
    requires req.status != Given("completed")
    ensures var before := desk.tickets[IndexOf(desk, id).value];
      var after := Update(desk, id, req, now).response.ticket;
      && after.completedAt == req.completedAt.Merge(before.completedAt)
      && (req.completedAt.Absent? ==> after.completedAt == before.completedAt)
  {
  }

  /** Replaying the same update later changes nothing more, except when the first request
      completed the ticket and also sent a completion time: the stamp of the first request
      is then replaced by the time sent, since the replay no longer completes the ticket. */
  lemma UpdateIdempotent(t: Ticket, req: UpdateRequest, now: int, later: int)
    ensures var u := Apply(t, req, now);
      && (!Completes(t, req) || req.completedAt.Absent? ==> Apply(u, req, later) == u)
      && (Completes(t, req) ==> Apply(u, req, later) == u.(completedAt := req.completedAt.Merge(u.completedAt)))
  {
    var u := Apply(t, req, now);
    if req.status == Given("completed") {
      assert u.status == "completed";
    }
  }

  // ---------------------------------------------------------------- dashboard

  /** `due_date < now()` in SQL: a null or non-date due date never compares. */
  predicate DueBefore(t: Ticket, now: int) {
    t.dueDate.Some? && t.dueDate.value.Instant? && t.dueDate.value.at < now
  }

  predicate Overdue(t: Ticket, now: int) {
    DueBefore(t, now) && t.status != "completed" && t.status != "cancelled"
  }

  function OverdueAt(now: int): Ticket -> bool {
    (t: Ticket) => Overdue(t, now)
  }

  datatype Stats = Stats(total: nat, open: nat, inProgress: nat, completed: nat, urgent: nat, overdue: nat)

  function Dashboard(tickets: seq<Ticket>, now: int): (s: Stats)
    ensures s.total == |tickets|
    ensures s.overdue <= s.total && s.urgent <= s.total
  {
    Stats(|tickets|,
      Count(tickets, (t: Ticket) => t.status == "open"),
      Count(tickets, (t: Ticket) => t.status == "in_progress"),
      Count(tickets, (t: Ticket) => t.status == "completed"),
      Count(tickets, (t: Ticket) => t.priority == "urgent"),
      Count(tickets, OverdueAt(now)))
  }

  /** A ticket is counted at most once among open, in progress and completed, and an
      overdue ticket is never completed: so these counts never exceed the total. */
  lemma DashboardBounds(tickets: seq<Ticket>, now: int)
    ensures var s := Dashboard(tickets, now);
      && s.open + s.inProgress + s.completed <= s.total
      && s.overdue + s.completed <= s.total
  {
    var isOpen := (t: Ticket) => t.status == "open";
    var isProgress := (t: Ticket) => t.status == "in_progress";
    var isDone := (t: Ticket) => t.status == "completed";
    var isLate := OverdueAt(now);
    var openOrProgress := (t: Ticket) => isOpen(t) || isProgress(t);
    var active := (t: Ticket) => openOrProgress(t) || isDone(t);
    var lateOrDone := (t: Ticket) => isLate(t) || isDone(t);
    var all := (t: Ticket) => true;
    CountDisjoint(tickets, isOpen, isProgress, openOrProgress);
    CountDisjoint(tickets, openOrProgress, isDone, active);
    CountMonotone(tickets, active, all);
    CountDisjoint(tickets, isLate, isDone, lateOrDone);
    CountMonotone(tickets, lateOrDone, all);
    CountAll(tickets, all);
  }
}
